=== FILE: README.md ===
# timespan, modelled in Dafny

This project models the core of the TypeScript library *timespan*, which works with
calendar-aware durations. The library has five parts, and each one is modelled here.

- **Converters.** There is one converter per unit, from milliseconds up to years.
  - Each has a `between(start, end)` that counts whole units.
  - Each has an `add(n, start)` that moves a date forward by `n` units.
  - Each has metadata: a default name, a plural, an abbreviation, its aliases and the milliseconds per unit.
- **Lookup tables.** These map the 40 unit spellings to converters, plural names, abbreviations,
  conversion records and multipliers. The tables disagree in places, and the model proves where.
- **The current duration engine** (`src/timespan-utils.ts`, `src/utils/`):
  - the parser `calculateTimespanFromString`;
  - the calendar breakdown `calculateTimeFrame`;
  - the formatters `calculateString` and `timeFrameToString`;
  - the delegating calculator functions.
- **The older engine**, the `Timespan` class of `src/timespan.ts`:
  - `fromString`, which sums value × factor over the tokens;
  - a constructor that caches the difference, a greedy fixed-factor breakdown and its text.
- **The guards and assertions**, which validate dates, ranges, unit names and input strings.

How the model represents the library:

- **Dates.** A date is its time value: an `int` count of milliseconds since the epoch.
  - Calendar fields come from the UTC rules of section 21.4.1 of ECMA-262 (module `Calendar`):
    `Day`, `YearFromTime`, `MonthFromTime`, `DateFromTime`, `MakeDay`, `MakeDate`, and the UTC setters built on them.
  - A converter's argument is a `DateArg`: `DateAt(time)` is a Date, and `NonDate` is anything the `instanceof Date` test rejects.
  - The guards take a wider `Value`, which can be null, a string, a Date whose time may be NaN, or anything else.
- **Throwing.** A throwing operation returns a `Result`, and the error carries the exact message the source throws.
- **The clock.** Reading the clock (`new Date()`) becomes a parameter `now`.
- **The token patterns.** The two global patterns are modelled as a `GlobalRegex` class with a `lastIndex` field, which `Exec` reads and updates exactly as `RegExp.prototype.exec` does on a `/g` pattern:
  - `INPUT_REGEX_PATTERN` of `src/constants.ts`;
  - the static `inputStringPattern` of `Timespan`.

  The parsers share these objects across calls. So a scan that throws part-way leaves `lastIndex` behind for the next call (see Findings).
- **Alias arrays.** The alias arrays of the year and hour converters leave out the year/years and hour/hours spellings.
  - So the model builds the table of `src/unit-conversion-map.ts` from either the arrays as written (`AliasSource.AsWritten`) or from completed arrays (`AliasSource.Corrected`).
  - It proves what each choice does.
  - `src/timespan-utils.ts:4-10` imports the functions `between`, `addUnits`, `pluralUnit`, `abbreviatedUnit` and `millisecondsPerUnit` from `src/date-unit-calculator.ts`, but that module exports only the class `DateUnitCalculator` (line 7). As written the import does not resolve, so every call to one of those names fails. The model reads the five names as the methods of that class, whose signatures (lines 41-83) match; they look units up in the 40-key table of `src/date-unit-conversion-map.ts`, which is therefore the alias source of the current engine.
- **`conversionTable` in `Timespan`.** `Timespan` calls `.get` and `.entries()` on the `conversionTable` exported by `src/time-conversion.ts`, but that export is a plain object, which has neither method.
  - As written, every `new Timespan` therefore raises a TypeError (Findings).
  - The model reads it as the evidently intended map: the eight pairs (plural name, conversion factor) of the conversion records, from years down to milliseconds (`TimeConversion.Entries`).
  - The month factor `1000*60*60*24*30.437` is the double 2629756800.
- **Local fields.** The converters read local calendar fields (`getFullYear`, `getMonth`, `getDate`), while month `add` and the parser use UTC setters. All fields are modelled in UTC, as if the host zone were UTC.
- **The `Constants` import.** `src/assertions/assert-allowed-characters.ts` and `src/assertions/assert-max-input-length.ts` use `Constants.AllowedCharactersRegexPattern` and `Constants.MaxInputStringLength` through a default import. `src/constants.ts` has only named exports. The model takes these names to mean `ALLOWED_WHITESPACE_PATTERN` (line 74) and `MAX_INPUT_STRING_LENGTH` (line 95). `src/utils/calculate-time-frame.ts:24` reads `Constants.MonthsPerYear` through the same default import, and `src/constants.ts` has no such name at all. The model of `calculateTimeFrame` reads it as 12, the `monthsInAYear` of `src/converters/date-unit-converter.ts:5` that the copy at `src/timespan-utils.ts:175` uses. `TimeFrameCalculation.MonthsPerYearUndefined` states what the source computes instead (Findings). If the default import itself resolves to `undefined`, reading the property throws a TypeError before any arithmetic happens; the model does not cover that reading.

## Model

| member | source | states |
|---|---|---|
| DateUnitConverter.IsLeapYearDaysInYear | src/converters/date-unit-converter.ts:62-80 | the divisibility rule (by 4 and not 100, or by 400) holds exactly for the years with 366 days on the calendar |
| Converters.MetadataOfUnit | src/converters/date-unit-converter.ts:19-34 | each converter's default, plural and abbreviation are the singular, plural and symbol spellings of its own unit |
| Converters.AliasesOfUnit | src/converters/year-converter.ts:32 | every alias names the converter's own unit; completed, each converter lists all five spellings; as written, year and hour list only the short plural, short name and symbol |
| Converters.FixedLengths | src/converters/date-unit-converter.ts:5-14 | every fixed-length unit has a positive length, related by 7, 24, 60, 60 and 1000 (a year is 365 days); the month has the sentinel -1 |
| Converters.BetweenContract | src/converters/date-unit-converter.ts:41-47 | every converter's `between` fails exactly on a non-Date or a reversed range, with the range message for the latter, and never returns a negative count (for days, away from two-digit years) |
| Converters.AddContract | src/converters/date-unit-converter.ts:49-55 | every converter's `add` fails exactly on a non-Date or a negative amount, and its result is never earlier than the start |
| DateUnitConverter.FixedBetween | src/converters/hour-converter.ts:40-50 | the shared count of a fixed-length unit: fails exactly on a non-Date or a reversed range, otherwise the greatest n with n lengths within the span |
| DateUnitConverter.FixedAdd | src/converters/hour-converter.ts:59-67 | the shared move of a fixed-length unit: fails exactly on a non-Date or a negative amount, otherwise n lengths later |
| DateUnitConverter.FixedBetweenAfterAdd | src/converters/hour-converter.ts:40-67 | for every positive length, counting back over n added lengths gives n |
| MillisecondConverter.Between | src/converters/millisecond-convert.ts:52-60 | "Invalid date input." for a non-Date, the range error for start after end, otherwise exactly end minus start |
| MillisecondConverter.Add | src/converters/millisecond-convert.ts:69-77 | "Invalid date input." for a non-Date, "Invalid millisecond input." for n < 0, otherwise the instant n ms later |
| MillisecondConverter.BetweenAfterAdd | src/converters/millisecond-convert.ts:52-77 | counting back over n added milliseconds gives n |
| SecondConverter.Between | src/converters/second-converter.ts:47-57 | "Invalid date inputs." for a non-Date, the range error for start after end, otherwise the whole seconds in the span (floor) |
| SecondConverter.Add | src/converters/second-converter.ts:66-74 | "Invalid second input." for n < 0, otherwise the instant n·1000 ms later |
| SecondConverter.BetweenAfterAdd | src/converters/second-converter.ts:47-74 | counting back over n added seconds gives n |
| MinuteConverter.Between | src/converters/minute-converter.ts:47-58 | "Invalid date input." for a non-Date, the range error for start after end, otherwise the whole minutes in the span |
| MinuteConverter.Add | src/converters/minute-converter.ts:67-75 | "Invalid minute input." for n < 0, otherwise the instant n·60000 ms later |
| MinuteConverter.BetweenAfterAdd | src/converters/minute-converter.ts:47-75 | counting back over n added minutes gives n |
| HourConverter.Between | src/converters/hour-converter.ts:40-50 | "Invalid date input." for a non-Date, the range error for start after end, otherwise the whole hours in the span |
| HourConverter.Add | src/converters/hour-converter.ts:59-67 | "Invalid hour input." for n < 0, otherwise the instant n·3600000 ms later |
| HourConverter.BetweenAfterAdd | src/converters/hour-converter.ts:40-67 | counting back over n added hours gives n |
| WeekConverter.Between | src/converters/week-converter.ts:47-57 | "Invalid date inputs." for a non-Date, the range error for start after end, otherwise the whole weeks in the span |
| WeekConverter.Add | src/converters/week-converter.ts:66-76 | "Invalid week input." for n < 0, otherwise the instant n·604800000 ms later |
| WeekConverter.BetweenAfterAdd | src/converters/week-converter.ts:47-76 | counting back over n added weeks gives n |
| DayConverter.DayOfYear | src/converters/day-converter.ts:91-95 | the 1-based day of the year: whole days since 1 January of the date's year, plus one |
| DayConverter.LeapYearsBetweenDays | src/converters/day-converter.ts:57-61 | the leap years counted in [startYear, endYear) are exactly the days by which those years exceed 365 days each |
| DayConverter.DaysBetween | src/converters/day-converter.ts:41-67 | "Invalid date input." for a non-Date, the range error for start after end, otherwise the day count of the two dates |
| DayConverter.Between | src/converters/day-converter.ts:41-67 | the loop over the years, adding a day per leap year, returns exactly DaysBetween |
| DayConverter.DayCountIsDayDifference | src/converters/day-converter.ts:49-66 | outside the two-digit years, the count is the difference of the calendar day numbers, so it ignores the time of day and is never negative |
| DayConverter.Add | src/converters/day-converter.ts:76-84 | "Invalid day input." for n < 0, otherwise the instant n·86400000 ms later |
| DayConverter.BetweenAfterAdd | src/converters/day-converter.ts:41-84 | counting back over n added days gives n, outside the two-digit years |
| MonthConverter.Between | src/converters/month-converter.ts:47-68 | "Invalid date inputs." for a non-Date, the range error for start after end, otherwise the whole-month count |
| MonthConverter.MonthsBetweenIndex | src/converters/month-converter.ts:56-66 | the count is the difference of the running month numbers, less one when the end's date is before the start's |
| MonthConverter.MonthsBetweenNonNegative | src/converters/month-converter.ts:47-68 | the count of an ordered range is never negative |
| MonthConverter.Added | src/converters/month-converter.ts:77-98 | "Invalid date input." for a non-Date, "Invalid month input." for n < 0, otherwise the start's date and UTC time of day n months on |
| MonthConverter.Add | src/converters/month-converter.ts:77-98 | clearing the time, `setUTCMonth` and restoring the time on a copy gives exactly Added |
| MonthConverter.MonthsLaterFields | src/converters/month-converter.ts:85-96 | when the target month has the start's date, the result is that date in the target month, at the start's time of day, n months later in the running count |
| MonthConverter.MonthsLaterSpills | src/converters/month-converter.ts:90 | no clamping: a date past the end of the target month spills into the next month by the surplus days |
| MonthConverter.MonthsLaterZero | src/converters/month-converter.ts:77-98 | adding zero months leaves the instant unchanged |
| MonthConverter.MonthsLaterNotEarlier | src/converters/month-converter.ts:77-98 | adding months never moves backwards |
| MonthConverter.BetweenAfterAdd | src/converters/month-converter.ts:47-98 | counting back over n added months gives n whenever the target month has the start's date |
| YearConverter.Between | src/converters/year-converter.ts:41-57 | "Invalid date inputs." for a non-Date, the range error for start after end, otherwise the bare difference of the years |
| YearConverter.YearsBetweenNonNegative | src/converters/year-converter.ts:53-56 | the year count of an ordered range is never negative |
| YearConverter.Added | src/converters/year-converter.ts:66-91 | "Invalid date input." for a non-Date, "Invalid year input." for n < 0, otherwise the start moved n years on, 29 February clamped |
| YearConverter.Add | src/converters/year-converter.ts:66-91 | `setFullYear` on a copy, then `setMonth(1)` and `setDate(28)` for a leap day landing in a common year, gives exactly Added |
| YearConverter.LeapDaySpills | src/converters/year-converter.ts:80-81 | in a common year, `setFullYear` turns 29 February into 1 March, which is why the clamp is needed |
| YearConverter.ClampSteps | src/converters/year-converter.ts:84-88 | the clamp's two setters take that spilled 1 March to 28 February of the target year |
| YearConverter.YearsLaterFields | src/converters/year-converter.ts:73-88 | the result is in the target year, with the start's month and time of day, and its date is 28 when clamped, the start's date otherwise |
| YearConverter.DateFitsTarget | src/converters/year-converter.ts:84 | when the clamp does not fire, the start's date exists in the same month of the target year |
| YearConverter.YearsLaterZero | src/converters/year-converter.ts:66-91 | adding zero years leaves the instant unchanged |
| YearConverter.YearsLaterNotEarlier | src/converters/year-converter.ts:66-91 | adding years never moves backwards |
| YearConverter.BetweenAfterAdd | src/converters/year-converter.ts:41-91 | counting back over n added years gives n, the clamp included |
| UnitsOfTime.Group | src/units-of-time.ts:1-13 | each union type holds five spellings, all of its own unit |
| UnitsOfTime.GroupsPartition | src/units-of-time.ts:1-13 | a spelling lies in its own unit's group and in no other |
| UnitsOfTime.AllTimeUnits | src/units-of-time.ts:18-26 | the union `TimeUnit` holds 40 spellings |
| UnitsOfTime.AllTimeUnitsComplete | src/units-of-time.ts:18-26 | every spelling of every unit is in the union |
| UnitsOfTime.AllTimeUnitsDistinct | src/units-of-time.ts:1-26 | the 40 spellings of the union are pairwise distinct |
| UnitsOfTime.ParseText | src/units-of-time.ts:1-13 | a string reads back as a spelling exactly when it is that spelling's text |
| UnitsOfTime.TextInjective | src/units-of-time.ts:1-13 | no two spellings share a text |
| UnitsOfTime.CaseMatters | src/units-of-time.ts:8-12 | "M" is only a month and "m" only a minute; "dy" and "millisecond" are spellings; "Years" is not |
| TimeUnitEnum.MemberIsPlural | src/time-unit.ts:4-194 | the enum's keys are all spellings except "dy" and "millisecond", and each maps to its unit's plural name |
| TimeUnitEnum.MemberExamples | src/time-unit.ts:4-194 | each plural name maps to itself, "M" to months and "m" to minutes; "dy" and "millisecond" are not keys |
| AbbreviatedTimeUnit.MemberIsAbbreviation | src/abbreviated-time-unit.ts:4-194 | the keys are those of the TimeUnit enum, and each maps to its unit's abbreviation, the one its converter declares |
| AbbreviatedTimeUnit.MemberExamples | src/abbreviated-time-unit.ts:4-194 | abbreviations map to themselves and plural names to abbreviations; "M" and "m" map differently |
| TimeConversion.RecordOfUnit | src/time-conversion.ts:1-61 | each record carries its converter's names, three aliases of its own unit ending in the symbol, and the converter's length for every fixed unit |
| TimeConversion.TableOfUnit | src/time-conversion.ts:63-117 | the table's keys are those of the TimeUnit enum, and each maps to its unit's record |
| TimeConversion.EntriesDecrease | src/time-conversion.ts:1-61 | the eight factors, taken in key order from years, are positive, strictly decrease and end at 1 |
| TimeConversion.PropertyOf | src/time-conversion.ts:63-117 | a property read on the exported plain object finds a record exactly under a key of the enum, the record of that key's unit, and otherwise only an inherited Object.prototype method, the prototype object itself under `__proto__`, or nothing |
| TimeConversion.CallMethod | src/time-conversion.ts:63-117 | a method call on it succeeds exactly when the property is an inherited method; a record or a missing property raises a TypeError |
| TimeConversion.MapMethodsMissing | src/timespan.ts:36 | `get` and `entries` are neither keys nor inherited, so calling either raises a TypeError |
| UnitMultipliers.UnitMultiplier | src/unit-multipliers.ts:5-159 | a unit's multiplier is its converter's length, except the month, which is 30 days |
| UnitMultipliers.MultiplierOfUnit | src/unit-multipliers.ts:5-159 | the keys are those of the TimeUnit enum, and all spellings of one unit share its multiplier |
| UnitMultipliers.MultiplierExamples | src/unit-multipliers.ts:45-158 | "M" maps to 2592000000, "m" to 60000 and "years" to 31536000000, while the month converter itself has no fixed length |
| DateUnitConversionMap.ConverterOfUnit | src/date-unit-conversion-map.ts:16-67 | every spelling maps to the converter of its own unit, so all five spellings share one instance |
| DateUnitConversionMap.Get | src/date-unit-conversion-map.ts:76-82 | succeeds exactly on the 40 spellings, giving the spelling's unit; otherwise fails with "Invalid date unit: " and the key |
| DateUnitConversionMap.GetOfText | src/date-unit-conversion-map.ts:76-82 | every spelling's text gets its own unit's converter |
| DateUnitConversionMap.GetAccepts | src/date-unit-conversion-map.ts:27-68 | a key is accepted exactly when it is the text of a spelling |
| DateUnitConversionMap.TableExamples | src/date-unit-conversion-map.ts:27-68 | "M" is the month converter and "m" the minute converter; "dy" and "millisecond" are keys |
| DateUnitConversionMap.CaseSensitive | src/date-unit-conversion-map.ts:76-82 | "Years" is rejected |
| UnitConversionMap.BuildTable | src/unit-conversion-map.ts:24-32 | the nested loop over converters and aliases builds exactly the fold of the alias arrays |
| UnitConversionMap.CollectTimeUnits | src/unit-conversion-map.ts:34-42 | the loop that collects every alias into a Set builds exactly the fold of the alias arrays |
| UnitConversionMap.AddAliasesKeys | src/unit-conversion-map.ts:27-29 | entering one converter's aliases adds exactly those keys, maps them to it and leaves the other keys alone |
| UnitConversionMap.AddNewElements | src/unit-conversion-map.ts:37-39 | adding to the Set keeps every old element, adds the new ones and never creates a duplicate |
| UnitConversionMap.TableOfKeys | src/unit-conversion-map.ts:24-32 | a key is in the table exactly when it is an alias of an entered converter, and it maps to its own unit |
| UnitConversionMap.UnitsOfElements | src/unit-conversion-map.ts:34-42 | the list holds exactly the aliases of the entered converters, each once |
| UnitConversionMap.TableMatchesUnits | src/unit-conversion-map.ts:24-50 | the table's keys are exactly the listed units, each maps to its own unit, and the list has no duplicates |
| UnitConversionMap.ListedUnits | src/unit-conversion-map.ts:13-50 | completed, all 40 spellings are listed; as written, year, years, hour and hours are missing |
| UnitConversionMap.GetConverter | src/unit-conversion-map.ts:58-61 | succeeds exactly on a listed spelling, with a converter whose aliases contain it; otherwise "Invalid date unit: <u>." |
| UnitConversionMap.GetConverterOfText | src/unit-conversion-map.ts:58-61 | as written, "years", "year", "hours" and "hour" are rejected and every other spelling reaches its converter; completed, every spelling does |
| UnitConversionMap.GetConverterOfSpelling | src/unit-conversion-map.ts:58-61 | with the completed arrays, every spelling's text gets its own unit's converter |
| DateUnitCalculator.Between | src/date-unit-calculator.ts:81-83 | an unknown unit fails in the lookup; a known one gives exactly its converter's `between` |
| DateUnitCalculator.CalculateUnitBetween | src/date-unit-calculator.ts:27-34 | the same lookup and count, with the unit as the last argument |
| DateUnitCalculator.MillisecondsPerUnit | src/date-unit-calculator.ts:41-43 | the converter's length for a known unit, the lookup error otherwise |
| DateUnitCalculator.PluralUnit | src/date-unit-calculator.ts:50-52 | for a known unit, the text of that unit's plural name |
| DateUnitCalculator.AbbreviatedUnit | src/date-unit-calculator.ts:59-61 | for a known unit, the text of that unit's abbreviation |
| DateUnitCalculator.AddUnits | src/date-unit-calculator.ts:70-72 | an unknown unit fails in the lookup; a known one gives exactly its converter's `add` |
| DateUnitCalculator.BetweenAgrees | src/date-unit-calculator.ts:27-83 | both argument orders agree, and the count fails exactly on an unknown unit, a non-Date or a reversed range |
| DateUnitCalculator.NamesRoundTrip | src/date-unit-calculator.ts:50-61 | the plural and the abbreviation of a unit are spellings of that same unit: taking either name again changes nothing |
| DateUnitCalculator.HourLength | src/date-unit-calculator.ts:41-43 | millisecondsPerUnit("hour") is 3600000 |
| DateUnitCalculator.MinutePlural | src/date-unit-calculator.ts:50-52 | pluralUnit("minute") is "minutes" |
| DateUnitCalculator.MonthAbbreviation | src/date-unit-calculator.ts:59-61 | abbreviatedUnit("month") is "M" |
| DateUnitCalculator.ThreeYearsLater | src/date-unit-calculator.ts:70-72 | addUnits("year", 3, 2023-01-01T00:00Z) is 2026-01-01T00:00Z |
| Constants.AllowedPatternRejects | src/constants.ts:74 | the anchored whitelist fails exactly on the empty string and on any string with a character outside letters, digits and whitespace |
| Constants.AllowedPatternExamples | src/constants.ts:74 | "Hello123" and "Test String" pass; "123-456", "@#$" and "" fail |
| TypeUtils.DateGuards | src/type-utils/is-valid-date-range.ts:7-9 | a Date with a numeric time is valid; NaN and non-Dates are not; a range is valid exactly when the start is not after the end, and never with a NaN |
| TypeUtils.TimeUnitGuard | src/type-utils/is-valid-time-unit.ts:9-11 | a value is a valid unit exactly when it is a string listed by getTimeUnits |
| Assertions.AssertValidDate | src/assertions/assert-valid-date.ts:8-12 | passes exactly on a Date with a numeric time, otherwise "Invalid date input." |
| Assertions.AssertValidDateRange | src/assertions/assert-valid-date-range.ts:9-13 | passes exactly when both times are numbers and start is at most end, otherwise the range message |
| Assertions.AssertValidTimeUnit | src/assertions/assert-valid-time-unit.ts:9-13 | passes exactly on a listed spelling, otherwise "Invalid date unit: <unit>." |
| Assertions.AssertAllowedCharacters | src/assertions/assert-allowed-characters.ts:7-17 | passes exactly on a non-empty string of letters, digits and whitespace, otherwise "Invalid input string" |
| Assertions.AssertMaxInputLength | src/assertions/assert-max-input-length.ts:7-15 | passes exactly on a string of at most 75 characters, otherwise "Invalid input string" |
| Assertions.DateChecks | src/assertions/assert-valid-date-range.ts:9-13 | equal dates pass the range check, a later start does not, and a NaN time fails both date checks |
| Assertions.LengthBoundary | src/assertions/assert-max-input-length.ts:11 | 75 characters pass and 76 fail; the empty string passes the length guard but fails the whitelist |
| Assertions.TimeUnitChecks | src/assertions/assert-valid-time-unit.ts:10 | every listed spelling passes; "Years" fails; as written, "years" fails too; non-strings are not units |
| TimeFrames.CreateTimeframe | src/type-utils/create-timeframe.ts:7-18 | every field of the new record is 0 |
| TimeFrames.Set | src/timespan-utils.ts:87 | storing a field changes that field and no other |
| TimeFrames.KeyOrderComplete | src/type-utils/create-timeframe.ts:8-17 | the key order lists every unit once, and each key is the plural name of its unit |
| TimeFrames.FrameExtensionality | src/types/timeframe.ts:4-39 | a record is determined by its eight fields |
| FrameText.ShownInKeyOrder | src/utils/timeframe-to-string.ts:14-17 | the fields emitted are exactly the accepted non-zero ones, in key order |
| FrameText.PartsOfShown | src/utils/timeframe-to-string.ts:14-19 | there is one part per emitted field, and the j-th part is that field's value and abbreviation |
| FrameText.AbbreviationLetters | src/abbreviated-time-unit.ts:4-194 | an abbreviation is a non-empty run of ASCII letters that reads back as its own symbol |
| FrameText.PartShape | src/utils/timeframe-to-string.ts:18-19 | a part is the decimal value, sign included, immediately followed by the abbreviation, with no space; it starts with '-' exactly for a negative value |
| FrameText.PartInjective | src/utils/timeframe-to-string.ts:18-19 | a part determines its unit and its value |
| FrameText.RenderSplits | src/utils/timeframe-to-string.ts:11-22 | the text is empty exactly when no field is emitted, and otherwise splits on single spaces back into exactly the parts |
| FrameText.RenderInjective | src/timespan-utils.ts:134-147 | with every key accepted, distinct records render differently |
| FrameText.SkippedKeysAreZeroed | src/utils/timeframe-to-string.ts:17 | skipping rejected keys renders like the record with those fields zeroed |
| FrameText.MonthsAndMinutes | src/utils/timeframe-to-string.ts:18 | two months and thirty minutes render as "2M 30m" |
| TimeframeToString.KeyLookup | src/utils/timeframe-to-string.ts:17-18 | a key passes `isValidTimeUnit` exactly when kept, and then `getConverter` gives its unit, whose abbreviation is the symbol |
| TimeframeToString.TimeFrameToString | src/utils/timeframe-to-string.ts:10-23 | for a record with the eight fields in key order, the loop produces exactly the joined parts of the non-zero fields whose keys pass the validity test |
| TimeframeToString.AsWrittenDropsYearsAndHours | src/utils/timeframe-to-string.ts:17 | with the alias arrays as written, the text is that of the record with years and hours zeroed |
| Patterns.InputMatchAt | src/constants.ts:37 | a match tried at i has the shape of 0 to 10 digits and a run of characters that are neither whitespace nor digits, and the run is maximal |
| Patterns.MatchAt | src/constants.ts:37 | a match tried at i starts at i, is non-empty, stays within the input and has its pattern's shape |
| Patterns.LegacyMatchAt | src/timespan.ts:12 | a match tried at i has the shape digits, optional whitespace, letters, and the letter run is maximal |
| Patterns.InputMatchComplete | src/constants.ts:37 | wherever at most ten digits precede a unit character, the pattern matches there with exactly those digits as the amount |
| Patterns.Find | src/constants.ts:37 | the match found from a position starts at or after it, is the match at its start, and nothing matches before it |
| Patterns.Tokens | src/timespan-utils.ts:74-91 | the matches that successive `exec` calls return lie within the input, each after the previous one |
| Patterns.TokenAt | src/timespan-utils.ts:74-91 | searching again from the end of the last match finds the next collected match, and nothing after the last one |
| Patterns.TokensOrdered | src/constants.ts:37 | collected matches never overlap and come left to right |
| Patterns.TokenMatches | src/constants.ts:37 | each collected match is the match at its start, and nothing matches between two of them |
| Patterns.TokensWellFormed | src/constants.ts:80-86 | every collected match has its pattern's shape, so group 1 is all digits |
| Patterns.AmountDigits | src/constants.ts:80 | a well-formed match's amount group is all digits |
| Patterns.GlobalRegex.Exec | src/timespan-utils.ts:74 | `exec` on a global pattern searches from `lastIndex`, moves it past a match, and resets it to 0 when nothing is found |
| Patterns.RunTogether | src/constants.ts:37 | "1y2M" is two matches, because the unit run stops at the next digit |
| Patterns.BareUnit | src/constants.ts:37 | "y" matches with an empty amount |
| Patterns.LegacySpacing | src/timespan.ts:12 | the older pattern matches "2 h" as one token, with spaces between number and unit |
| TimeFrameCalculation.JsRem | src/utils/calculate-time-frame.ts:42 | JavaScript's `%`: the remainder lies strictly between -b and b, is the floor remainder for a non-negative dividend, and is never positive for a negative one |
| TimeFrameCalculation.SplitContract | src/utils/calculate-time-frame.ts:41-51 | the corrected split keeps years and months, its fields add back to the residual, and days, hours, minutes, seconds and milliseconds lie within their units |
| TimeFrameCalculation.SplitAsWritten | src/utils/calculate-time-frame.ts:41-51 | the division chain as written agrees with the corrected split whenever the residual is not negative |
| TimeFrameCalculation.NegativeResidualSplit | src/utils/calculate-time-frame.ts:41-51 | on a residual of minus one hour the chain as written gives -1 week, -1 day, -1 hour, whose weighted sum is not the residual; the floor split gives -1 week, 6 days, 23 hours |
| TimeFrameCalculation.TruncatingStep | src/utils/calculate-time-frame.ts:41-42 | on a remainder that is not positive, a floor quotient and a truncating `%=` step are not positive and together stand for no more than the remainder |
| TimeFrameCalculation.SplitAsWrittenNegative | src/utils/calculate-time-frame.ts:41-51 | on a negative residual the chain as written gives no positive field, and its fields stand for no more than the residual |
| TimeFrameCalculation.BreakdownContract | src/utils/calculate-time-frame.ts:17-51 | for the breakdown the source computes: the years are the year converter's count, years·12 + months is the month converter's count, and the residual is the end minus the shifted start; when the shifted start does not pass the end, the breakdown is the corrected one, its lower fields add up to the residual and each lies within its unit; when it does, no lower field is positive and they stand for no more than the residual |
| TimeFrameCalculation.CorrectedBreakdownContract | src/utils/calculate-time-frame.ts:17-51 | the floor-remainder breakdown keeps the same years and months, and its lower fields add up to the residual and lie within their units whatever its sign |
| TimeFrameCalculation.MonthsPerYearUndefined | src/utils/calculate-time-frame.ts:23-28 | as written, with `Constants.MonthsPerYear` undefined, every ordered span gives the year count and NaN for the seven other fields; read as 12, the fields are exactly the breakdown, whose years and months add up to the month converter's count |
| TimeFrameCalculation.TimeFrameOf | src/utils/calculate-time-frame.ts:13-54 | fails exactly where the year converter fails, with its message, and otherwise gives the breakdown with the truncating division chain |
| TimeFrameCalculation.EqualDatesGiveZeros | src/utils/calculate-time-frame.ts:13-54 | equal start and end give the all-zero record |
| TimeFrameCalculation.NegativeMonths | src/utils/calculate-time-frame.ts:17-25 | from 20 November to 14 February two years on, the record has 2 years and -10 months |
| TimeFrameCalculation.OvershootingMonth | src/utils/calculate-time-frame.ts:27-51 | from 15 January 10:00Z to 15 February 09:00Z, the month shift passes the end by an hour; the source's breakdown is 1 month, -1 week, -1 day, -1 hour, standing for -694800000 ms, while the corrected breakdown is 1 month, -1 week, 6 days, 23 hours |
| TimeFrameCalculation.YearAndMonthConverters | src/utils/calculate-time-frame.ts:17-20 | 'years' reaches a converter only with the completed alias arrays; 'months' always does |
| TimeFrameCalculation.ShiftYearsAndMonths | src/utils/calculate-time-frame.ts:27-28 | the two setters on the copy of the start give the start shifted by the years, then the months |
| TimeFrameCalculation.UnitLengths | src/utils/calculate-time-frame.ts:35-39 | with the completed arrays, the five converters looked up give 604800000, 86400000, 3600000, 60000 and 1000 ms |
| TimeFrameCalculation.Divide | src/utils/calculate-time-frame.ts:41-51 | the chain of floor quotients and truncating `%=` gives exactly the split as written, which equals the floor split on a residual that is not negative |
| TimeFrameCalculation.FillResidual | src/utils/calculate-time-frame.ts:27-51 | shifting, taking the residual and dividing give the source's breakdown for the stored years and months |
| TimeFrameCalculation.CalculateTimeFrame | src/utils/calculate-time-frame.ts:12-54 | as written, it always fails with "Invalid date unit: years."; with the completed alias arrays and `Constants.MonthsPerYear` read as 12, it gives exactly TimeFrameOf |
| TimespanUtils.CalculateUnitsFromTimespan | src/timespan-utils.ts:28-34 | fails exactly on an unknown unit, a non-Date or a reversed range; otherwise the unit's converter count |
| TimespanUtils.CalculateTimespanFromUnits | src/timespan-utils.ts:119-127 | fails exactly on an unknown unit or a negative amount; otherwise a span from the start, or `now`, to the start moved on by the amount, never ending before it starts |
| TimespanUtils.CalculateString | src/timespan-utils.ts:134-147 | for a record with the eight fields in key order, the loop produces exactly the joined parts of the non-zero fields |
| TimespanUtils.AbbreviationOfKey | src/timespan-utils.ts:142 | each plural key's `abbreviatedUnit` is its unit's symbol |
| TimespanUtils.CalculateTimeFrame | src/timespan-utils.ts:155-206 | the utilities' breakdown, through `between` and `millisecondsPerUnit`, is exactly TimeFrameOf, truncating remainders included |
| TimespanUtils.YearsAndMonths | src/timespan-utils.ts:169-172 | the two `between` calls on 'years' and 'months' give exactly the year and month converters' counts |
| TimespanUtils.UnitLengths | src/timespan-utils.ts:187-191 | `millisecondsPerUnit` gives 604800000, 86400000, 3600000, 60000 and 1000 ms for weeks down to seconds |
| TimespanUtils.FillResidual | src/timespan-utils.ts:179-203 | shifting, taking the residual and dividing with the truncating `%=` give the source's breakdown for the stored years and months |
| TimespanUtils.ShiftEnd | src/timespan-utils.ts:94-105 | the eight UTC setters on a copy of the start give the end that the record's fields describe, in the order years to milliseconds |
| TimespanUtils.ScanFields | src/timespan-utils.ts:53-91 | the guards and the `exec` loop give exactly the specified parse from the pattern's `lastIndex`, and leave `lastIndex` where the specification says |
| TimespanUtils.CalculateTimespanFromString | src/timespan-utils.ts:46-110 | fails exactly when the parse fails, with its message; otherwise a span from the start, or `now`, to the shifted end; `lastIndex` is left as the scan leaves it |
| TimespanUtils.CalculateTimespanFromStringReset | src/timespan-utils.ts:74-91 | with `lastIndex` reset first, the outcome is the parse of the whole input, whatever earlier calls did |
| TimespanUtils.FillSucceeds | src/timespan-utils.ts:82-91 | storing the entries succeeds exactly when every unit is known; otherwise the error names the first unknown unit |
| TimespanUtils.LastEntryWins | src/timespan-utils.ts:86-87 | a unit given more than once keeps its last amount |
| TimespanUtils.FieldsUntouched | src/timespan-utils.ts:82-91 | a field that no entry names keeps its value |
| TimespanUtils.ParseOutcomes | src/timespan-utils.ts:53-91 | "Invalid input string" exactly for input over 75 characters or outside the whitelist; "Invalid unit" exactly when nothing matches; otherwise success exactly when every unit is known, else "Invalid date unit: " and the first unknown unit |
| TimespanUtils.MessagesDiffer | src/timespan-utils.ts:53-91 | the unknown-unit message differs from the other two |
| TimespanUtils.ParsedFields | src/timespan-utils.ts:62-91 | after a successful parse, every entry names a unit, and a field no entry names stays 0 |
| TimespanUtils.FiveHours | src/timespan-utils.ts:46-91 | "5h" parses to the record of five hours |
| TimespanUtils.UnknownUnitLeavesIndex | src/timespan-utils.ts:74-91 | "5x" fails with "Invalid date unit: x", leaving `lastIndex` at 2 |
| TimespanUtils.StaleLastIndex | src/timespan-utils.ts:74-91 | after "5x" fails, a call on the valid "5h" scans from position 2 and fails with "Invalid unit", although "5h" parses from 0 |
| TimespanUtils.StaleIndexMissesMatch | src/timespan-utils.ts:74-79 | scanning "5h" from position 2 finds nothing and fails with "Invalid unit" |
| Timespans.EntryUnits | src/time-conversion.ts:1-61 | the walk visits the record's keys in key order, with the factors 31536000000, 2629756800, 604800000, 86400000, 3600000, 60000, 1000 and 1 |
| Timespans.ConstructionThrows | src/timespan.ts:183 | as written, the breakdown the constructor computes raises a TypeError at `conversionTable.entries()` for every difference |
| Timespans.GreedyIsReference | src/timespan.ts:180-191 | the walk with its early stop gives exactly the reference breakdown, where each field is the floor quotient of what the larger units leave |
| Timespans.GreedySum | src/timespan.ts:180-191 | the fields, weighted by their factors, add up to the whole difference |
| Timespans.GreedyFromReference | src/timespan.ts:183-191 | from any prefix already holding the reference fields, the rest of the walk completes the reference breakdown |
| Timespans.ReferencePrefix | src/timespan.ts:183-191 | the first n reference fields, weighted, plus what they leave add up to the difference |
| Timespans.ShareTaken | src/timespan.ts:184-186 | each step takes its field times its factor from what remains |
| Timespans.GreedyBounds | src/timespan.ts:180-191 | every field after the years is non-negative, what each leaves is below its factor, and the years take the sign of the difference |
| Timespans.NothingLeft | src/timespan.ts:188-190 | once nothing is left, every later field stays 0 |
| Timespans.CalculateTimeFrame | src/timespan.ts:167-194 | the loop with its `break` gives exactly the greedy breakdown |
| Timespans.YearAndAMonth | src/timespan.ts:167-194 | 35958480000 ms breaks down as 1y 1M 2w 6d 17h 58m 43s 200ms |
| Timespans.PluralKey | src/timespan.ts:204-212 | every plural key is an enum key, and its abbreviation is its unit's symbol |
| Timespans.CalculateString | src/timespan.ts:200-218 | the loop produces exactly the joined parts of the non-zero fields in key order |
| Timespans.Timespan.constructor | src/timespan.ts:59-65 | the span keeps its two instants and caches values consistent with them; nothing requires the end to follow the start |
| Timespans.Timespan.ToMilliseconds | src/timespan.ts:103-105 | end minus start, negative exactly when the end is earlier |
| Timespans.Timespan.ToTimeframe | src/timespan.ts:87-89 | the cached greedy breakdown of the difference |
| Timespans.Timespan.ToString | src/timespan.ts:95-97 | the cached text of that breakdown |
| Timespans.ReadKey | src/timespan.ts:31-38 | a match's unit has a table entry exactly when it is an enum key, and that entry is the plural of its unit |
| Timespans.MatchShare | src/timespan.ts:28-44 | a match adds its number times its unit's factor, or fails with "Invalid unit: <value><unit>" |
| Timespans.ShareOfRead | src/timespan.ts:31-41 | a match whose unit is a key adds its number times that key's factor in the conversion table |
| Timespans.SumMatches | src/timespan.ts:27-47 | the loop sums every match's share, or stops at the first unknown unit with its error; `lastIndex` stays at that match's end, and is 0 after a full scan |
| Timespans.ScanTotal | src/timespan.ts:21-47 | the scan gives exactly the specified total from `lastIndex`, including "Invalid unit" when nothing matches, and leaves `lastIndex` where the specification says |
| Timespans.FromString | src/timespan.ts:20-52 | fails exactly when the total fails, with its message; otherwise a span ending at `now` and starting the total earlier |
| Timespans.FromStringReset | src/timespan.ts:20-52 | with `lastIndex` reset first, the outcome is the total of the whole input, whatever earlier calls did |
| Timespans.TotalFails | src/timespan.ts:31-44 | the first unknown unit decides the error, whatever follows it |
| Timespans.TotalStops | src/timespan.ts:42-44 | once the running sum reaches an unknown unit, the total is that unit's error |
| Timespans.TotalSucceeds | src/timespan.ts:27-47 | the total succeeds when every unit is a key |
| Timespans.TotalAppend | src/timespan.ts:27-47 | the total of two runs of matches is the sum of their totals, so repeated units accumulate |
| Timespans.TwoHours | src/timespan.ts:20-47 | "2 h" totals 7200000 ms |
| Timespans.NothingMatches | src/timespan.ts:23-26 | an input without a match fails with "Invalid unit" |
| Timespans.UnknownUnit | src/timespan.ts:42-44 | "5x" fails with "Invalid unit: 5x", leaving `lastIndex` at 2 |
| Timespans.StaleLastIndex | src/timespan.ts:12 | after "5x" fails, a call on "2 h" scans from position 2 and fails with "Invalid unit", although "2 h" totals two hours from 0 |
| Timespans.LateScanMissesMatch | src/timespan.ts:23-26 | scanning "2 h" from position 2 finds nothing and fails with "Invalid unit" |

## Left out

- Local time zones and daylight saving. Every calendar field is taken in UTC. The converters' local getters and the year converter's local `setFullYear`, `setMonth` and `setDate` are read as their UTC counterparts.
- The clock. `new Date()` in `src/timespan-utils.ts:50`, `:124` and `src/timespan.ts:49` is the parameter `now`.
- The floating-point accessors `toSeconds` … `toYears` (`src/timespan.ts:111-161`). They are plain divisions by float constants.
- The `start` and `end` getters are not separate members. The class's `startDate` and `endDate` fields are read directly.
- Fractional and non-finite amounts. Amounts and instants are unbounded integers:
  - the ±8.64e15 ms range limit of a time value (TimeClip) is not modelled;
  - `Number()` on a ten-digit amount is exact;
  - the legacy pattern's `\d+` (`src/timespan.ts:12`) takes amounts of any length, and `fromString` has no length guard. Above 2^53, `Number(match[1])` rounds, and from 1e21 on, `${value}` in the "Invalid unit: …" message prints exponent notation. `Timespans.Read` and `Timespans.InvalidUnit` use exact integers and their decimal text.
- NaN time values. These appear only in the guards (`TypeUtils`, `Assertions`). A converter argument is either a Date with a numeric time or not a Date.
- `instanceof` on arbitrary values is reduced to the `DateAt`/`NonDate` distinction.
- Inherited prototype keys such as "toString" passing the key tests (`isKeyOf`, the enum and table lookups) are not modelled. The tables are finite maps. Only the method calls on `conversionTable` look at inherited properties (`TimeConversion.PropertyOf`).
- JavaScript strings are sequences of UTF-16 code units; `seq<char>` holds Unicode scalar values. Inputs with characters outside the Basic Multilingual Plane are therefore counted differently by the length guard.
- The test expectations that contradict the code are not encoded:
  - `test/year-converter.test.ts:32-37`;
  - `test/date-unit-calculator.test.ts:53-58`;
  - `test/timespan.test.ts:21-76`;
  - `test/timespan.test.ts:146` and `:178`, which expect `fromString` of "1y 2M 3w 4d 5h 6m 7s 8ms" (and its abbreviated variant) to total 38898367008 ms. That total needs a 30-day month, while the factor `1000*60*60*24*30.437` of `src/time-conversion.ts:14` makes it 38973880608 ms. More generally, no expectation of `test/timespan.test.ts:85-181` is encoded.
- The end-to-end example in `tools/commands/test-distribution.ts` is not proved as a concrete instance. Its parts are covered in general by `TimespanUtils.ParseOutcomes`, `TimespanUtils.LastEntryWins`, `TimespanUtils.ShiftEnd` and `FrameText.RenderSplits`.
- Everything under `tools/`, `rollup.config.cjs` and `sandbox.ts` (build, CLI and demo code).
- DayConverter.DayCountIsDayDifference: stated only outside the years 0 to 99. There, `new Date(year, 0, 1)` maps the year to 1900 + year, so the day-of-year term is off by whole centuries (the model keeps that quirk in `StartOfYearDay`).
- DayConverter.BetweenAfterAdd: stated only outside the years 0 to 99, for the same reason.
- Converters.BetweenContract: the non-negative count for days is stated only outside the years 0 to 99, for the same reason.
- MonthConverter.BetweenAfterAdd: stated only when the target month has the start's date. When the date spills into the following month, counting back gives n + 1 or n.
- TimespanUtils.CalculateUnitsFromTimespan, TimespanUtils.CalculateTimespanFromUnits, TimespanUtils.CalculateTimeFrame, TimespanUtils.CalculateString and TimespanUtils.CalculateTimespanFromString: these call `between`, `addUnits`, `millisecondsPerUnit`, `abbreviatedUnit` and `pluralUnit`, which `src/date-unit-calculator.ts` does not export (it exports only the class `DateUnitCalculator`). As written, the import at `src/timespan-utils.ts:4-10` is unresolved, and each call fails: `calculateString` on any record with a non-zero field, `calculateTimespanFromString` from its first match on. The contracts describe the evidently intended reading, in which the five names are the methods of `DateUnitCalculator` (`src/date-unit-calculator.ts:41-83`); the failure itself is not modelled.
- TimeFrameCalculation.CalculateTimeFrame: with the alias arrays as written it always fails, so its useful contract is stated for the completed arrays. It also reads `Constants.MonthsPerYear` as 12, whereas the source reads an undefined property there and gets NaN months (see Findings and `TimeFrameCalculation.MonthsPerYearUndefined`).
- TimeFrameCalculation.BreakdownContract: the residual adds back and the fields lie within their units only when the shifted start does not pass the end. Otherwise the source's truncating `%=` loses whole units, and the contract states only that no lower field is positive and that they stand for no more than the residual (see Findings). The floor-remainder version is `CorrectedBreakdownContract`.
- TimeframeToString.TimeFrameToString: a TimeFrame is the eight fields in `createTimeframe`'s order, and `Object.keys` over a caller's object is not modelled. So these cases are out of scope: extra keys (an extra `ms: 3` passes the validity test and would render as "3ms"), another key order (a literal written milliseconds first renders in that order), and non-numeric values.
- TimespanUtils.CalculateString: the same restriction to the eight fields in key order; an extra key that is not a spelling makes `abbreviatedUnit` throw, and another key order changes the order of the parts.
- TimeFrameCalculation.UnitLengths requires the completed alias arrays, because as written the source never reaches the 'hours' lookup.

## Findings

| source | as written | input that shows it | evidently intended | confidence | as-written member | corrected member |
|---|---|---|---|---|---|---|
| src/converters/year-converter.ts:32 | the year and hour alias arrays omit "year", "years", "hour" and "hours", so `getConverter('years')` (src/utils/calculate-time-frame.ts:17) always throws "Invalid date unit: years." | any two dates passed to `calculateTimeFrame` of src/utils/calculate-time-frame.ts | every converter lists all five spellings of its unit, as the other six do (`calculateTimeFrame` also needs the months-per-year fix of the next row) | high, not executed | UnitConversionMap.GetConverterOfText | TimeFrameCalculation.CalculateTimeFrame |
| src/utils/calculate-time-frame.ts:24 | `Constants.MonthsPerYear` is read through a default import of src/constants.ts, which has only named exports and no such name; the property is `undefined`, so `totalMonths - years * undefined` is NaN, `setUTCMonth(NaN)` makes the shifted date invalid, and every field after the years is NaN | with the alias arrays completed, any ordered pair of dates: 2023-01-01 to 2024-03-01 gives years 1 and NaN for the other seven fields | 12 months per year, the `monthsInAYear` the copy at src/timespan-utils.ts:175 uses, so that years and months add up to the month count | high, not executed | TimeFrameCalculation.MonthsPerYearUndefined | TimeFrameCalculation.BreakdownContract |
| src/utils/timeframe-to-string.ts:17 | with the same alias arrays, `isValidTimeUnit('years')` and `isValidTimeUnit('hours')` are false, so non-zero years and hours are silently dropped | a record with years = 1 renders without its "1y" part | every non-zero field is rendered | high, not executed | TimeframeToString.AsWrittenDropsYearsAndHours | FrameText.RenderInjective |
| src/utils/calculate-time-frame.ts:41-51 | the residual is split with `Math.floor` quotients but the truncating `%=`; on a negative residual the fields no longer add back to it (the same chain is at src/timespan-utils.ts:193-203) | 2023-01-15T10:00Z to 2023-02-15T09:00Z: the one-month shift passes the end by an hour, residual -3600000, fields -1w -1d -1h summing to -694800000 | the floor remainder, so that the fields add back to the residual | medium, not executed | TimeFrameCalculation.OvershootingMonth | TimeFrameCalculation.CorrectedBreakdownContract |
| src/timespan.ts:12 | the class's static `/g` pattern keeps `lastIndex` across calls; after a throw mid-scan the next call starts where the failed one stopped (the module-level pattern at src/constants.ts:37 behaves the same in src/timespan-utils.ts:74-91) | `fromString("5x")` throws and leaves `lastIndex` at 2; `fromString("2 h")` then finds no match and throws "Invalid unit" | every call scans its whole input | high, not executed | Timespans.StaleLastIndex | Timespans.FromStringReset |
| src/timespan-utils.ts:74-91 | the shared `INPUT_REGEX_PATTERN` keeps `lastIndex` after `pluralUnit` throws inside the loop | `calculateTimespanFromString("5x")` throws, then `calculateTimespanFromString("5h")` throws "Invalid unit" | every call scans its whole input | high, not executed | TimespanUtils.StaleLastIndex | TimespanUtils.CalculateTimespanFromStringReset |
| src/timespan.ts:183 | `calculateTimeFrame` calls `conversionTable.entries()` (and `fromString` calls `conversionTable.get` at line 36), but the `conversionTable` of src/time-conversion.ts:63 is a plain object without either method, so the constructor throws a TypeError | `new Timespan(d, d)` for any date d, and with it every `fromString`, `calculateTimespanFromString` and `calculateTimespanFromUnits` | the table is walked as a Map from plural name to factor, in record order | high, not executed | Timespans.ConstructionThrows | Timespans.Timespan.constructor |

=== FILE: abbreviated_time_unit.dfy ===
/**
 * The AbbreviatedTimeUnit string enum: the same 38 keys as the TimeUnit enum,
 * each keyed to the abbreviation of its unit.
 */
module AbbreviatedTimeUnit {
  import opened Wrappers
  import opened DateUnitConverter
  import opened UnitsOfTime
  import Converters
  import TimeUnitEnum

  /** The enum's value for a key, None for a spelling that is not a key. */
  function Member(tu: TimeUnit): Option<TimeUnit> {
    match tu
    case TimeUnit(Millisecond, Symbol) => Some(TimeUnit(Millisecond, Symbol))  // ms: ms
    case TimeUnit(Second, Symbol) => Some(TimeUnit(Second, Symbol))  // s: s
    case TimeUnit(Minute, Symbol) => Some(TimeUnit(Minute, Symbol))  // m: m
    case TimeUnit(Hour, Symbol) => Some(TimeUnit(Hour, Symbol))  // h: h
    case TimeUnit(Day, Symbol) => Some(TimeUnit(Day, Symbol))  // d: d
    case TimeUnit(Week, Symbol) => Some(TimeUnit(Week, Symbol))  // w: w
    case TimeUnit(Month, Symbol) => Some(TimeUnit(Month, Symbol))  // M: M
    case TimeUnit(Year, Symbol) => Some(TimeUnit(Year, Symbol))  // y: y
    case TimeUnit(Millisecond, ShortPlural) => Some(TimeUnit(Millisecond, Symbol))  // mss: ms
    case TimeUnit(Millisecond, ShortName) => Some(TimeUnit(Millisecond, Symbol))  // msec: ms
    case TimeUnit(Millisecond, PluralName) => Some(TimeUnit(Millisecond, Symbol))  // milliseconds: ms
    case TimeUnit(Second, ShortName) => Some(TimeUnit(Second, Symbol))  // sec: s
    case TimeUnit(Second, ShortPlural) => Some(TimeUnit(Second, Symbol))  // secs: s
    case TimeUnit(Second, SingularName) => Some(TimeUnit(Second, Symbol))  // second: s
    case TimeUnit(Second, PluralName) => Some(TimeUnit(Second, Symbol))  // seconds: s
    case TimeUnit(Minute, ShortName) => Some(TimeUnit(Minute, Symbol))  // min: m
    case TimeUnit(Minute, ShortPlural) => Some(TimeUnit(Minute, Symbol))  // mins: m
    case TimeUnit(Minute, SingularName) => Some(TimeUnit(Minute, Symbol))  // minute: m
    case TimeUnit(Minute, PluralName) => Some(TimeUnit(Minute, Symbol))  // minutes: m
    case TimeUnit(Hour, ShortName) => Some(TimeUnit(Hour, Symbol))  // hr: h
    case TimeUnit(Hour, ShortPlural) => Some(TimeUnit(Hour, Symbol))  // hrs: h
    case TimeUnit(Hour, SingularName) => Some(TimeUnit(Hour, Symbol))  // hour: h
    case TimeUnit(Hour, PluralName) => Some(TimeUnit(Hour, Symbol))  // hours: h
    case TimeUnit(Day, ShortPlural) => Some(TimeUnit(Day, Symbol))  // dys: d
    case TimeUnit(Day, SingularName) => Some(TimeUnit(Day, Symbol))  // day: d
    case TimeUnit(Day, PluralName) => Some(TimeUnit(Day, Symbol))  // days: d
    case TimeUnit(Week, ShortName) => Some(TimeUnit(Week, Symbol))  // wk: w
    case TimeUnit(Week, ShortPlural) => Some(TimeUnit(Week, Symbol))  // wks: w
    case TimeUnit(Week, SingularName) => Some(TimeUnit(Week, Symbol))  // week: w
    case TimeUnit(Week, PluralName) => Some(TimeUnit(Week, Symbol))  // weeks: w
    case TimeUnit(Month, ShortName) => Some(TimeUnit(Month, Symbol))  // mo: M
    case TimeUnit(Month, ShortPlural) => Some(TimeUnit(Month, Symbol))  // mos: M
    case TimeUnit(Month, SingularName) => Some(TimeUnit(Month, Symbol))  // month: M
    case TimeUnit(Month, PluralName) => Some(TimeUnit(Month, Symbol))  // months: M
    case TimeUnit(Year, ShortName) => Some(TimeUnit(Year, Symbol))  // yr: y
    case TimeUnit(Year, ShortPlural) => Some(TimeUnit(Year, Symbol))  // yrs: y
    case TimeUnit(Year, SingularName) => Some(TimeUnit(Year, Symbol))  // year: y
    case TimeUnit(Year, PluralName) => Some(TimeUnit(Year, Symbol))  // years: y
    case _ => None
  }

  /** Every key maps to its unit's abbreviation, the one its converter declares; the keys are those of the TimeUnit enum. */
  lemma MemberIsAbbreviation(tu: TimeUnit)
    ensures Member(tu).Some? <==> TimeUnitEnum.Member(tu).Some?
    ensures Member(tu).Some? ==> Member(tu).value == TimeUnit(tu.unit, Symbol) == Converters.Abbreviation(tu.unit)
  {
    TimeUnitEnum.MemberIsPlural(tu);
    Converters.MetadataOfUnit(tu.unit);
  }

  /** The abbreviations map to themselves; the plural names are keys; "M" and "m" are distinct keys with distinct values. */
  lemma MemberExamples(u: Unit)
    ensures Member(TimeUnit(u, Symbol)) == Some(TimeUnit(u, Symbol))
    ensures Member(TimeUnit(u, PluralName)) == Some(TimeUnit(u, Symbol))
    ensures Member(TimeUnit(Month, Symbol)) != Member(TimeUnit(Minute, Symbol))
  {
    MemberIsAbbreviation(TimeUnit(u, Symbol));
    MemberIsAbbreviation(TimeUnit(u, PluralName));
  }
}

=== FILE: assertions.dfy ===
/**
 * The assertions: each passes or throws one fixed message, according to a
 * type guard or one of the input checks of the string parser.
 */
module Assertions {
  import opened Wrappers
  import opened DateUnitConverter
  import opened UnitsOfTime
  import opened TypeUtils
  import Constants
  import Converters
  import UnitConversionMap

  /** `assertValidDate`. */
  function AssertValidDate(v: Value): (r: Outcome)
    ensures r.Pass? <==> v.DateValue? && v.time.Some?
    ensures r.Fail? ==> r.error == "Invalid date input."
  {
    if !IsValidDate(v) then Fail("Invalid date input.") else Pass
  }

  /** `assertValidDateRange`. */
  function AssertValidDateRange(start: Option<int>, end: Option<int>): (r: Outcome)
    ensures r.Pass? <==> start.Some? && end.Some? && start.value <= end.value
    ensures r.Fail? ==> r.error == "Start date cannot be greater than end date."
  {
    if !IsValidDateRange(start, end) then Fail("Start date cannot be greater than end date.") else Pass
  }

  /** `assertValidTimeUnit`: the message embeds the value and ends with a period. */
  function AssertValidTimeUnit(src: Converters.AliasSource, unit: string): (r: Outcome)
    ensures r.Pass? <==> Parse(unit).Some? && Parse(unit).value in UnitConversionMap.GetTimeUnits(src)
    ensures r.Fail? ==> r.error == "Invalid date unit: " + unit + "."
  {
    if !IsValidTimeUnit(src, Str(unit)) then Fail("Invalid date unit: " + unit + ".") else Pass
  }

  /** `assertAllowedCharacters`: a string matching the whitelist, or "Invalid input string". */
  function AssertAllowedCharacters(v: Value): (r: Outcome)
    ensures r.Pass? <==> v.Str? && |v.s| >= 1 && forall i :: 0 <= i < |v.s| ==> Constants.IsAllowedChar(v.s[i])
    ensures r.Fail? ==> r.error == "Invalid input string"
  {
    if v.Null? || !v.Str? || !Constants.MatchesAllowedPattern(v.s) then Fail("Invalid input string") else Pass
  }

  /** `assertMaxInputLength`: a string of at most 75 characters, or "Invalid input string". */
  function AssertMaxInputLength(v: Value): (r: Outcome)
    ensures r.Pass? <==> v.Str? && |v.s| <= 75
    ensures r.Fail? ==> r.error == "Invalid input string"
  {
    if v.Null? || !v.Str? || |v.s| > Constants.MaxInputStringLength then Fail("Invalid input string") else Pass
  }

  /** Equal dates pass the range check; NaN fails both checks. */
  lemma DateChecks(t: int)
    ensures AssertValidDateRange(Some(t), Some(t)) == Pass
    ensures AssertValidDateRange(Some(t + 1), Some(t)).Fail?
    ensures AssertValidDate(DateValue(None)).Fail? && AssertValidDateRange(None, Some(t)).Fail?
    ensures AssertValidDate(DateValue(Some(t))) == Pass
  {
  }

  /** Exactly 75 characters pass the length guard, 76 do not; the empty string passes it but not the whitelist. */
  lemma LengthBoundary(s: string)
    ensures |s| == 75 ==> AssertMaxInputLength(Str(s)) == Pass
    ensures |s| == 76 ==> AssertMaxInputLength(Str(s)).Fail?
    ensures AssertMaxInputLength(Str("")) == Pass && AssertAllowedCharacters(Str("")).Fail?
  {
  }

  /** Every listed unit passes; "Years" does not, since matching is case-sensitive; as written, "years" is refused too. */
  lemma TimeUnitChecks(tu: TimeUnit)
    ensures tu in UnitConversionMap.GetTimeUnits(Converters.Corrected) ==> AssertValidTimeUnit(Converters.Corrected, Text(tu)) == Pass
    ensures AssertValidTimeUnit(Converters.Corrected, "Years") == Fail("Invalid date unit: Years.")
    ensures AssertValidTimeUnit(Converters.AsWritten, Text(TimeUnit(Year, PluralName))) == Fail("Invalid date unit: " + Text(TimeUnit(Year, PluralName)) + ".")
    ensures !IsValidTimeUnit(Converters.Corrected, Other) && !IsValidTimeUnit(Converters.Corrected, Null)
  {
    ParseOfText(tu);
    ParseOfText(TimeUnit(Year, PluralName));
    UnitConversionMap.ListedUnits(TimeUnit(Year, PluralName));
  }
}

=== FILE: calculate_time_frame.dfy ===
/**
 * `calculateTimeFrame`: the calendar breakdown of a span into the eight
 * TimeFrame fields. Years come from the year converter, months are the rest of
 * the month converter's count, and the start moved on by those years and months
 * is subtracted from the end; what is left (the residual) is divided into
 * weeks, days, hours, minutes, seconds and milliseconds.
 *
 * The module holds the specification of the breakdown, shared with the copy in
 * the timespan utilities, and the version of src/utils/calculate-time-frame.ts,
 * which finds its converters through the alias-built table.
 */
module TimeFrameCalculation {
  import opened Wrappers
  import opened DateUnitConverter
  import opened UnitsOfTime
  import opened TimeFrames
  import Calendar
  import Converters
  import YearConverter
  import MonthConverter
  import UnitConversionMap

  /** `d.setUTCFullYear(d.getUTCFullYear() + years)`, as a time value. */
  function YearsLater(t: int, years: int): int {
    Calendar.SetUTCFullYear(t, Calendar.YearFromTime(t) + years)
  }

  /** `d.setUTCMonth(d.getUTCMonth() + months)`, as a time value. */
  function MonthsLater(t: int, months: int): int {
    Calendar.SetUTCMonth(t, Calendar.MonthFromTime(t) + months)
  }

  /** The start moved on by whole years, then by months, with the UTC setters on a copy of it. */
  function Shifted(s: int, years: int, months: int): int {
    MonthsLater(YearsLater(s, years), months)
  }

  /** JavaScript's `%`: the remainder keeps the sign of the dividend. */
  function JsRem(a: int, b: int): (r: int)
    requires b > 0
    ensures -b < r < b
    ensures a >= 0 ==> r == a % b
    ensures a < 0 ==> r <= 0
  {
    if a >= 0 then a % b else -((-a) % b)
  }

  /** The milliseconds the six lower fields stand for. */
  function ResidualSum(tf: TimeFrame): int {
    tf.weeks * 604800000 + tf.days * 86400000 + tf.hours * 3600000 + tf.minutes * 60000 + tf.seconds * 1000 + tf.milliseconds
  }

  /** The division chain with a floor remainder to match the floor quotient. */
  function Split(years: int, months: int, rem: int): TimeFrame {
    var r1 := rem % 604800000;
    var r2 := r1 % 86400000;
    var r3 := r2 % 3600000;
    var r4 := r3 % 60000;
    TimeFrame(years, months, rem / 604800000, r1 / 86400000, r2 / 3600000, r3 / 60000, r4 / 1000, r4 % 1000)
  }

  /**
   * The split keeps years and months, its fields add back to the residual, and
   * every field below weeks is within its unit, whatever the residual's sign.
   */
  lemma SplitContract(years: int, months: int, rem: int)
    ensures Split(years, months, rem).years == years && Split(years, months, rem).months == months
    ensures ResidualSum(Split(years, months, rem)) == rem
    ensures var tf := Split(years, months, rem);
      0 <= tf.days < 7 && 0 <= tf.hours < 24 && 0 <= tf.minutes < 60 && 0 <= tf.seconds < 60 && 0 <= tf.milliseconds < 1000
    ensures Split(years, months, rem).weeks * 604800000 <= rem < (Split(years, months, rem).weeks + 1) * 604800000
  {
  }

  /**
   * The division chain as written: `Math.floor` of the quotient, then JavaScript's
   * truncating `%=`. On a residual that is not negative it is the chain above.
   */
  function SplitAsWritten(years: int, months: int, rem: int): (tf: TimeFrame)
    ensures rem >= 0 ==> tf == Split(years, months, rem)
  {
    var r1 := JsRem(rem, 604800000);
    var r2 := JsRem(r1, 86400000);
    var r3 := JsRem(r2, 3600000);
    var r4 := JsRem(r3, 60000);
    TimeFrame(years, months, rem / 604800000, r1 / 86400000, r2 / 3600000, r3 / 60000, r4 / 1000, JsRem(r4, 1000))
  }

  /**
   * A residual of minus one hour: the floor quotient takes one week too many,
   * the truncating remainder gives the hour back unchanged, and each lower field
   * takes one unit too many again, so the fields no longer add up to the residual.
   */
  lemma NegativeResidualSplit()
    ensures SplitAsWritten(0, 1, -3600000) == TimeFrame(0, 1, -1, -1, -1, 0, 0, 0)
    ensures ResidualSum(SplitAsWritten(0, 1, -3600000)) == -694800000 != -3600000
    ensures Split(0, 1, -3600000) == TimeFrame(0, 1, -1, 6, 23, 0, 0, 0)
  {
  }

  /**
   * One step of the chain on a remainder that is not positive: the floor
   * quotient and the truncating remainder are not positive either, and
   * together they stand for no more than the remainder did.
   */
  lemma TruncatingStep(a: int, b: int)
    requires b > 0 && a <= 0
    ensures a / b <= 0 && JsRem(a, b) <= 0
    ensures (a / b) * b + JsRem(a, b) <= a
  {
    assert (a / b) * b + a % b == a;
  }

  /**
   * On a negative residual the chain as written gives no positive field, and
   * its fields stand for no more than the residual: each floor quotient takes
   * a whole unit more than the truncating remainder gives back.
   */
  lemma SplitAsWrittenNegative(years: int, months: int, rem: int)
    requires rem < 0
    ensures var tf := SplitAsWritten(years, months, rem);
      tf.weeks <= 0 && tf.days <= 0 && tf.hours <= 0 && tf.minutes <= 0 && tf.seconds <= 0 && tf.milliseconds <= 0
    ensures ResidualSum(SplitAsWritten(years, months, rem)) <= rem
  {
    var r1 := JsRem(rem, 604800000);
    TruncatingStep(rem, 604800000);
    var r2 := JsRem(r1, 86400000);
    TruncatingStep(r1, 86400000);
    var r3 := JsRem(r2, 3600000);
    TruncatingStep(r2, 3600000);
    var r4 := JsRem(r3, 60000);
    TruncatingStep(r3, 60000);
    TruncatingStep(r4, 1000);
  }

  /** The months left once the whole years are taken out of the month count. */
  function RestMonths(totalMonths: int, years: int): int {
    totalMonths - years * MonthsInAYear
  }

  /** The years `calculateTimeFrame` stores: the year converter's count. */
  function CountedYears(s: int, e: int): int {
    YearConverter.YearsBetween(s, e)
  }

  /** The months it stores: what the month converter's count leaves after the years. */
  function CountedMonths(s: int, e: int): int {
    RestMonths(MonthConverter.MonthsBetween(s, e), CountedYears(s, e))
  }

  /** What the start, moved on by the years and months, leaves of the span: `remainingTime` before the division. */
  function Residual(s: int, e: int, years: int, months: int): int {
    (e - s) - (Shifted(s, years, months) - s)
  }

  /**
   * The fields once years and months are fixed: the start is moved on by them,
   * and what that leaves of the span goes through the division chain as written.
   */
  function BreakdownAt(s: int, e: int, years: int, months: int): TimeFrame {
    SplitAsWritten(years, months, Residual(s, e, years, months))
  }

  /** The breakdown of an ordered span as the source computes it. */
  function Breakdown(s: int, e: int): TimeFrame {
    BreakdownAt(s, e, CountedYears(s, e), CountedMonths(s, e))
  }

  /** The same breakdown with floor remainders throughout, as the chain evidently intends. */
  function CorrectedBreakdown(s: int, e: int): TimeFrame {
    Split(CountedYears(s, e), CountedMonths(s, e), Residual(s, e, CountedYears(s, e), CountedMonths(s, e)))
  }

  /**
   * From start to end, the years are the year converter's count, years and
   * months together are the month converter's count, and the residual is what
   * the moved start leaves of the end. When the moved start does not pass the
   * end, the lower fields add up to the residual and each lies within its unit;
   * when it does, no lower field is positive and the fields stand for no more
   * than the residual.
   */
  lemma {:induction false} BreakdownContract(s: int, e: int)
    requires s <= e
    ensures Breakdown(s, e).years == YearConverter.YearsBetween(s, e) >= 0
    ensures Breakdown(s, e).years * 12 + Breakdown(s, e).months == MonthConverter.MonthsBetween(s, e)
    ensures Residual(s, e, CountedYears(s, e), CountedMonths(s, e)) == e - Shifted(s, CountedYears(s, e), CountedMonths(s, e))
    ensures Residual(s, e, CountedYears(s, e), CountedMonths(s, e)) >= 0 ==>
      Breakdown(s, e) == CorrectedBreakdown(s, e) && ResidualSum(Breakdown(s, e)) == Residual(s, e, CountedYears(s, e), CountedMonths(s, e))
    ensures Residual(s, e, CountedYears(s, e), CountedMonths(s, e)) >= 0 ==> var tf := Breakdown(s, e);
      0 <= tf.days < 7 && 0 <= tf.hours < 24 && 0 <= tf.minutes < 60 && 0 <= tf.seconds < 60 && 0 <= tf.milliseconds < 1000
    ensures Residual(s, e, CountedYears(s, e), CountedMonths(s, e)) < 0 ==> var tf := Breakdown(s, e);
      ResidualSum(tf) <= Residual(s, e, CountedYears(s, e), CountedMonths(s, e))
      && tf.weeks <= 0 && tf.days <= 0 && tf.hours <= 0 && tf.minutes <= 0 && tf.seconds <= 0 && tf.milliseconds <= 0
  {
    YearConverter.YearsBetweenNonNegative(s, e);
    var years, months := CountedYears(s, e), CountedMonths(s, e);
    var rem := Residual(s, e, years, months);
    assert Breakdown(s, e) == SplitAsWritten(years, months, rem);
    if rem >= 0 {
      SplitContract(years, months, rem);
    } else {
      SplitAsWrittenNegative(years, months, rem);
    }
  }

  /**
   * The corrected breakdown keeps the same years and months, and its lower
   * fields add up to the residual and lie within their units whatever its sign.
   */
  lemma {:induction false} CorrectedBreakdownContract(s: int, e: int)
    requires s <= e
    ensures CorrectedBreakdown(s, e).years == YearConverter.YearsBetween(s, e) >= 0
    ensures CorrectedBreakdown(s, e).years * 12 + CorrectedBreakdown(s, e).months == MonthConverter.MonthsBetween(s, e)
    ensures ResidualSum(CorrectedBreakdown(s, e)) == e - Shifted(s, CountedYears(s, e), CountedMonths(s, e))
    ensures var tf := CorrectedBreakdown(s, e);
      0 <= tf.days < 7 && 0 <= tf.hours < 24 && 0 <= tf.minutes < 60 && 0 <= tf.seconds < 60 && 0 <= tf.milliseconds < 1000
  {
    YearConverter.YearsBetweenNonNegative(s, e);
    SplitContract(CountedYears(s, e), CountedMonths(s, e), Residual(s, e, CountedYears(s, e), CountedMonths(s, e)));
  }

  /**
   * A JavaScript number on the path of lines 23-51 of
   * src/utils/calculate-time-frame.ts: an integer, or NaN. Arithmetic with NaN
   * on either side gives NaN; `Math.floor` leaves an integer unchanged.
   */
  datatype Number = Int(value: int) | NaN

  /**
   * `Constants.MonthsPerYear` as line 24 reads it: src/constants.ts exports no
   * such name, so the property is `undefined`, which `*` turns into NaN.
   */
  const MonthsPerYearAsRead: Number := NaN

  /** `Math.floor(totalMonths - years * monthsPerYear)`. */
  function MonthsField(totalMonths: int, years: int, monthsPerYear: Number): Number {
    match monthsPerYear
    case NaN => NaN
    case Int(perYear) => Int(totalMonths - years * perYear)
  }

  /** The eight fields of a record, as numbers, in key order. */
  function Numbers(tf: TimeFrame): seq<Number> {
    [Int(tf.years), Int(tf.months), Int(tf.weeks), Int(tf.days), Int(tf.hours), Int(tf.minutes), Int(tf.seconds), Int(tf.milliseconds)]
  }

  /**
   * The eight fields lines 17-51 store, given the value read for the months per
   * year. A NaN month count makes `setUTCMonth` store a NaN time, so the
   * residual, every `Math.floor(remainingTime / x)` and every `%=` are NaN too.
   */
  function FieldsWith(s: int, e: int, monthsPerYear: Number): seq<Number> {
    var years := CountedYears(s, e);
    match MonthsField(MonthConverter.MonthsBetween(s, e), years, monthsPerYear)
    case NaN => [Int(years), NaN, NaN, NaN, NaN, NaN, NaN, NaN]
    case Int(months) => Numbers(BreakdownAt(s, e, years, months))
  }

  /**
   * As written, every field after the years is NaN for every ordered span; read
   * as 12, the months per year give exactly the breakdown, whose years and
   * months add up to the month converter's count.
   */
  lemma {:induction false} MonthsPerYearUndefined(s: int, e: int)
    requires s <= e
    ensures FieldsWith(s, e, MonthsPerYearAsRead)[0] == Int(YearConverter.YearsBetween(s, e))
    ensures forall i :: 1 <= i < 8 ==> FieldsWith(s, e, MonthsPerYearAsRead)[i] == NaN
    ensures FieldsWith(s, e, Int(MonthsInAYear)) == Numbers(Breakdown(s, e))
    ensures Breakdown(s, e).years * MonthsInAYear + Breakdown(s, e).months == MonthConverter.MonthsBetween(s, e)
  {
    NaNFields(s, e);
    TwelveGivesBreakdown(s, e);
    BreakdownYearsMonths(s, e);
  }

  /** With NaN for the months per year, only the years survive. */
  lemma NaNFields(s: int, e: int)
    ensures FieldsWith(s, e, NaN) == [Int(CountedYears(s, e)), NaN, NaN, NaN, NaN, NaN, NaN, NaN]
  {
  }

  /** With 12 for the months per year, the fields are those of the breakdown. */
  lemma TwelveGivesBreakdown(s: int, e: int)
    ensures FieldsWith(s, e, Int(MonthsInAYear)) == Numbers(Breakdown(s, e))
  {
    assert MonthsField(MonthConverter.MonthsBetween(s, e), CountedYears(s, e), Int(MonthsInAYear)) == Int(CountedMonths(s, e));
  }

  /** The breakdown keeps the counted years and months. */
  lemma BreakdownYearsMonths(s: int, e: int)
    ensures Breakdown(s, e).years == CountedYears(s, e) && Breakdown(s, e).months == CountedMonths(s, e)
  {
    var years, months := CountedYears(s, e), CountedMonths(s, e);
    var rem := Residual(s, e, years, months);
    assert Breakdown(s, e) == SplitAsWritten(years, months, rem);
  }

  /** `calculateTimeFrame` specified: it fails exactly where the year converter does, and otherwise gives the breakdown. */
  function TimeFrameOf(s: DateArg, e: DateArg): (r: Result<TimeFrame>)
    ensures r.Failure? <==> s.NonDate? || e.NonDate? || s.time > e.time
    ensures r.Failure? ==> Converters.Between(Year, s, e).Failure? && r.error == Converters.Between(Year, s, e).error
    ensures r.Success? ==> r.value == Breakdown(s.time, e.time)
  {
    match YearConverter.Between(s, e)
    case Failure(err) => Failure(err)
    case Success(_) => Success(Breakdown(s.time, e.time))
  }

  /** Equal start and end give the all-zero record. */
  lemma {:induction false} EqualDatesGiveZeros(t: int)
    ensures TimeFrameOf(DateAt(t), DateAt(t)) == Success(CreateTimeframe())
  {
    Calendar.SetUTCFullYearSame(t);
    assert YearConverter.YearsBetween(t, t) == 0 && MonthConverter.MonthsBetween(t, t) == 0;
    assert Shifted(t, 0, 0) == t;
    assert Split(0, 0, 0) == CreateTimeframe();
  }

  /**
   * The year count ignores months and dates, so the month field can be
   * negative: from 20 November of any year to 14 February two years on gives
   * 2 years and -10 months (2022-11-20 to 2024-02-14, say).
   */
  lemma NegativeMonths(y: int, s: int, e: int)
    requires s == Calendar.UTC(y, 10, 20, 0, 0, 0, 0) && e == Calendar.UTC(y + 2, 1, 14, 0, 0, 0, 0)
    ensures TimeFrameOf(DateAt(s), DateAt(e)).Success?
    ensures Breakdown(s, e).years == 2 && Breakdown(s, e).months == -10
  {
    NegativeMonthsFields(y, s, e);
    CountedBreakdown(s, e);
  }

  lemma CountedBreakdown(s: int, e: int)
    requires s <= e && YearConverter.YearsBetween(s, e) == 2 && MonthConverter.MonthsBetween(s, e) == 14
    ensures Breakdown(s, e).years == 2 && Breakdown(s, e).months == -10
  {
    BreakdownContract(s, e);
  }

  lemma NegativeMonthsFields(y: int, s: int, e: int)
    requires s == Calendar.UTC(y, 10, 20, 0, 0, 0, 0) && e == Calendar.UTC(y + 2, 1, 14, 0, 0, 0, 0)
    ensures s <= e
    ensures YearConverter.YearsBetween(s, e) == 2 && MonthConverter.MonthsBetween(s, e) == 14
  {
    FieldsAt(s, y, 10, 20, 0);
    FieldsAt(e, y + 2, 1, 14, 0);
    if e < s {
      Calendar.YearFromTimeMonotone(e, s);
    }
  }

  /** The calendar fields of an instant given by a date early enough in its month and a time of day. */
  lemma FieldsAt(t: int, y: int, m: int, date: int, time: int)
    requires 0 <= m < 12 && 1 <= date <= 28 && 0 <= time < Calendar.MsPerDay
    requires t == Calendar.MakeDate(Calendar.MakeDay(y, m, date), time)
    ensures Calendar.YearFromTime(t) == y && Calendar.MonthFromTime(t) == m && Calendar.DateFromTime(t) == date
    ensures Calendar.TimeWithinDay(t) == time
  {
    Calendar.DaysInMonthBounds(y, m);
    Calendar.FieldsOfUTC(y, m, date, time);
  }

  /**
   * The month count ignores the time of day, so the shifted start can pass the
   * end: from 15 January 10:00Z to 15 February 09:00Z of any year (2023, say) the
   * residual is minus one hour. The chain as written turns it into -1 week,
   * -1 day and -1 hour, which stand for -694800000 ms; the floor split reads
   * it as -1 week, 6 days and 23 hours, which add back to the hour.
   */
  lemma OvershootingMonth(y: int, s: int, e: int)
    requires s == Calendar.UTC(y, 0, 15, 10, 0, 0, 0) && e == Calendar.UTC(y, 1, 15, 9, 0, 0, 0)
    ensures Shifted(s, 0, 1) - e == 3600000
    ensures TimeFrameOf(DateAt(s), DateAt(e)) == Success(TimeFrame(0, 1, -1, -1, -1, 0, 0, 0))
    ensures ResidualSum(Breakdown(s, e)) == -694800000
    ensures CorrectedBreakdown(s, e) == TimeFrame(0, 1, -1, 6, 23, 0, 0, 0)
  {
    OvershootFields(y, s, e);
    OvershootShift(y, s);
    OvershootBreakdown(s, e);
  }

  lemma OvershootBreakdown(s: int, e: int)
    requires s <= e && YearConverter.YearsBetween(s, e) == 0 && MonthConverter.MonthsBetween(s, e) == 1
    requires Shifted(s, 0, 1) - e == 3600000
    ensures TimeFrameOf(DateAt(s), DateAt(e)) == Success(TimeFrame(0, 1, -1, -1, -1, 0, 0, 0))
    ensures ResidualSum(Breakdown(s, e)) == -694800000
    ensures CorrectedBreakdown(s, e) == TimeFrame(0, 1, -1, 6, 23, 0, 0, 0)
  {
    OvershootResidual(s, e);
    NegativeResidualSplit();
  }

  lemma OvershootResidual(s: int, e: int)
    requires YearConverter.YearsBetween(s, e) == 0 && MonthConverter.MonthsBetween(s, e) == 1
    requires Shifted(s, 0, 1) - e == 3600000
    ensures Breakdown(s, e) == SplitAsWritten(0, 1, -3600000)
    ensures CorrectedBreakdown(s, e) == Split(0, 1, -3600000)
  {
    assert CountedYears(s, e) == 0 && CountedMonths(s, e) == 1;
    assert Residual(s, e, CountedYears(s, e), CountedMonths(s, e)) == -3600000;
  }

  lemma OvershootFields(y: int, s: int, e: int)
    requires s == Calendar.UTC(y, 0, 15, 10, 0, 0, 0) && e == Calendar.UTC(y, 1, 15, 9, 0, 0, 0)
    ensures s <= e
    ensures YearConverter.YearsBetween(s, e) == 0 && MonthConverter.MonthsBetween(s, e) == 1
  {
    FieldsAt(s, y, 0, 15, 36000000);
    FieldsAt(e, y, 1, 15, 32400000);
    if e < s {
      Calendar.YearFromTimeMonotone(e, s);
    }
  }

  lemma OvershootShift(y: int, s: int)
    requires s == Calendar.UTC(y, 0, 15, 10, 0, 0, 0)
    ensures Shifted(s, 0, 1) == Calendar.UTC(y, 1, 15, 10, 0, 0, 0)
  {
    Calendar.FieldsOfUTC(y, 0, 15, 36000000);
    Calendar.SetUTCFullYearSame(s);
    var t := Calendar.SetUTCFullYear(s, Calendar.YearFromTime(s) + 0);
    assert t == s;
    assert Shifted(s, 0, 1) == Calendar.SetUTCMonth(t, Calendar.MonthFromTime(t) + 1);
    assert Calendar.MonthFromTime(t) + 1 == 1;
    assert Calendar.SetUTCMonth(t, Calendar.MonthFromTime(t) + 1) == Calendar.SetUTCMonth(s, 1);
    assert Calendar.SetUTCMonth(s, 1) == Calendar.MakeDate(Calendar.MakeDay(y, 1, 15), 36000000);
  }

  /**
   * The first two lookups of src/utils/calculate-time-frame.ts: 'years' reaches
   * a converter only with the completed alias arrays, 'months' with both.
   */
  method YearAndMonthConverters(src: Converters.AliasSource) returns (yearConverter: Result<Unit>, monthConverter: Result<Unit>)
    ensures yearConverter == if src == Converters.Corrected then Success(Year) else Failure("Invalid date unit: years.")
    ensures monthConverter == Success(Month)
  {
    UnitConversionMap.GetConverterOfText(TimeUnit(Year, PluralName));
    UnitConversionMap.GetConverterOfText(TimeUnit(Month, PluralName));
    yearConverter := UnitConversionMap.GetConverter(src, "years");
    monthConverter := UnitConversionMap.GetConverter(src, "months");
  }

  /**
   * The five unit lengths read with `getConverter`: the 'hours' lookup needs the
   * completed alias arrays, and the source reaches it only after the 'years'
   * lookup has succeeded.
   */
  method UnitLengths(src: Converters.AliasSource)
    returns (perWeek: int, perDay: int, perHour: int, perMinute: int, perSecond: int)
    requires src == Converters.Corrected
    ensures perWeek == 604800000 && perDay == 86400000 && perHour == 3600000 && perMinute == 60000 && perSecond == 1000
  {
    UnitConversionMap.GetConverterOfSpelling(TimeUnit(Week, SingularName), "week");
    UnitConversionMap.GetConverterOfSpelling(TimeUnit(Day, PluralName), "days");
    UnitConversionMap.GetConverterOfSpelling(TimeUnit(Hour, PluralName), "hours");
    UnitConversionMap.GetConverterOfSpelling(TimeUnit(Minute, PluralName), "minutes");
    UnitConversionMap.GetConverterOfSpelling(TimeUnit(Second, PluralName), "seconds");
    perWeek := Converters.MillisecondsPerUnit(UnitConversionMap.GetConverter(src, "week").value);
    perDay := Converters.MillisecondsPerUnit(UnitConversionMap.GetConverter(src, "days").value);
    perHour := Converters.MillisecondsPerUnit(UnitConversionMap.GetConverter(src, "hours").value);
    perMinute := Converters.MillisecondsPerUnit(UnitConversionMap.GetConverter(src, "minutes").value);
    perSecond := Converters.MillisecondsPerUnit(UnitConversionMap.GetConverter(src, "seconds").value);
  }

  /**
   * The two setter calls both copies make on `tempDate`, a copy of the start
   * (held here by its time value): the year first, then the month.
   */
  method ShiftYearsAndMonths(start: int, years: int, months: int) returns (tempDate: int)
    ensures tempDate == Shifted(start, years, months)
  {
    tempDate := start;
    tempDate := YearsLater(tempDate, years);
    tempDate := MonthsLater(tempDate, months);
  }

  /**
   * The division chain both copies of `calculateTimeFrame` end with: each field
   * takes the floor quotient of what is left, and JavaScript's truncating `%=`
   * leaves the rest for the next field.
   */
  method Divide(frame: TimeFrame, residual: int, perWeek: int, perDay: int, perHour: int, perMinute: int, perSecond: int)
    returns (timeFrame: TimeFrame)
    requires perWeek == 604800000 && perDay == 86400000 && perHour == 3600000 && perMinute == 60000 && perSecond == 1000
    ensures timeFrame == SplitAsWritten(frame.years, frame.months, residual)
  {
    timeFrame := frame;
    var remainingTime := residual;
    timeFrame := timeFrame.(weeks := remainingTime / perWeek);
    remainingTime := JsRem(remainingTime, perWeek);
    timeFrame := timeFrame.(days := remainingTime / perDay);
    remainingTime := JsRem(remainingTime, perDay);
    timeFrame := timeFrame.(hours := remainingTime / perHour);
    remainingTime := JsRem(remainingTime, perHour);
    timeFrame := timeFrame.(minutes := remainingTime / perMinute);
    remainingTime := JsRem(remainingTime, perMinute);
    timeFrame := timeFrame.(seconds := remainingTime / perSecond);
    remainingTime := JsRem(remainingTime, perSecond);
    timeFrame := timeFrame.(milliseconds := remainingTime);
  }

  /**
   * Lines 27-51 of src/utils/calculate-time-frame.ts, once years and months are
   * in the frame: shift a copy of the start, take the residual, read the unit
   * lengths and divide.
   */
  method FillResidual(src: Converters.AliasSource, frame: TimeFrame, s: DateArg, e: DateArg) returns (timeFrame: TimeFrame)
    requires src == Converters.Corrected && s.DateAt? && e.DateAt?
    ensures timeFrame == BreakdownAt(s.time, e.time, frame.years, frame.months)
  {
    var tempDate := ShiftYearsAndMonths(s.time, frame.years, frame.months);
    var totalTimeDiff := e.time - s.time;
    var remainingTime := totalTimeDiff - (tempDate - s.time);
    var millisecondsPerWeek, millisecondsPerDay, millisecondsPerHour, millisecondsPerMinute, millisecondsPerSecond := UnitLengths(src);
    timeFrame := Divide(frame, remainingTime, millisecondsPerWeek, millisecondsPerDay, millisecondsPerHour, millisecondsPerMinute, millisecondsPerSecond);
  }

  /**
   * `calculateTimeFrame` of src/utils/calculate-time-frame.ts: every converter is
   * fetched with `getConverter`. With the alias arrays as written, 'years' is not
   * in the table, so every call fails in the first lookup; with the arrays
   * completed it is the breakdown above.
   */
  method CalculateTimeFrame(src: Converters.AliasSource, s: DateArg, e: DateArg) returns (r: Result<TimeFrame>)
    ensures src == Converters.AsWritten ==> r == Failure("Invalid date unit: years.")
    ensures src == Converters.Corrected ==> r == TimeFrameOf(s, e)
  {
    var yearConverter, monthConverter := YearAndMonthConverters(src);
    var timeFrame := CreateTimeframe();
    if yearConverter.Failure? {
      return Failure(yearConverter.error);
    }
    var years := Converters.Between(yearConverter.value, s, e);
    if years.Failure? {
      return Failure(years.error);
    }
    timeFrame := timeFrame.(years := years.value);
    var totalMonths := Converters.Between(monthConverter.value, s, e).value;
    timeFrame := timeFrame.(months := RestMonths(totalMonths, timeFrame.years));
    timeFrame := FillResidual(src, timeFrame, s, e);
    return Success(timeFrame);
  }
}

=== FILE: calendar.dfy ===
/**
 * ECMAScript time values (section 21.4.1 of ECMA-262): an instant is an integer
 * number of milliseconds since 1970-01-01T00:00:00Z on the proleptic Gregorian
 * calendar without leap seconds. This module gives the UTC field getters, the
 * MakeDay/MakeTime/MakeDate constructors and the UTC field setters that the
 * library's Date manipulations rely on. Months are 0-based, dates 1-based.
 */
module Calendar {

  const MsPerSecond: int := 1000
  const MsPerMinute: int := 60000
  const MsPerHour: int := 3600000
  const MsPerDay: int := 86400000
  const DaysPer400Years: int := 146097

  /** Day(t) = floor(t / msPerDay). */
  function Day(t: int): int {
    t / MsPerDay
  }

  function TimeWithinDay(t: int): int {
    t % MsPerDay
  }

  function DaysInYear(y: int): int {
    if y % 4 != 0 then 365
    else if y % 100 != 0 then 366
    else if y % 400 != 0 then 365
    else 366
  }

  /** Day number of January 1st of year y. */
  function DayFromYear(y: int): int {
    365 * (y - 1970) + (y - 1969) / 4 - (y - 1901) / 100 + (y - 1601) / 400
  }

  /** The four-year terms of DayFromYear: shifting by 1968 keeps the remainder, and y - 1969 drops a step at a multiple of 4. */
  lemma Cycle4(y: int)
    ensures (y - 1968) % 4 == y % 4
    ensures (y - 1968) / 4 == (y - 1969) / 4 + (if y % 4 == 0 then 1 else 0)
  {
    var q, r := y / 4, y % 4;
    assert (y - 1968) / 4 == q - 492 && (y - 1968) % 4 == r;
    if r == 0 {
      assert (y - 1969) / 4 == q - 493;
    } else {
      assert (y - 1969) / 4 == q - 492;
    }
  }

  lemma Cycle100(y: int)
    ensures (y - 1900) % 100 == y % 100
    ensures (y - 1900) / 100 == (y - 1901) / 100 + (if y % 100 == 0 then 1 else 0)
  {
    var q, r := y / 100, y % 100;
    assert (y - 1900) / 100 == q - 19 && (y - 1900) % 100 == r;
    if r == 0 {
      assert (y - 1901) / 100 == q - 20;
    } else {
      assert (y - 1901) / 100 == q - 19;
    }
  }

  lemma Cycle400(y: int)
    ensures (y - 1600) % 400 == y % 400
    ensures (y - 1600) / 400 == (y - 1601) / 400 + (if y % 400 == 0 then 1 else 0)
  {
    var q, r := y / 400, y % 400;
    assert (y - 1600) / 400 == q - 4 && (y - 1600) % 400 == r;
    if r == 0 {
      assert (y - 1601) / 400 == q - 5;
    } else {
      assert (y - 1601) / 400 == q - 4;
    }
  }

  lemma LeapCycleFacts(y: int)
    ensures (y - 1968) % 4 == y % 4 && (y - 1900) % 100 == y % 100 && (y - 1600) % 400 == y % 400
    ensures (y - 1968) / 4 == (y - 1969) / 4 + (if y % 4 == 0 then 1 else 0)
    ensures (y - 1900) / 100 == (y - 1901) / 100 + (if y % 100 == 0 then 1 else 0)
    ensures (y - 1600) / 400 == (y - 1601) / 400 + (if y % 400 == 0 then 1 else 0)
    ensures y % 400 == 0 ==> y % 100 == 0
    ensures y % 100 == 0 ==> y % 4 == 0
  {
    Cycle4(y);
    Cycle100(y);
    Cycle400(y);
    Divisibility(y);
  }

  lemma Divisibility(y: int)
    ensures y % 400 == 0 ==> y % 100 == 0
    ensures y % 100 == 0 ==> y % 4 == 0
  {
    if y % 400 == 0 {
      var k := y / 400;
      assert y / 100 == 4 * k;
    }
    if y % 100 == 0 {
      var k := y / 100;
      assert y / 4 == 25 * k;
    }
  }

  lemma DayFromYearStep(y: int)
    ensures DayFromYear(y + 1) == DayFromYear(y) + DaysInYear(y)
  {
    LeapCycleFacts(y);
  }

  lemma DayFromYearMonotone(a: int, b: int)
    requires a <= b
    ensures DayFromYear(a) <= DayFromYear(b)
    decreases b - a
  {
    if a < b {
      DayFromYearStep(a);
      DayFromYearMonotone(a + 1, b);
    }
  }

  lemma CycleStart(q: int)
    ensures DayFromYear(1970 + 400 * q) == DaysPer400Years * q
  {
    assert (1 + 400 * q) / 4 == 100 * q;
    assert (69 + 400 * q) / 100 == 4 * q;
    assert (369 + 400 * q) / 400 == q;
  }

  function SearchYear(d: int, y: int): (r: int)
    requires DayFromYear(y) <= d
    ensures DayFromYear(r) <= d < DayFromYear(r + 1)
    decreases d - DayFromYear(y)
  {
    DayFromYearStep(y);
    if d < DayFromYear(y + 1) then y else SearchYear(d, y + 1)
  }

  /** The year that contains day number d: the one whose first day is the last not after d. */
  function YearFromDay(d: int): (y: int)
    ensures DayFromYear(y) <= d < DayFromYear(y + 1)
  {
    YearExists(d);
    YearBoundsUniqueAll(d);
    var y :| DayFromYear(y) <= d < DayFromYear(y + 1);
    y
  }

  /** A search from the start of d's 400-year cycle finds a year holding d. */
  lemma YearExists(d: int)
    ensures exists y :: DayFromYear(y) <= d < DayFromYear(y + 1)
  {
    CycleStart(d / DaysPer400Years);
    var y := SearchYear(d, 1970 + 400 * (d / DaysPer400Years));
    assert DayFromYear(y) <= d < DayFromYear(y + 1);
  }

  lemma YearBoundsUniqueAll(d: int)
    ensures forall y1, y2 :: DayFromYear(y1) <= d < DayFromYear(y1 + 1) && DayFromYear(y2) <= d < DayFromYear(y2 + 1) ==> y1 == y2
  {
    forall y1, y2 | DayFromYear(y1) <= d < DayFromYear(y1 + 1) && DayFromYear(y2) <= d < DayFromYear(y2 + 1)
      ensures y1 == y2
    {
      YearBoundsOrdered(y1, d, y2, d);
      YearBoundsOrdered(y2, d, y1, d);
    }
  }

  lemma YearFromDayUnique(d: int, y: int)
    requires DayFromYear(y) <= d < DayFromYear(y + 1)
    ensures YearFromDay(d) == y
  {
    YearBoundsOrdered(YearFromDay(d), d, y, d);
    YearBoundsOrdered(y, d, YearFromDay(d), d);
  }

  /** Years holding ordered days are ordered. */
  lemma YearBoundsOrdered(y1: int, d1: int, y2: int, d2: int)
    requires DayFromYear(y1) <= d1 < DayFromYear(y1 + 1)
    requires DayFromYear(y2) <= d2 < DayFromYear(y2 + 1)
    requires d1 <= d2
    ensures y1 <= y2
  {
    if y1 > y2 {
      DayFromYearMonotone(y2 + 1, y1);
    }
  }

  lemma YearFromDayMonotone(d1: int, d2: int)
    requires d1 <= d2
    ensures YearFromDay(d1) <= YearFromDay(d2)
  {
    YearBoundsOrdered(YearFromDay(d1), d1, YearFromDay(d2), d2);
  }

  /** Days before the first of month m (0 <= m <= 12) in a common year. */
  function CommonYearDays(m: int): int
    requires 0 <= m <= 12
  {
    if m == 0 then 0
    else if m == 1 then 31
    else if m == 2 then 59
    else if m == 3 then 90
    else if m == 4 then 120
    else if m == 5 then 151
    else if m == 6 then 181
    else if m == 7 then 212
    else if m == 8 then 243
    else if m == 9 then 273
    else if m == 10 then 304
    else if m == 11 then 334
    else 365
  }

  /** Days before the first of month m in a year with `leap` extra days, the extra day closing February. */
  function CumulativeDays(m: int, leap: int): int
    requires 0 <= m <= 12
  {
    CommonYearDays(m) + (if m >= 2 then leap else 0)
  }

  lemma CumulativeDaysMonotone(a: int, b: int, leap: int)
    requires 0 <= a <= b <= 12 && 0 <= leap <= 1
    ensures CumulativeDays(a, leap) <= CumulativeDays(b, leap)
    ensures a < b ==> CumulativeDays(a, leap) < CumulativeDays(b, leap)
  {
  }

  function LeapDays(y: int): int {
    DaysInYear(y) - 365
  }

  function DaysInMonth(y: int, m: int): int
    requires 0 <= m < 12
  {
    CumulativeDays(m + 1, LeapDays(y)) - CumulativeDays(m, LeapDays(y))
  }

  function SearchMonth(dwy: int, leap: int, m: int): (r: int)
    requires 0 <= m < 12 && 0 <= leap <= 1
    requires CumulativeDays(m, leap) <= dwy < 365 + leap
    ensures m <= r < 12 && CumulativeDays(r, leap) <= dwy < CumulativeDays(r + 1, leap)
    decreases 12 - m
  {
    if m == 11 || dwy < CumulativeDays(m + 1, leap) then m else SearchMonth(dwy, leap, m + 1)
  }

  /** The month holding day `dwy` (0-based) of a year with `leap` extra days. */
  function MonthInYear(dwy: int, leap: int): (m: int)
    requires 0 <= leap <= 1 && 0 <= dwy < 365 + leap
    ensures 0 <= m < 12 && CumulativeDays(m, leap) <= dwy < CumulativeDays(m + 1, leap)
  {
    MonthExists(dwy, leap);
    MonthBoundsUniqueAll(dwy, leap);
    var m :| 0 <= m < 12 && CumulativeDays(m, leap) <= dwy < CumulativeDays(m + 1, leap);
    m
  }

  /** A search from January finds the month holding a day of the year. */
  lemma MonthExists(dwy: int, leap: int)
    requires 0 <= leap <= 1 && 0 <= dwy < 365 + leap
    ensures exists m :: 0 <= m < 12 && CumulativeDays(m, leap) <= dwy < CumulativeDays(m + 1, leap)
  {
    var m := SearchMonth(dwy, leap, 0);
    assert 0 <= m < 12 && CumulativeDays(m, leap) <= dwy < CumulativeDays(m + 1, leap);
  }

  lemma MonthBoundsUniqueAll(dwy: int, leap: int)
    requires 0 <= leap <= 1
    ensures forall m1, m2 :: (0 <= m1 < 12 && CumulativeDays(m1, leap) <= dwy < CumulativeDays(m1 + 1, leap) && 0 <= m2 < 12 && CumulativeDays(m2, leap) <= dwy < CumulativeDays(m2 + 1, leap)) ==> m1 == m2
  {
    forall m1, m2 | 0 <= m1 < 12 && CumulativeDays(m1, leap) <= dwy < CumulativeDays(m1 + 1, leap) && 0 <= m2 < 12 && CumulativeDays(m2, leap) <= dwy < CumulativeDays(m2 + 1, leap)
      ensures m1 == m2
    {
      MonthBoundsUnique(dwy, leap, m1, m2);
    }
  }

  lemma MonthInYearUnique(dwy: int, leap: int, m: int)
    requires 0 <= leap <= 1 && 0 <= dwy < 365 + leap
    requires 0 <= m < 12 && CumulativeDays(m, leap) <= dwy < CumulativeDays(m + 1, leap)
    ensures MonthInYear(dwy, leap) == m
  {
    MonthBoundsUnique(dwy, leap, MonthInYear(dwy, leap), m);
  }

  lemma MonthBoundsUnique(dwy: int, leap: int, m1: int, m2: int)
    requires 0 <= leap <= 1
    requires 0 <= m1 < 12 && CumulativeDays(m1, leap) <= dwy < CumulativeDays(m1 + 1, leap)
    requires 0 <= m2 < 12 && CumulativeDays(m2, leap) <= dwy < CumulativeDays(m2 + 1, leap)
    ensures m1 == m2
  {
    if m1 < m2 {
      CumulativeDaysMonotone(m1 + 1, m2, leap);
    } else if m2 < m1 {
      CumulativeDaysMonotone(m2 + 1, m1, leap);
    }
  }

  function DayWithinYear(d: int): int {
    d - DayFromYear(YearFromDay(d))
  }

  lemma DayWithinYearBounds(d: int)
    ensures 0 <= DayWithinYear(d) < DaysInYear(YearFromDay(d))
    ensures 0 <= LeapDays(YearFromDay(d)) <= 1
  {
    DayFromYearStep(YearFromDay(d));
  }

  /** MonthFromTime on a day number: 0 for January. */
  function MonthFromDay(d: int): (m: int)
    ensures 0 <= m < 12
    ensures CumulativeDays(m, LeapDays(YearFromDay(d))) <= DayWithinYear(d) < CumulativeDays(m + 1, LeapDays(YearFromDay(d)))
  {
    DayWithinYearBounds(d);
    MonthInYear(DayWithinYear(d), LeapDays(YearFromDay(d)))
  }

  /** DateFromTime on a day number: 1 for the first of the month. */
  function DateFromDay(d: int): int {
    DayWithinYear(d) - CumulativeDays(MonthFromDay(d), LeapDays(YearFromDay(d))) + 1
  }

  lemma MonthFromDayUnique(d: int, m: int)
    requires 0 <= m < 12
    requires CumulativeDays(m, LeapDays(YearFromDay(d))) <= DayWithinYear(d)
    requires DayWithinYear(d) < CumulativeDays(m + 1, LeapDays(YearFromDay(d)))
    ensures MonthFromDay(d) == m
  {
    DayWithinYearBounds(d);
    MonthInYearUnique(DayWithinYear(d), LeapDays(YearFromDay(d)), m);
  }

  function YearFromTime(t: int): int {
    YearFromDay(Day(t))
  }

  function MonthFromTime(t: int): int {
    MonthFromDay(Day(t))
  }

  function DateFromTime(t: int): int {
    DateFromDay(Day(t))
  }

  function HourFromTime(t: int): int {
    (t / MsPerHour) % 24
  }

  function MinFromTime(t: int): int {
    (t / MsPerMinute) % 60
  }

  function SecFromTime(t: int): int {
    (t / MsPerSecond) % 60
  }

  function MsFromTime(t: int): int {
    t % MsPerSecond
  }

  /** MakeDay: month and date may be out of range; they carry into the year and month. */
  function MakeDay(year: int, month: int, date: int): int {
    var ym := year + month / 12;
    var mn := month % 12;
    DayFromYear(ym) + CumulativeDays(mn, LeapDays(ym)) + date - 1
  }

  function MakeTime(hour: int, min: int, sec: int, ms: int): int {
    hour * MsPerHour + min * MsPerMinute + sec * MsPerSecond + ms
  }

  function MakeDate(day: int, time: int): int {
    day * MsPerDay + time
  }

  /** Date.UTC(year, month, date, hours, minutes, seconds, ms). */
  function UTC(year: int, month: int, date: int, hour: int, min: int, sec: int, ms: int): int {
    MakeDate(MakeDay(year, month, date), MakeTime(hour, min, sec, ms))
  }

  // The UTC setters of Date.prototype, each with the other fields left as they are.

  function SetUTCFullYear(t: int, year: int): int {
    MakeDate(MakeDay(year, MonthFromTime(t), DateFromTime(t)), TimeWithinDay(t))
  }

  function SetUTCMonth(t: int, month: int): int {
    MakeDate(MakeDay(YearFromTime(t), month, DateFromTime(t)), TimeWithinDay(t))
  }

  function SetUTCDate(t: int, date: int): int {
    MakeDate(MakeDay(YearFromTime(t), MonthFromTime(t), date), TimeWithinDay(t))
  }

  function SetUTCHours(t: int, hour: int): int {
    MakeDate(Day(t), MakeTime(hour, MinFromTime(t), SecFromTime(t), MsFromTime(t)))
  }

  /** setUTCHours(hour, min, sec, ms). */
  function SetUTCTime(t: int, hour: int, min: int, sec: int, ms: int): int {
    MakeDate(Day(t), MakeTime(hour, min, sec, ms))
  }

  function SetUTCMinutes(t: int, min: int): int {
    MakeDate(Day(t), MakeTime(HourFromTime(t), min, SecFromTime(t), MsFromTime(t)))
  }

  function SetUTCSeconds(t: int, sec: int): int {
    MakeDate(Day(t), MakeTime(HourFromTime(t), MinFromTime(t), sec, MsFromTime(t)))
  }

  function SetUTCMilliseconds(t: int, ms: int): int {
    MakeDate(Day(t), MakeTime(HourFromTime(t), MinFromTime(t), SecFromTime(t), ms))
  }

  // ---------------------------------------------------------------------------
  // Facts about the decomposition.

  lemma TimeDecomposition(t: int)
    ensures t == MakeDate(Day(t), TimeWithinDay(t))
    ensures 0 <= TimeWithinDay(t) < MsPerDay
    ensures TimeWithinDay(t) == MakeTime(HourFromTime(t), MinFromTime(t), SecFromTime(t), MsFromTime(t))
  {
    var a := t / 1000;
    var b := a / 60;
    var c := b / 60;
    assert t / MsPerMinute == b;
    assert t / MsPerHour == c;
    assert t / MsPerDay == c / 24;
  }

  lemma MakeDateParts(day: int, time: int)
    requires 0 <= time < MsPerDay
    ensures Day(MakeDate(day, time)) == day
    ensures TimeWithinDay(MakeDate(day, time)) == time
  {
  }

  /** MakeDay normalises its month into the range 0..11. */
  lemma MakeDayNormal(year: int, month: int, date: int)
    ensures MakeDay(year, month, date) == MakeDay(year + month / 12, month % 12, date)
    ensures MakeDay(year, month, date + 1) == MakeDay(year, month, date) + 1
  {
  }

  /** For a month already in 0..11, MakeDay is the month's first day plus the date. */
  lemma MakeDayInRange(y: int, m: int, date: int)
    requires 0 <= m < 12
    ensures MakeDay(y, m, date) == DayFromYear(y) + CumulativeDays(m, LeapDays(y)) + date - 1
  {
    assert m / 12 == 0 && m % 12 == m;
  }

  lemma MakeDayOfFields(d: int)
    ensures MakeDay(YearFromDay(d), MonthFromDay(d), DateFromDay(d)) == d
  {
    var m := MonthFromDay(d);
    assert m / 12 == 0 && m % 12 == m;
  }

  lemma DayShift(t: int, n: int)
    ensures Day(t + n * MsPerDay) == Day(t) + n
    ensures TimeWithinDay(t + n * MsPerDay) == TimeWithinDay(t)
  {
    var q, r := t / MsPerDay, t % MsPerDay;
    assert t + n * MsPerDay == (q + n) * MsPerDay + r;
  }

  /** The fields of an in-range year, month and date are read back unchanged. */
  lemma FieldsOfMakeDay(y: int, m: int, date: int)
    requires 0 <= m < 12 && 1 <= date <= DaysInMonth(y, m)
    ensures YearFromDay(MakeDay(y, m, date)) == y
    ensures MonthFromDay(MakeDay(y, m, date)) == m
    ensures DateFromDay(MakeDay(y, m, date)) == date
  {
    var leap := LeapDays(y);
    var d := MakeDay(y, m, date);
    assert m / 12 == 0 && m % 12 == m;
    assert d == DayFromYear(y) + CumulativeDays(m, leap) + date - 1;
    DayFromYearStep(y);
    LeapCycleFacts(y);
    CumulativeDaysMonotone(m + 1, 12, leap);
    YearFromDayUnique(d, y);
    assert DayWithinYear(d) == CumulativeDays(m, leap) + date - 1;
    MonthFromDayUnique(d, m);
  }

  lemma FieldsOfUTC(y: int, m: int, date: int, time: int)
    requires 0 <= m < 12 && 1 <= date <= DaysInMonth(y, m)
    requires 0 <= time < MsPerDay
    ensures YearFromTime(MakeDate(MakeDay(y, m, date), time)) == y
    ensures MonthFromTime(MakeDate(MakeDay(y, m, date), time)) == m
    ensures DateFromTime(MakeDate(MakeDay(y, m, date), time)) == date
    ensures TimeWithinDay(MakeDate(MakeDay(y, m, date), time)) == time
  {
    MakeDateParts(MakeDay(y, m, date), time);
    FieldsOfMakeDay(y, m, date);
  }

  /** A date past the end of a month before December reads back as the surplus date of the next month. */
  lemma FieldsAfterSpill(y: int, m: int, date: int, time: int)
    requires 0 <= m < 11 && DaysInMonth(y, m) < date <= 31
    requires 0 <= time < MsPerDay
    ensures MonthIndex(MakeDate(MakeDay(y, m, date), time)) == y * 12 + m + 1
    ensures DateFromTime(MakeDate(MakeDay(y, m, date), time)) == date - DaysInMonth(y, m)
    ensures TimeWithinDay(MakeDate(MakeDay(y, m, date), time)) == time
  {
    var next, spill := m + 1, date - DaysInMonth(y, m);
    DaysInMonthBounds(y, m);
    DaysInMonthBounds(y, next);
    SpillDay(y, m, date);
    FieldsOfUTC(y, next, spill, time);
  }

  /** Every month has 28 to 31 days. */
  lemma DaysInMonthBounds(y: int, m: int)
    requires 0 <= m < 12
    ensures 28 <= DaysInMonth(y, m) <= 31
  {
    DayFromYearStep(y);
  }

  /** A date past the end of a month before December names a day of the next month. */
  lemma SpillDay(y: int, m: int, date: int)
    requires 0 <= m < 11
    ensures MakeDay(y, m, date) == MakeDay(y, m + 1, date - DaysInMonth(y, m))
  {
    var next := m + 1;
    MakeDayInRange(y, m, date);
    MakeDayInRange(y, next, date - DaysInMonth(y, m));
  }

  lemma DateFromDayBounds(d: int)
    ensures 1 <= DateFromDay(d) <= DaysInMonth(YearFromDay(d), MonthFromDay(d)) <= 31
  {
  }

  // The setters used with "current value + n" shift by whole fixed-length units.

  lemma SetUTCDateShift(t: int, n: int)
    ensures SetUTCDate(t, DateFromTime(t) + n) == t + n * MsPerDay
  {
    TimeDecomposition(t);
    MakeDayOfFields(Day(t));
    var y, m, dt := YearFromTime(t), MonthFromTime(t), DateFromTime(t);
    assert MakeDay(y, m, dt + n) == MakeDay(y, m, dt) + n;
  }

  lemma SetUTCHoursShift(t: int, n: int)
    ensures SetUTCHours(t, HourFromTime(t) + n) == t + n * MsPerHour
  {
    TimeDecomposition(t);
  }

  lemma SetUTCMinutesShift(t: int, n: int)
    ensures SetUTCMinutes(t, MinFromTime(t) + n) == t + n * MsPerMinute
  {
    TimeDecomposition(t);
  }

  lemma SetUTCSecondsShift(t: int, n: int)
    ensures SetUTCSeconds(t, SecFromTime(t) + n) == t + n * MsPerSecond
  {
    TimeDecomposition(t);
  }

  lemma SetUTCMillisecondsShift(t: int, n: int)
    ensures SetUTCMilliseconds(t, MsFromTime(t) + n) == t + n
  {
    TimeDecomposition(t);
  }

  /** Setting the year and month a date already has changes nothing. */
  lemma SetUTCFullYearSame(t: int)
    ensures SetUTCFullYear(t, YearFromTime(t)) == t
    ensures SetUTCMonth(t, MonthFromTime(t)) == t
  {
    TimeDecomposition(t);
    MakeDayOfFields(Day(t));
  }

  lemma DayMonotone(t1: int, t2: int)
    requires t1 <= t2
    ensures Day(t1) <= Day(t2)
  {
  }

  lemma YearFromTimeMonotone(t1: int, t2: int)
    requires t1 <= t2
    ensures YearFromTime(t1) <= YearFromTime(t2)
  {
    DayMonotone(t1, t2);
    YearFromDayMonotone(Day(t1), Day(t2));
  }

  /** Year and month of an instant as one running month count. */
  function MonthIndex(t: int): int {
    YearFromTime(t) * 12 + MonthFromTime(t)
  }

  /** Months holding ordered days of one year are ordered. */
  lemma MonthBoundsOrdered(dwy1: int, dwy2: int, leap: int, m1: int, m2: int)
    requires 0 <= leap <= 1 && dwy1 <= dwy2
    requires 0 <= m1 < 12 && CumulativeDays(m1, leap) <= dwy1 < CumulativeDays(m1 + 1, leap)
    requires 0 <= m2 < 12 && CumulativeDays(m2, leap) <= dwy2 < CumulativeDays(m2 + 1, leap)
    ensures m1 <= m2
  {
    if m1 > m2 {
      CumulativeDaysMonotone(m2 + 1, m1, leap);
    }
  }

  /** Later days have a later or equal month count, and within one month a later or equal date. */
  lemma MonthIndexOfDays(d1: int, d2: int)
    requires d1 <= d2
    ensures YearFromDay(d1) * 12 + MonthFromDay(d1) <= YearFromDay(d2) * 12 + MonthFromDay(d2)
    ensures YearFromDay(d1) * 12 + MonthFromDay(d1) == YearFromDay(d2) * 12 + MonthFromDay(d2) ==> DateFromDay(d1) <= DateFromDay(d2)
  {
    YearFromDayMonotone(d1, d2);
    if YearFromDay(d1) == YearFromDay(d2) {
      SameYearMonths(d1, d2);
    }
  }

  lemma SameYearMonths(d1: int, d2: int)
    requires d1 <= d2 && YearFromDay(d1) == YearFromDay(d2)
    ensures MonthFromDay(d1) <= MonthFromDay(d2)
    ensures MonthFromDay(d1) == MonthFromDay(d2) ==> DateFromDay(d1) <= DateFromDay(d2)
  {
    var leap := LeapDays(YearFromDay(d1));
    DayWithinYearBounds(d1);
    MonthBoundsOrdered(DayWithinYear(d1), DayWithinYear(d2), leap, MonthFromDay(d1), MonthFromDay(d2));
  }

  lemma MonthIndexMonotone(t1: int, t2: int)
    requires t1 <= t2
    ensures MonthIndex(t1) <= MonthIndex(t2)
    ensures MonthIndex(t1) == MonthIndex(t2) ==> DateFromTime(t1) <= DateFromTime(t2)
  {
    DayMonotone(t1, t2);
    MonthIndexOfDays(Day(t1), Day(t2));
  }
}

=== FILE: constants.dfy ===
/**
 * The parser's constants: the input length cap, the character whitelist, the
 * capture-group indices of the token pattern and the days in a week. The token
 * pattern itself is scanned in module Patterns.
 */
module Constants {
  import opened Strings

  const MaxInputStringLength: nat := 75
  const InputRegexValueIndex: nat := 1
  const InputRegexUnitIndex: nat := 2
  const DaysPerWeek: nat := 7

  /** The characters `\s` matches in a JavaScript regular expression. */
  predicate IsWhitespace(c: char) {
    c == '\t' || c == '\n' || c == '\U{000B}' || c == '\U{000C}' || c == '\r' || c == ' '
    || c == '\U{00A0}' || c == '\U{1680}' || '\U{2000}' <= c <= '\U{200A}'
    || c == '\U{2028}' || c == '\U{2029}' || c == '\U{202F}' || c == '\U{205F}' || c == '\U{3000}' || c == '\U{FEFF}'
  }

  predicate IsAsciiLetter(c: char) {
    'a' <= c <= 'z' || 'A' <= c <= 'Z'
  }

  /** One character of the class `[a-zA-Z0-9\s]`. */
  predicate IsAllowedChar(c: char) {
    IsAsciiLetter(c) || IsDigit(c) || IsWhitespace(c)
  }

  /** The whitelist pattern `^[a-zA-Z0-9\s]+$`: one or more allowed characters and nothing else. */
  predicate MatchesAllowedPattern(s: string) {
    |s| >= 1 && forall i :: 0 <= i < |s| ==> IsAllowedChar(s[i])
  }

  /** The whitelist is anchored at both ends: it fails exactly on the empty string and on a string with any other character. */
  lemma AllowedPatternRejects(s: string)
    ensures !MatchesAllowedPattern(s) <==> |s| == 0 || exists i :: 0 <= i < |s| && !IsAllowedChar(s[i])
  {
  }

  /** "Hello123" and "Test String" pass; "123-456", "@#$" and "" fail. */
  lemma AllowedPatternExamples()
    ensures MatchesAllowedPattern("Hello123")
    ensures MatchesAllowedPattern("Test String")
    ensures !MatchesAllowedPattern("123-456")
    ensures !MatchesAllowedPattern("@#$")
    ensures !MatchesAllowedPattern("")
  {
    assert !IsAllowedChar("123-456"[3]);
    assert !IsAllowedChar("@#$"[0]);
  }
}

=== FILE: converters.dfy ===
/**
 * The eight converter instances behind one interface: each unit's metadata
 * (default, plural and abbreviated spelling, aliases, milliseconds per unit)
 * and its `between` and `add`.
 */
module Converters {
  import opened Wrappers
  import opened DateUnitConverter
  import opened UnitsOfTime
  import Calendar
  import MillisecondConverter
  import SecondConverter
  import MinuteConverter
  import HourConverter
  import DayConverter
  import WeekConverter
  import MonthConverter
  import YearConverter

  function Default(u: Unit): TimeUnit {
    match u
    case Year => YearConverter.Default
    case Month => MonthConverter.Default
    case Week => WeekConverter.Default
    case Day => DayConverter.Default
    case Hour => HourConverter.Default
    case Minute => MinuteConverter.Default
    case Second => SecondConverter.Default
    case Millisecond => MillisecondConverter.Default
  }

  function Plural(u: Unit): TimeUnit {
    match u
    case Year => YearConverter.Plural
    case Month => MonthConverter.Plural
    case Week => WeekConverter.Plural
    case Day => DayConverter.Plural
    case Hour => HourConverter.Plural
    case Minute => MinuteConverter.Plural
    case Second => SecondConverter.Plural
    case Millisecond => MillisecondConverter.Plural
  }

  function Abbreviation(u: Unit): TimeUnit {
    match u
    case Year => YearConverter.Abbreviation
    case Month => MonthConverter.Abbreviation
    case Week => WeekConverter.Abbreviation
    case Day => DayConverter.Abbreviation
    case Hour => HourConverter.Abbreviation
    case Minute => MinuteConverter.Abbreviation
    case Second => SecondConverter.Abbreviation
    case Millisecond => MillisecondConverter.Abbreviation
  }

  function MillisecondsPerUnit(u: Unit): int {
    match u
    case Year => YearConverter.MillisecondsPerUnit
    case Month => MonthConverter.MillisecondsPerUnit
    case Week => WeekConverter.MillisecondsPerUnit
    case Day => DayConverter.MillisecondsPerUnit
    case Hour => HourConverter.MillisecondsPerUnit
    case Minute => MinuteConverter.MillisecondsPerUnit
    case Second => SecondConverter.MillisecondsPerUnit
    case Millisecond => MillisecondConverter.MillisecondsPerUnit
  }

  /** Which alias arrays a lookup table is built from: as the converters declare them, or with the year and hour arrays completed. */
  datatype AliasSource = AsWritten | Corrected

  function Aliases(src: AliasSource, u: Unit): seq<TimeUnit> {
    match u
    case Year => if src == AsWritten then YearConverter.AliasesAsWritten else YearConverter.Aliases
    case Month => MonthConverter.Aliases
    case Week => WeekConverter.Aliases
    case Day => DayConverter.Aliases
    case Hour => if src == AsWritten then HourConverter.AliasesAsWritten else HourConverter.Aliases
    case Minute => MinuteConverter.Aliases
    case Second => SecondConverter.Aliases
    case Millisecond => MillisecondConverter.Aliases
  }

  /** `between` of the unit's converter. */
  function Between(u: Unit, s: DateArg, e: DateArg): Result<int> {
    match u
    case Year => YearConverter.Between(s, e)
    case Month => MonthConverter.Between(s, e)
    case Week => WeekConverter.Between(s, e)
    case Day => DayConverter.DaysBetween(s, e)
    case Hour => HourConverter.Between(s, e)
    case Minute => MinuteConverter.Between(s, e)
    case Second => SecondConverter.Between(s, e)
    case Millisecond => MillisecondConverter.Between(s, e)
  }

  /** `add` of the unit's converter. */
  function Add(u: Unit, n: int, d: DateArg): Result<int> {
    match u
    case Year => YearConverter.Added(n, d)
    case Month => MonthConverter.Added(n, d)
    case Week => WeekConverter.Add(n, d)
    case Day => DayConverter.Add(n, d)
    case Hour => HourConverter.Add(n, d)
    case Minute => MinuteConverter.Add(n, d)
    case Second => SecondConverter.Add(n, d)
    case Millisecond => MillisecondConverter.Add(n, d)
  }

  /** Each converter's names are spellings of its own unit: the singular, plural and symbol forms. */
  lemma MetadataOfUnit(u: Unit)
    ensures Default(u) == TimeUnit(u, SingularName)
    ensures Plural(u) == TimeUnit(u, PluralName)
    ensures Abbreviation(u) == TimeUnit(u, Symbol)
  {
  }

  /** With the corrected arrays each converter lists all five spellings of its unit; as written, year and hour list only three. */
  lemma AliasesOfUnit(src: AliasSource, u: Unit, tu: TimeUnit)
    ensures tu in Aliases(src, u) ==> tu.unit == u
    ensures src == Corrected ==> (tu in Aliases(src, u) <==> tu.unit == u)
    ensures src == AsWritten && (u == Year || u == Hour) ==> (tu in Aliases(src, u) <==> tu.unit == u && tu.form in {ShortPlural, ShortName, Symbol})
    ensures src == AsWritten && u != Year && u != Hour ==> (tu in Aliases(src, u) <==> tu.unit == u)
  {
    if tu.unit == u {
      assert Group(u)[FormIndex(tu.form)] == tu;
    }
  }

  /** The fixed-length units, milliseconds to weeks, have a positive length; month has the sentinel -1. */
  lemma FixedLengths(u: Unit)
    ensures u != Month ==> MillisecondsPerUnit(u) > 0
    ensures u == Month ==> MillisecondsPerUnit(u) == -1
    ensures MillisecondsPerUnit(Week) == 7 * MillisecondsPerUnit(Day) == 7 * 24 * MillisecondsPerUnit(Hour)
    ensures MillisecondsPerUnit(Hour) == 60 * MillisecondsPerUnit(Minute) == 3600 * MillisecondsPerUnit(Second)
    ensures MillisecondsPerUnit(Second) == 1000 * MillisecondsPerUnit(Millisecond) == 1000
    ensures MillisecondsPerUnit(Year) == 365 * MillisecondsPerUnit(Day)
  {
  }

  /** A year the Date constructor would read as 1900 plus that year. */
  predicate TwoDigitYear(t: int) {
    0 <= Calendar.YearFromTime(t) <= 99
  }

  /**
   * Every converter rejects a non-Date and a reversed range, and nothing else;
   * a count is never negative (for days, away from the two-digit years).
   */
  lemma BetweenContract(u: Unit, s: DateArg, e: DateArg)
    ensures Between(u, s, e).Failure? <==> s.NonDate? || e.NonDate? || s.time > e.time
    ensures s.DateAt? && e.DateAt? && s.time > e.time ==> Between(u, s, e) == Failure(RangeError)
    ensures Between(u, s, e).Success? && (u == Day ==> !TwoDigitYear(s.time) && !TwoDigitYear(e.time)) ==> Between(u, s, e).value >= 0
  {
    if s.DateAt? && e.DateAt? && s.time <= e.time {
      match u
      case Year => YearConverter.YearsBetweenNonNegative(s.time, e.time);
      case Month => MonthConverter.MonthsBetweenNonNegative(s.time, e.time);
      case Day =>
        if !TwoDigitYear(s.time) && !TwoDigitYear(e.time) {
          DayConverter.DayCountIsDayDifference(s.time, e.time);
        }
      case _ =>
    }
  }

  /** Every converter rejects a non-Date and a negative amount, and nothing else; the result is never earlier. */
  lemma AddContract(u: Unit, n: int, d: DateArg)
    ensures Add(u, n, d).Failure? <==> d.NonDate? || n < 0
    ensures d.NonDate? ==> Add(u, n, d) == Failure("Invalid date input.")
    ensures Add(u, n, d).Success? ==> Add(u, n, d).value >= d.time
  {
    if d.DateAt? && n >= 0 {
      match u
      case Year => YearConverter.YearsLaterNotEarlier(d.time, n);
      case Month => MonthConverter.MonthsLaterNotEarlier(d.time, n);
      case _ =>
    }
  }
}

=== FILE: date_unit_calculator.dfy ===
/**
 * The date-unit calculator: every operation looks the unit up in the 40-key
 * converter table and hands the rest to the converter it finds, so an unknown
 * unit fails in the lookup before any converter runs.
 */
module DateUnitCalculator {
  import opened Wrappers
  import opened DateUnitConverter
  import opened UnitsOfTime
  import Calendar
  import Converters
  import DateUnitConversionMap
  import YearConverter

  /** `between(unit, start, end)`. */
  function Between(unit: string, s: DateArg, e: DateArg): (r: Result<int>)
    ensures Parse(unit).None? ==> r == Failure("Invalid date unit: " + unit)
    ensures Parse(unit).Some? ==> r == Converters.Between(Parse(unit).value.unit, s, e)
  {
    match DateUnitConversionMap.Get(unit)
    case Failure(err) => Failure(err)
    case Success(converter) => Converters.Between(converter, s, e)
  }

  /** `calculateUnitBetween(start, end, unit)`: the same lookup and count with the unit last. */
  function CalculateUnitBetween(s: DateArg, e: DateArg, unit: string): (r: Result<int>)
    ensures Parse(unit).None? ==> r == Failure("Invalid date unit: " + unit)
    ensures Parse(unit).Some? ==> r == Converters.Between(Parse(unit).value.unit, s, e)
  {
    match DateUnitConversionMap.Get(unit)
    case Failure(err) => Failure(err)
    case Success(converter) => Converters.Between(converter, s, e)
  }

  /** `millisecondsPerUnit(unit)`. */
  function MillisecondsPerUnit(unit: string): (r: Result<int>)
    ensures r.Success? <==> Parse(unit).Some?
    ensures Parse(unit).None? ==> r == Failure("Invalid date unit: " + unit)
    ensures r.Success? ==> r.value == Converters.MillisecondsPerUnit(Parse(unit).value.unit)
  {
    match DateUnitConversionMap.Get(unit)
    case Failure(err) => Failure(err)
    case Success(converter) => Success(Converters.MillisecondsPerUnit(converter))
  }

  /** `pluralUnit(unit)`: the plural name of the unit the spelling belongs to. */
  function PluralUnit(unit: string): (r: Result<string>)
    ensures r.Success? <==> Parse(unit).Some?
    ensures Parse(unit).None? ==> r == Failure("Invalid date unit: " + unit)
    ensures r.Success? ==> Parse(r.value) == Some(TimeUnit(Parse(unit).value.unit, PluralName))
  {
    match DateUnitConversionMap.Get(unit)
    case Failure(err) => Failure(err)
    case Success(converter) =>
      Converters.MetadataOfUnit(converter);
      ParseOfText(Converters.Plural(converter));
      Success(Text(Converters.Plural(converter)))
  }

  /** `abbreviatedUnit(unit)`: the abbreviation of the unit the spelling belongs to. */
  function AbbreviatedUnit(unit: string): (r: Result<string>)
    ensures r.Success? <==> Parse(unit).Some?
    ensures Parse(unit).None? ==> r == Failure("Invalid date unit: " + unit)
    ensures r.Success? ==> Parse(r.value) == Some(TimeUnit(Parse(unit).value.unit, Symbol))
  {
    match DateUnitConversionMap.Get(unit)
    case Failure(err) => Failure(err)
    case Success(converter) =>
      Converters.MetadataOfUnit(converter);
      ParseOfText(Converters.Abbreviation(converter));
      Success(Text(Converters.Abbreviation(converter)))
  }

  /** `addUnits(unit, value, start)`. */
  function AddUnits(unit: string, value: int, d: DateArg): (r: Result<int>)
    ensures Parse(unit).None? ==> r == Failure("Invalid date unit: " + unit)
    ensures Parse(unit).Some? ==> r == Converters.Add(Parse(unit).value.unit, value, d)
  {
    match DateUnitConversionMap.Get(unit)
    case Failure(err) => Failure(err)
    case Success(converter) => Converters.Add(converter, value, d)
  }

  /** Both argument orders count the same, and a known unit fails only where its converter does. */
  lemma BetweenAgrees(unit: string, s: DateArg, e: DateArg)
    ensures CalculateUnitBetween(s, e, unit) == Between(unit, s, e)
    ensures Between(unit, s, e).Failure? <==> Parse(unit).None? || s.NonDate? || e.NonDate? || s.time > e.time
  {
    if Parse(unit).Some? {
      Converters.BetweenContract(Parse(unit).value.unit, s, e);
    }
  }

  /** The plural and abbreviated names are spellings of the same unit, and each is its own plural or abbreviation again. */
  lemma NamesRoundTrip(unit: string)
    requires Parse(unit).Some?
    ensures PluralUnit(PluralUnit(unit).value) == PluralUnit(unit)
    ensures AbbreviatedUnit(AbbreviatedUnit(unit).value) == AbbreviatedUnit(unit)
    ensures AbbreviatedUnit(PluralUnit(unit).value) == AbbreviatedUnit(unit)
  {
  }

  /** millisecondsPerUnit("hour") is 3600000. */
  lemma HourLength()
    ensures MillisecondsPerUnit("hour") == Success(3600000)
  {
    DateUnitConversionMap.GetOfText(TimeUnit(Hour, SingularName));
  }

  /** pluralUnit("minute") is "minutes". */
  lemma MinutePlural()
    ensures PluralUnit("minute") == Success("minutes")
  {
    DateUnitConversionMap.GetOfText(TimeUnit(Minute, SingularName));
  }

  /** abbreviatedUnit("month") is "M". */
  lemma MonthAbbreviation()
    ensures AbbreviatedUnit("month") == Success("M")
  {
    DateUnitConversionMap.GetOfText(TimeUnit(Month, SingularName));
  }

  /** addUnits("year", 3, 2023-01-01) is 2026-01-01. */
  lemma ThreeYearsLater()
    ensures AddUnits("year", 3, DateAt(Calendar.UTC(2023, 0, 1, 0, 0, 0, 0))) == Success(Calendar.UTC(2026, 0, 1, 0, 0, 0, 0))
  {
    DateUnitConversionMap.GetOfText(TimeUnit(Year, SingularName));
    Calendar.FieldsOfUTC(2023, 0, 1, 0);
    assert YearConverter.YearsLater(Calendar.UTC(2023, 0, 1, 0, 0, 0, 0), 3) == Calendar.UTC(2026, 0, 1, 0, 0, 0, 0);
  }
}

=== FILE: date_unit_conversion_map.dfy ===
/**
 * The table of date-unit converters: 40 keys, the five spellings of each of
 * the eight units, each mapped to that unit's converter instance. `Get` is the
 * lookup, which throws for a string outside the table.
 */
module DateUnitConversionMap {
  import opened Wrappers
  import opened DateUnitConverter
  import opened UnitsOfTime

  /** The table's entries, in the order they are listed. */
  function ConverterOf(tu: TimeUnit): Unit {
    match tu
    case TimeUnit(Millisecond, Symbol) => Millisecond  // "ms"
    case TimeUnit(Millisecond, ShortPlural) => Millisecond  // "mss"
    case TimeUnit(Millisecond, ShortName) => Millisecond  // "msec"
    case TimeUnit(Millisecond, PluralName) => Millisecond  // "milliseconds"
    case TimeUnit(Millisecond, SingularName) => Millisecond  // "millisecond"
    case TimeUnit(Second, Symbol) => Second  // "s"
    case TimeUnit(Second, ShortName) => Second  // "sec"
    case TimeUnit(Second, ShortPlural) => Second  // "secs"
    case TimeUnit(Second, SingularName) => Second  // "second"
    case TimeUnit(Second, PluralName) => Second  // "seconds"
    case TimeUnit(Minute, Symbol) => Minute  // "m"
    case TimeUnit(Minute, ShortName) => Minute  // "min"
    case TimeUnit(Minute, ShortPlural) => Minute  // "mins"
    case TimeUnit(Minute, SingularName) => Minute  // "minute"
    case TimeUnit(Minute, PluralName) => Minute  // "minutes"
    case TimeUnit(Hour, Symbol) => Hour  // "h"
    case TimeUnit(Hour, ShortName) => Hour  // "hr"
    case TimeUnit(Hour, ShortPlural) => Hour  // "hrs"
    case TimeUnit(Hour, SingularName) => Hour  // "hour"
    case TimeUnit(Hour, PluralName) => Hour  // "hours"
    case TimeUnit(Day, Symbol) => Day  // "d"
    case TimeUnit(Day, ShortName) => Day  // "dy"
    case TimeUnit(Day, ShortPlural) => Day  // "dys"
    case TimeUnit(Day, SingularName) => Day  // "day"
    case TimeUnit(Day, PluralName) => Day  // "days"
    case TimeUnit(Week, Symbol) => Week  // "w"
    case TimeUnit(Week, ShortName) => Week  // "wk"
    case TimeUnit(Week, ShortPlural) => Week  // "wks"
    case TimeUnit(Week, SingularName) => Week  // "week"
    case TimeUnit(Week, PluralName) => Week  // "weeks"
    case TimeUnit(Month, Symbol) => Month  // "M"
    case TimeUnit(Month, ShortName) => Month  // "mo"
    case TimeUnit(Month, ShortPlural) => Month  // "mos"
    case TimeUnit(Month, SingularName) => Month  // "month"
    case TimeUnit(Month, PluralName) => Month  // "months"
    case TimeUnit(Year, Symbol) => Year  // "y"
    case TimeUnit(Year, ShortName) => Year  // "yr"
    case TimeUnit(Year, ShortPlural) => Year  // "yrs"
    case TimeUnit(Year, SingularName) => Year  // "year"
    case TimeUnit(Year, PluralName) => Year  // "years"
  }

  /** Every spelling maps to the converter of its own unit, so all five spellings of a unit share one instance. */
  lemma ConverterOfUnit(tu: TimeUnit)
    ensures ConverterOf(tu) == tu.unit
  {
  }

  /** `get`: the converter listed for a key, or an error naming the key. */
  function Get(key: string): (r: Result<Unit>)
    ensures r.Success? <==> Parse(key).Some?
    ensures r.Success? ==> r.value == Parse(key).value.unit
    ensures r.Failure? ==> r.error == "Invalid date unit: " + key
  {
    ConverterOfUnit(if Parse(key).Some? then Parse(key).value else TimeUnit(Year, Symbol));
    match Parse(key)
    case Some(tu) => Success(ConverterOf(tu))
    case None => Failure("Invalid date unit: " + key)
  }

  /** The keys are exactly the texts of the 40 spellings, and each maps to its unit. */
  lemma GetOfText(tu: TimeUnit)
    ensures Get(Text(tu)) == Success(tu.unit)
  {
    ParseOfText(tu);
  }

  /** A key is accepted exactly when it is the text of a spelling. */
  lemma GetAccepts(key: string)
    ensures Get(key).Success? <==> exists tu :: Text(tu) == key
  {
    if Get(key).Success? {
      ParseText(key, Parse(key).value);
    }
    if tu :| Text(tu) == key {
      ParseOfText(tu);
    }
  }

  /** "M" is the month converter and "m" the minute converter; "dy" and "millisecond" are keys. */
  lemma TableExamples()
    ensures Get("M") == Success(Month) && Get("m") == Success(Minute)
    ensures Get("dy") == Success(Day) && Get("millisecond") == Success(Millisecond)
  {
    GetOfText(TimeUnit(Month, Symbol));
    GetOfText(TimeUnit(Minute, Symbol));
    GetOfText(TimeUnit(Day, ShortName));
    GetOfText(TimeUnit(Millisecond, SingularName));
  }

  /** Keys are case-sensitive: "Years" is not one. */
  lemma CaseSensitive()
    ensures Get("Years") == Failure("Invalid date unit: Years")
  {
  }
}

=== FILE: date_unit_converter.dfy ===
/**
 * What every date-unit converter shares: the calendar constants, the leap-year
 * rule, the closed set of units, the shape of a Date argument and the guards of
 * the fixed-ratio converters (milliseconds to weeks).
 */
module DateUnitConverter {
  import opened Wrappers
  import Calendar

  const MonthsInAYear: int := 12
  const DaysInAYear: int := 365
  const DaysInAWeek: int := 7
  const HoursInADay: int := 24
  const MinutesInAnHour: int := 60
  const SecondsInAMinute: int := 60
  const MillisecondsInASecond: int := 1000
  const LeapYearDivisor: int := 4
  const CenturyDivisor: int := 100
  const QuadricentennialDivisor: int := 400

  /** The eight converters; each stands for one converter instance. */
  datatype Unit = Year | Month | Week | Day | Hour | Minute | Second | Millisecond

  /**
   * An argument passed where a Date is expected: something that is not a Date,
   * or a Date holding an instant in milliseconds since the epoch.
   */
  datatype DateArg = NonDate | DateAt(time: int)

  const RangeError: string := "Start date cannot be greater than end date."

  /**
   * The leap-year rule. JavaScript's `%` keeps the sign of the dividend, but a
   * remainder is zero for exactly the same years under either convention.
   */
  predicate IsLeapYear(year: int) {
    (year % LeapYearDivisor == 0 && year % CenturyDivisor != 0) || year % QuadricentennialDivisor == 0
  }

  /** The rule agrees with the length of the year on the calendar. */
  lemma IsLeapYearDaysInYear(year: int)
    ensures IsLeapYear(year) <==> Calendar.DaysInYear(year) == 366
    ensures !IsLeapYear(year) <==> Calendar.DaysInYear(year) == 365
  {
    Calendar.LeapCycleFacts(year);
  }

  /** `between` of a converter with a fixed number of milliseconds per unit. */
  function FixedBetween(factor: int, dateError: string, s: DateArg, e: DateArg): (r: Result<int>)
    requires factor > 0
    ensures r.Failure? <==> s.NonDate? || e.NonDate? || s.time > e.time
    ensures (s.NonDate? || e.NonDate?) ==> r == Failure(dateError)
    ensures s.DateAt? && e.DateAt? && s.time > e.time ==> r == Failure(RangeError)
    ensures r.Success? ==> 0 <= r.value && r.value * factor <= e.time - s.time < (r.value + 1) * factor
  {
    if s.NonDate? || e.NonDate? then Failure(dateError)
    else if s.time > e.time then Failure(RangeError)
    else Success((e.time - s.time) / factor)
  }

  /** `add` of a converter with a fixed number of milliseconds per unit. */
  function FixedAdd(factor: int, amountError: string, n: int, d: DateArg): (r: Result<int>)
    ensures r.Failure? <==> d.NonDate? || n < 0
    ensures d.NonDate? ==> r == Failure("Invalid date input.")
    ensures d.DateAt? && n < 0 ==> r == Failure(amountError)
    ensures r.Success? ==> r.value - d.time == n * factor
  {
    if d.NonDate? then Failure("Invalid date input.")
    else if n < 0 then Failure(amountError)
    else Success(d.time + n * factor)
  }

  lemma MulDivExact(n: int, factor: int)
    requires factor > 0
    ensures (n * factor) / factor == n
  {
    var q, r := (n * factor) / factor, (n * factor) % factor;
    assert (n - q) * factor == r;
    MulBound(n - q, factor);
  }

  lemma MulBound(a: int, factor: int)
    requires factor > 0
    ensures a >= 1 ==> a * factor >= factor
    ensures a <= -1 ==> a * factor <= -factor
  {
  }

  /** Counting whole units back over a shift of n units gives n. */
  lemma FixedBetweenAfterAdd(factor: int, dateError: string, amountError: string, n: int, t: int)
    requires factor > 0 && n >= 0
    ensures FixedAdd(factor, amountError, n, DateAt(t)).Success?
    ensures FixedBetween(factor, dateError, DateAt(t), DateAt(FixedAdd(factor, amountError, n, DateAt(t)).value)) == Success(n)
  {
    MulDivExact(n, factor);
    assert t + n * factor - t == n * factor;
  }
}

=== FILE: day_converter.dfy ===
/**
 * The day converter. `between` counts calendar days from the two dates' years
 * and days of the year, adding a day for each leap year it walks over; `add`
 * shifts by whole 24-hour days.
 */
module DayConverter {
  import opened Wrappers
  import opened DateUnitConverter
  import opened UnitsOfTime
  import opened Calendar

  const Default: TimeUnit := TimeUnit(Day, SingularName)  // "day"
  const Plural: TimeUnit := TimeUnit(Day, PluralName)  // "days"
  const Abbreviation: TimeUnit := TimeUnit(Day, Symbol)  // "d"
  const MillisecondsPerUnit: int := 24 * 60 * 60 * 1000
  const Aliases: seq<TimeUnit> := [TimeUnit(Day, SingularName), TimeUnit(Day, PluralName), TimeUnit(Day, ShortPlural), TimeUnit(Day, ShortName), TimeUnit(Day, Symbol)]  // "day", "days", "dys", "dy", "d"

  /**
   * Day number of January 1st as `new Date(year, 0, 1)` builds it: the Date
   * constructor reads a year from 0 to 99 as 1900 plus that year.
   */
  function StartOfYearDay(year: int): int {
    DayFromYear(if 0 <= year <= 99 then 1900 + year else year)
  }

  /** 1-based day of the year: whole days since `new Date(year, 0, 1)`, plus one. */
  function DayOfYear(t: int): (r: int)
    ensures r == Calendar.Day(t) - StartOfYearDay(YearFromTime(t)) + 1
  {
    var startOfYear := MakeDate(StartOfYearDay(YearFromTime(t)), 0);
    (t - startOfYear) / 86400000 + 1
  }

  /** Leap years in [lo, hi). */
  function LeapYearsBetween(lo: int, hi: int): int
    requires lo <= hi
    decreases hi - lo
  {
    if lo == hi then 0 else (if IsLeapYear(lo) then 1 else 0) + LeapYearsBetween(lo + 1, hi)
  }

  lemma {:induction false} LeapYearsBetweenStep(lo: int, hi: int)
    requires lo <= hi
    ensures LeapYearsBetween(lo, hi + 1) == LeapYearsBetween(lo, hi) + (if IsLeapYear(hi) then 1 else 0)
    decreases hi - lo
  {
    if lo < hi {
      LeapYearsBetweenStep(lo + 1, hi);
    }
  }

  /** Counting leap years is the same as measuring the calendar in days. */
  lemma {:induction false} LeapYearsBetweenDays(lo: int, hi: int)
    requires lo <= hi
    ensures LeapYearsBetween(lo, hi) == DayFromYear(hi) - DayFromYear(lo) - 365 * (hi - lo)
    decreases hi - lo
  {
    if lo < hi {
      DayFromYearStep(lo);
      IsLeapYearDaysInYear(lo);
      LeapYearsBetweenDays(lo + 1, hi);
    }
  }

  /** The day count `between` reaches: the year starts' distance, then the day-of-year difference. */
  function DayCount(s: int, e: int): int {
    DayFromYear(YearFromTime(e)) - DayFromYear(YearFromTime(s)) + DayOfYear(e) - DayOfYear(s)
  }

  /** What `between` returns. */
  function DaysBetween(s: DateArg, e: DateArg): (r: Result<int>)
    ensures r.Failure? <==> s.NonDate? || e.NonDate? || s.time > e.time
    ensures s.NonDate? || e.NonDate? ==> r == Failure("Invalid date input.")
    ensures s.DateAt? && e.DateAt? && s.time > e.time ==> r == Failure(RangeError)
    ensures r.Success? ==> r.value == DayCount(s.time, e.time)
  {
    if s.NonDate? || e.NonDate? then Failure("Invalid date input.")
    else if s.time > e.time then Failure(RangeError)
    else Success(DayCount(s.time, e.time))
  }

  /** `between`: full years at 365 days, a day per leap year, then the day-of-year difference. */
  method Between(s: DateArg, e: DateArg) returns (r: Result<int>)
    ensures r == DaysBetween(s, e)
  {
    if s.NonDate? || e.NonDate? {
      return Failure("Invalid date input.");
    }
    if s.time > e.time {
      return Failure(RangeError);
    }
    var startYear := YearFromTime(s.time);
    var endYear := YearFromTime(e.time);
    YearFromTimeMonotone(s.time, e.time);
    var startDayOfYear := DayOfYear(s.time);
    var endDayOfYear := DayOfYear(e.time);
    var dayCount := (endYear - startYear) * 365;
    var year := startYear;
    while year < endYear
      invariant startYear <= year <= endYear
      invariant dayCount == (endYear - startYear) * 365 + LeapYearsBetween(startYear, year)
    {
      LeapYearsBetweenStep(startYear, year);
      if IsLeapYear(year) {
        dayCount := dayCount + 1;
      }
      year := year + 1;
    }
    LeapYearsBetweenDays(startYear, endYear);
    dayCount := dayCount + (endDayOfYear - startDayOfYear);
    return Success(dayCount);
  }

  /**
   * Outside the two-digit years the count is the difference of the calendar day
   * numbers, so the time of day never matters and the count is never negative.
   */
  lemma DayCountIsDayDifference(s: int, e: int)
    requires s <= e
    requires !(0 <= YearFromTime(s) <= 99) && !(0 <= YearFromTime(e) <= 99)
    ensures DayCount(s, e) == Calendar.Day(e) - Calendar.Day(s)
    ensures DayCount(s, e) >= 0
  {
    DayMonotone(s, e);
  }

  /** The instant n days of 24 hours after d. */
  function Add(n: int, d: DateArg): (r: Result<int>)
    ensures r.Failure? <==> d.NonDate? || n < 0
    ensures d.NonDate? ==> r == Failure("Invalid date input.")
    ensures d.DateAt? && n < 0 ==> r == Failure("Invalid day input.")
    ensures r.Success? ==> r.value == d.time + n * MillisecondsPerUnit
  {
    FixedAdd(MillisecondsPerUnit, "Invalid day input.", n, d)
  }

  /** Counting the days back over n added days gives n, outside the two-digit years. */
  lemma BetweenAfterAdd(n: int, t: int)
    requires n >= 0
    requires !(0 <= YearFromTime(t) <= 99) && !(0 <= YearFromTime(t + n * MsPerDay) <= 99)
    ensures DayCount(t, t + n * MsPerDay) == n
  {
    var e := t + n * MsPerDay;
    DayShift(t, n);
    DayCountOfShift(t, e, n);
  }

  lemma DayCountOfShift(t: int, e: int, n: int)
    requires t <= e && Calendar.Day(e) == Calendar.Day(t) + n
    requires !(0 <= YearFromTime(t) <= 99) && !(0 <= YearFromTime(e) <= 99)
    ensures DayCount(t, e) == n
  {
    DayCountIsDayDifference(t, e);
  }
}

=== FILE: frame_text.dfy ===
/**
 * The text form of a duration record that the three formatters share: every
 * field that is non-zero and whose key the formatter accepts becomes its value
 * followed by its unit's abbreviation, in the record's key order, and the parts
 * are joined by single spaces.
 */
module FrameText {
  import opened Wrappers
  import opened DateUnitConverter
  import opened UnitsOfTime
  import opened Strings
  import opened TimeFrames

  /** `${value}${abbreviation}`: one field's part. */
  function Part(u: Unit, v: int): string {
    IntToString(v) + Text(TimeUnit(u, Symbol))
  }

  /** Every unit; the formatters that check nothing beyond `!== 0` accept all keys. */
  const AllUnits: set<Unit> := {Year, Month, Week, Day, Hour, Minute, Second, Millisecond}

  /** A field is shown when it is non-zero and its unit is accepted. */
  predicate IsShown(tf: TimeFrame, kept: set<Unit>, u: Unit) {
    u in kept && Get(tf, u) != 0
  }

  /** The units whose parts are emitted, walking keys in order. */
  function Shown(tf: TimeFrame, kept: set<Unit>, keys: seq<Unit>): (us: seq<Unit>)
    ensures forall u :: u in us <==> u in keys && IsShown(tf, kept, u)
    decreases |keys|
  {
    if keys == [] then []
    else
      var init, last := keys[..|keys| - 1], keys[|keys| - 1];
      assert keys == init + [last];
      Shown(tf, kept, init) + (if IsShown(tf, kept, last) then [last] else [])
  }

  /** The parts a formatter pushes, walking keys in order. */
  function Parts(tf: TimeFrame, kept: set<Unit>, keys: seq<Unit>): seq<string>
    decreases |keys|
  {
    if keys == [] then []
    else
      var init, last := keys[..|keys| - 1], keys[|keys| - 1];
      Parts(tf, kept, init) + (if IsShown(tf, kept, last) then [Part(last, Get(tf, last))] else [])
  }

  /** Walking one more key adds that key's part, if it is shown. */
  lemma PartsStep(tf: TimeFrame, kept: set<Unit>, keys: seq<Unit>, n: nat)
    requires 0 < n <= |keys|
    ensures Parts(tf, kept, keys[..n]) == Parts(tf, kept, keys[..n - 1])
      + (if IsShown(tf, kept, keys[n - 1]) then [Part(keys[n - 1], Get(tf, keys[n - 1]))] else [])
  {
    assert keys[..n][..n - 1] == keys[..n - 1];
  }

  /** The joined text of a record's shown fields. */
  function Render(tf: TimeFrame, kept: set<Unit>): string {
    Join(Parts(tf, kept, KeyOrder), " ")
  }

  /** Position of a unit among the record's keys. */
  function Rank(u: Unit): (i: nat)
    ensures i < |KeyOrder| && KeyOrder[i] == u
  {
    match u
    case Year => 0
    case Month => 1
    case Week => 2
    case Day => 3
    case Hour => 4
    case Minute => 5
    case Second => 6
    case Millisecond => 7
  }

  /** The j-th part is the part of the j-th shown unit, and there is one part per shown unit. */
  lemma {:induction false} PartsOfShown(tf: TimeFrame, kept: set<Unit>, keys: seq<Unit>)
    ensures |Parts(tf, kept, keys)| == |Shown(tf, kept, keys)|
    ensures forall j :: 0 <= j < |Parts(tf, kept, keys)| ==>
      Parts(tf, kept, keys)[j] == Part(Shown(tf, kept, keys)[j], Get(tf, Shown(tf, kept, keys)[j]))
    decreases |keys|
  {
    if keys != [] {
      PartsOfShown(tf, kept, keys[..|keys| - 1]);
    }
  }

  /** Walking keys of increasing key position below bound, the shown units keep that order. */
  lemma {:induction false} ShownOrdered(tf: TimeFrame, kept: set<Unit>, keys: seq<Unit>, bound: nat)
    requires forall i :: 0 <= i < |keys| ==> Rank(keys[i]) < bound
    requires forall i, j :: 0 <= i < j < |keys| ==> Rank(keys[i]) < Rank(keys[j])
    ensures forall j :: 0 <= j < |Shown(tf, kept, keys)| ==> Rank(Shown(tf, kept, keys)[j]) < bound
    ensures forall i, j :: 0 <= i < j < |Shown(tf, kept, keys)| ==>
      Rank(Shown(tf, kept, keys)[i]) < Rank(Shown(tf, kept, keys)[j])
    decreases |keys|
  {
    if keys != [] {
      var init, last := keys[..|keys| - 1], keys[|keys| - 1];
      ShownOrdered(tf, kept, init, Rank(last));
    }
  }

  /** The shown units are exactly the accepted non-zero fields, in key order. */
  lemma ShownInKeyOrder(tf: TimeFrame, kept: set<Unit>)
    ensures forall u :: u in Shown(tf, kept, KeyOrder) <==> u in kept && Get(tf, u) != 0
    ensures forall i, j :: 0 <= i < j < |Shown(tf, kept, KeyOrder)| ==>
      Rank(Shown(tf, kept, KeyOrder)[i]) < Rank(Shown(tf, kept, KeyOrder)[j])
  {
    assert forall i :: 0 <= i < |KeyOrder| ==> Rank(KeyOrder[i]) == i;
    ShownOrdered(tf, kept, KeyOrder, |KeyOrder|);
    forall u ensures u in KeyOrder {
      KeyOrderComplete(u);
    }
  }

  /** Every character of an integer's decimal form is a digit, except a leading minus sign. */
  lemma IntToStringChars(n: int)
    ensures forall i :: 0 < i < |IntToString(n)| ==> IsDigit(IntToString(n)[i])
    ensures IsDigit(IntToString(n)[0]) || IntToString(n)[0] == '-'
  {
    if n < 0 {
      var d := NatToString(-n);
      assert IntToString(n) == "-" + d;
      assert forall i :: 0 < i < |IntToString(n)| ==> IntToString(n)[i] == d[i - 1];
    }
  }

  /** The abbreviations are non-empty runs of letters; distinct units have distinct abbreviations. */
  lemma AbbreviationLetters(u: Unit)
    ensures |Text(TimeUnit(u, Symbol))| >= 1
    ensures forall c :: c in Text(TimeUnit(u, Symbol)) ==> 'a' <= c <= 'z' || 'A' <= c <= 'Z'
    ensures Parse(Text(TimeUnit(u, Symbol))) == Some(TimeUnit(u, Symbol))
  {
    ParseOfText(TimeUnit(u, Symbol));
  }

  /**
   * A part is the decimal value, sign included, immediately followed by the
   * abbreviation; it holds no space, and it starts with '-' exactly when the
   * value is negative.
   */
  lemma PartShape(u: Unit, v: int)
    ensures Part(u, v)[..|IntToString(v)|] == IntToString(v)
    ensures Part(u, v)[|IntToString(v)|..] == Text(TimeUnit(u, Symbol))
    ensures ' ' !in Part(u, v)
    ensures Part(u, v)[0] == '-' <==> v < 0
  {
    IntToStringHasNoSpace(v);
    AbbreviationLetters(u);
  }

  /** A value character: a decimal digit or the minus sign. */
  predicate NumberChar(c: char) {
    IsDigit(c) || c == '-'
  }

  /** Where a run of value characters meets a text that starts with something else, the split point is fixed. */
  lemma SplitPoint(d1: string, a1: string, d2: string, a2: string)
    requires d1 + a1 == d2 + a2
    requires forall i :: 0 <= i < |d1| ==> NumberChar(d1[i])
    requires forall i :: 0 <= i < |d2| ==> NumberChar(d2[i])
    requires |a1| >= 1 && |a2| >= 1 && !NumberChar(a1[0]) && !NumberChar(a2[0])
    ensures d1 == d2 && a1 == a2
  {
    assert d1 == (d1 + a1)[..|d1|];
    assert d2 == (d2 + a2)[..|d2|];
    assert a1 == (d1 + a1)[|d1|..];
    assert a2 == (d2 + a2)[|d2|..];
  }

  /** A part determines its unit and its value: the text can be read back. */
  lemma PartInjective(u1: Unit, v1: int, u2: Unit, v2: int)
    requires Part(u1, v1) == Part(u2, v2)
    ensures u1 == u2 && v1 == v2
  {
    var d1, d2 := IntToString(v1), IntToString(v2);
    var a1, a2 := Text(TimeUnit(u1, Symbol)), Text(TimeUnit(u2, Symbol));
    IntToStringChars(v1);
    IntToStringChars(v2);
    AbbreviationLetters(u1);
    AbbreviationLetters(u2);
    assert a1[0] in a1 && a2[0] in a2;
    SplitPoint(d1, a1, d2, a2);
    IntToStringInjective(v1, v2);
  }

  /** The joined text splits back on ' ' into exactly the parts; it is empty exactly when no field is shown. */
  lemma RenderSplits(tf: TimeFrame, kept: set<Unit>)
    ensures Render(tf, kept) == "" <==> forall u :: !(u in kept && Get(tf, u) != 0)
    ensures Render(tf, kept) != "" ==> Split(Render(tf, kept), ' ') == Parts(tf, kept, KeyOrder)
  {
    var ps := Parts(tf, kept, KeyOrder);
    PartsOfShown(tf, kept, KeyOrder);
    ShownInKeyOrder(tf, kept);
    forall j | 0 <= j < |ps| ensures ' ' !in ps[j] && |ps[j]| >= 1 {
      var u := Shown(tf, kept, KeyOrder)[j];
      PartShape(u, Get(tf, u));
    }
    if |ps| >= 1 {
      JoinNonEmpty(ps, " ");
      SplitJoin(ps, ' ');
    }
  }

  /** Joining a non-empty list whose first part is non-empty gives a non-empty text. */
  lemma JoinNonEmpty(ps: seq<string>, sep: string)
    requires |ps| >= 1 && |ps[0]| >= 1
    ensures |Join(ps, sep)| >= 1
  {
  }

  lemma EveryUnit(u: Unit)
    ensures u in AllUnits
  {
    match u
    case Year => case Month => case Week => case Day =>
    case Hour => case Minute => case Second => case Millisecond =>
  }

  /** With every key accepted, equal texts come from equal part lists. */
  lemma SameTextSameParts(tf1: TimeFrame, tf2: TimeFrame)
    requires Render(tf1, AllUnits) == Render(tf2, AllUnits)
    ensures Parts(tf1, AllUnits, KeyOrder) == Parts(tf2, AllUnits, KeyOrder)
  {
    RenderSplits(tf1, AllUnits);
    RenderSplits(tf2, AllUnits);
    if Render(tf1, AllUnits) == "" {
      PartsOfShown(tf1, AllUnits, KeyOrder);
      PartsOfShown(tf2, AllUnits, KeyOrder);
      if |Shown(tf1, AllUnits, KeyOrder)| > 0 {
        EveryUnit(Shown(tf1, AllUnits, KeyOrder)[0]);
      }
      if |Shown(tf2, AllUnits, KeyOrder)| > 0 {
        EveryUnit(Shown(tf2, AllUnits, KeyOrder)[0]);
      }
    }
  }

  /** Equal part lists come from the same shown units with the same values. */
  lemma SamePartsSameShown(tf1: TimeFrame, tf2: TimeFrame, keys: seq<Unit>)
    requires Parts(tf1, AllUnits, keys) == Parts(tf2, AllUnits, keys)
    ensures Shown(tf1, AllUnits, keys) == Shown(tf2, AllUnits, keys)
    ensures forall j :: 0 <= j < |Shown(tf1, AllUnits, keys)| ==>
      Get(tf1, Shown(tf1, AllUnits, keys)[j]) == Get(tf2, Shown(tf1, AllUnits, keys)[j])
  {
    var us1, us2 := Shown(tf1, AllUnits, keys), Shown(tf2, AllUnits, keys);
    PartsOfShown(tf1, AllUnits, keys);
    PartsOfShown(tf2, AllUnits, keys);
    forall j | 0 <= j < |us1| ensures us1[j] == us2[j] && Get(tf1, us1[j]) == Get(tf2, us2[j]) {
      PartInjective(us1[j], Get(tf1, us1[j]), us2[j], Get(tf2, us2[j]));
    }
  }

  /** With every key accepted, the part list determines the record. */
  lemma SamePartsSameFrame(tf1: TimeFrame, tf2: TimeFrame)
    requires Parts(tf1, AllUnits, KeyOrder) == Parts(tf2, AllUnits, KeyOrder)
    ensures tf1 == tf2
  {
    var us1 := Shown(tf1, AllUnits, KeyOrder);
    SamePartsSameShown(tf1, tf2, KeyOrder);
    ShownInKeyOrder(tf1, AllUnits);
    ShownInKeyOrder(tf2, AllUnits);
    forall u ensures Get(tf1, u) == Get(tf2, u) {
      EveryUnit(u);
      if Get(tf1, u) != 0 {
        var j :| 0 <= j < |us1| && us1[j] == u;
      }
    }
    FrameExtensionality(tf1, tf2);
  }

  /** With every key accepted, distinct records render differently: the text is a faithful encoding. */
  lemma RenderInjective(tf1: TimeFrame, tf2: TimeFrame)
    requires Render(tf1, AllUnits) == Render(tf2, AllUnits)
    ensures tf1 == tf2
  {
    SameTextSameParts(tf1, tf2);
    SamePartsSameFrame(tf1, tf2);
  }

  /** The record with the fields of units outside kept set to 0. */
  function Hide(tf: TimeFrame, kept: set<Unit>): TimeFrame {
    TimeFrame(
      if Year in kept then tf.years else 0, if Month in kept then tf.months else 0,
      if Week in kept then tf.weeks else 0, if Day in kept then tf.days else 0,
      if Hour in kept then tf.hours else 0, if Minute in kept then tf.minutes else 0,
      if Second in kept then tf.seconds else 0, if Millisecond in kept then tf.milliseconds else 0)
  }

  /** Each field of the hidden record: its own value when kept, 0 otherwise. */
  lemma HideGet(tf: TimeFrame, kept: set<Unit>, u: Unit)
    ensures Get(Hide(tf, kept), u) == if u in kept then Get(tf, u) else 0
  {
  }

  /** Skipping the keys outside kept is the same as rendering every key of the record with those fields zeroed. */
  lemma {:induction false} SkippedKeysAreZeroed(tf: TimeFrame, kept: set<Unit>, keys: seq<Unit>)
    ensures Parts(tf, kept, keys) == Parts(Hide(tf, kept), AllUnits, keys)
    decreases |keys|
  {
    if keys != [] {
      var last := keys[|keys| - 1];
      EveryUnit(last);
      HideGet(tf, kept, last);
      SkippedKeysAreZeroed(tf, kept, keys[..|keys| - 1]);
    }
  }

  /** Months render as "M" and minutes as "m": two months and thirty minutes is "2M 30m". */
  lemma MonthsAndMinutes()
    ensures Render(TimeFrame(0, 2, 0, 0, 0, 30, 0, 0), AllUnits) == "2M 30m"
  {
    MonthsAndMinutesParts();
  }

  /** The parts of two months and thirty minutes, in key order. */
  lemma MonthsAndMinutesParts()
    ensures Parts(TimeFrame(0, 2, 0, 0, 0, 30, 0, 0), AllUnits, KeyOrder) == ["2M", "30m"]
  {
    var tf := TimeFrame(0, 2, 0, 0, 0, 30, 0, 0);
    assert NatToString(30) == NatToString(3) + [DigitChar(0)];
    assert Part(Month, 2) == "2M";
    assert Part(Minute, 30) == "30m";
    EveryUnit(Month);
    EveryUnit(Minute);
    PartsStep(tf, AllUnits, KeyOrder, 1);
    PartsStep(tf, AllUnits, KeyOrder, 2);
    PartsStep(tf, AllUnits, KeyOrder, 3);
    PartsStep(tf, AllUnits, KeyOrder, 4);
    PartsStep(tf, AllUnits, KeyOrder, 5);
    PartsStep(tf, AllUnits, KeyOrder, 6);
    PartsStep(tf, AllUnits, KeyOrder, 7);
    PartsStep(tf, AllUnits, KeyOrder, 8);
    assert KeyOrder[..8] == KeyOrder;
  }
}

=== FILE: hour_converter.dfy ===
/** The hour converter: a fixed 60 * 60 * 1000 milliseconds per hour. */
module HourConverter {
  import opened Wrappers
  import opened DateUnitConverter
  import opened UnitsOfTime

  const Default: TimeUnit := TimeUnit(Hour, SingularName)  // "hour"
  const Plural: TimeUnit := TimeUnit(Hour, PluralName)  // "hours"
  const Abbreviation: TimeUnit := TimeUnit(Hour, Symbol)  // "h"
  const MillisecondsPerUnit: int := 60 * 60 * 1000
  /** The aliases as the converter declares them: "hour" and "hours" are missing. */
  const AliasesAsWritten: seq<TimeUnit> := [TimeUnit(Hour, ShortPlural), TimeUnit(Hour, ShortName), TimeUnit(Hour, Symbol)]  // "hrs", "hr", "h"

  /** The five spellings of the hour unit, as every other table lists them. */
  const Aliases: seq<TimeUnit> := [TimeUnit(Hour, PluralName), TimeUnit(Hour, SingularName), TimeUnit(Hour, ShortPlural), TimeUnit(Hour, ShortName), TimeUnit(Hour, Symbol)]  // "hours", "hour", "hrs", "hr", "h"

  /** Whole hours from s to e, rounded down. */
  function Between(s: DateArg, e: DateArg): (r: Result<int>)
    ensures r.Failure? <==> s.NonDate? || e.NonDate? || s.time > e.time
    ensures s.NonDate? || e.NonDate? ==> r == Failure("Invalid date input.")
    ensures s.DateAt? && e.DateAt? && s.time > e.time ==> r == Failure(RangeError)
    ensures r.Success? ==> r.value * MillisecondsPerUnit <= e.time - s.time < (r.value + 1) * MillisecondsPerUnit
  {
    FixedBetween(MillisecondsPerUnit, "Invalid date input.", s, e)
  }

  /** The instant n hours after d. */
  function Add(n: int, d: DateArg): (r: Result<int>)
    ensures r.Failure? <==> d.NonDate? || n < 0
    ensures d.NonDate? ==> r == Failure("Invalid date input.")
    ensures d.DateAt? && n < 0 ==> r == Failure("Invalid hour input.")
    ensures r.Success? ==> r.value == d.time + n * MillisecondsPerUnit
  {
    FixedAdd(MillisecondsPerUnit, "Invalid hour input.", n, d)
  }

  lemma BetweenAfterAdd(n: int, t: int)
    requires n >= 0
    ensures Add(n, DateAt(t)).Success?
    ensures Between(DateAt(t), DateAt(Add(n, DateAt(t)).value)) == Success(n)
  {
    FixedBetweenAfterAdd(MillisecondsPerUnit, "Invalid date input.", "Invalid hour input.", n, t);
  }
}

=== FILE: millisecond_converter.dfy ===
/** The millisecond converter: a fixed 1 milliseconds per millisecond. */
module MillisecondConverter {
  import opened Wrappers
  import opened DateUnitConverter
  import opened UnitsOfTime

  const Default: TimeUnit := TimeUnit(Millisecond, SingularName)  // "millisecond"
  const Plural: TimeUnit := TimeUnit(Millisecond, PluralName)  // "milliseconds"
  const Abbreviation: TimeUnit := TimeUnit(Millisecond, Symbol)  // "ms"
  const MillisecondsPerUnit: int := 1
  const Aliases: seq<TimeUnit> := [TimeUnit(Millisecond, PluralName), TimeUnit(Millisecond, SingularName), TimeUnit(Millisecond, ShortName), TimeUnit(Millisecond, ShortPlural), TimeUnit(Millisecond, Symbol)]  // "milliseconds", "millisecond", "msec", "mss", "ms"

  /** Whole milliseconds from s to e, rounded down. */
  function Between(s: DateArg, e: DateArg): (r: Result<int>)
    ensures r.Failure? <==> s.NonDate? || e.NonDate? || s.time > e.time
    ensures s.NonDate? || e.NonDate? ==> r == Failure("Invalid date input.")
    ensures s.DateAt? && e.DateAt? && s.time > e.time ==> r == Failure(RangeError)
    ensures r.Success? ==> r.value == e.time - s.time
  {
    FixedBetween(MillisecondsPerUnit, "Invalid date input.", s, e)
  }

  /** The instant n milliseconds after d. */
  function Add(n: int, d: DateArg): (r: Result<int>)
    ensures r.Failure? <==> d.NonDate? || n < 0
    ensures d.NonDate? ==> r == Failure("Invalid date input.")
    ensures d.DateAt? && n < 0 ==> r == Failure("Invalid millisecond input.")
    ensures r.Success? ==> r.value == d.time + n * MillisecondsPerUnit
  {
    FixedAdd(MillisecondsPerUnit, "Invalid millisecond input.", n, d)
  }

  lemma BetweenAfterAdd(n: int, t: int)
    requires n >= 0
    ensures Add(n, DateAt(t)).Success?
    ensures Between(DateAt(t), DateAt(Add(n, DateAt(t)).value)) == Success(n)
  {
    FixedBetweenAfterAdd(MillisecondsPerUnit, "Invalid date input.", "Invalid millisecond input.", n, t);
  }
}

=== FILE: minute_converter.dfy ===
/** The minute converter: a fixed 60 * 1000 milliseconds per minute. */
module MinuteConverter {
  import opened Wrappers
  import opened DateUnitConverter
  import opened UnitsOfTime

  const Default: TimeUnit := TimeUnit(Minute, SingularName)  // "minute"
  const Plural: TimeUnit := TimeUnit(Minute, PluralName)  // "minutes"
  const Abbreviation: TimeUnit := TimeUnit(Minute, Symbol)  // "m"
  const MillisecondsPerUnit: int := 60 * 1000
  const Aliases: seq<TimeUnit> := [TimeUnit(Minute, PluralName), TimeUnit(Minute, SingularName), TimeUnit(Minute, ShortPlural), TimeUnit(Minute, ShortName), TimeUnit(Minute, Symbol)]  // "minutes", "minute", "mins", "min", "m"

  /** Whole minutes from s to e, rounded down. */
  function Between(s: DateArg, e: DateArg): (r: Result<int>)
    ensures r.Failure? <==> s.NonDate? || e.NonDate? || s.time > e.time
    ensures s.NonDate? || e.NonDate? ==> r == Failure("Invalid date input.")
    ensures s.DateAt? && e.DateAt? && s.time > e.time ==> r == Failure(RangeError)
    ensures r.Success? ==> r.value * MillisecondsPerUnit <= e.time - s.time < (r.value + 1) * MillisecondsPerUnit
  {
    FixedBetween(MillisecondsPerUnit, "Invalid date input.", s, e)
  }

  /** The instant n minutes after d. */
  function Add(n: int, d: DateArg): (r: Result<int>)
    ensures r.Failure? <==> d.NonDate? || n < 0
    ensures d.NonDate? ==> r == Failure("Invalid date input.")
    ensures d.DateAt? && n < 0 ==> r == Failure("Invalid minute input.")
    ensures r.Success? ==> r.value == d.time + n * MillisecondsPerUnit
  {
    FixedAdd(MillisecondsPerUnit, "Invalid minute input.", n, d)
  }

  lemma BetweenAfterAdd(n: int, t: int)
    requires n >= 0
    ensures Add(n, DateAt(t)).Success?
    ensures Between(DateAt(t), DateAt(Add(n, DateAt(t)).value)) == Success(n)
  {
    FixedBetweenAfterAdd(MillisecondsPerUnit, "Invalid date input.", "Invalid minute input.", n, t);
  }
}

=== FILE: month_converter.dfy ===
/**
 * The month converter. `between` compares calendar years, months and dates;
 * `add` moves the calendar month with `setUTCMonth`, keeping the UTC time of day.
 * It has no fixed length, so its milliseconds-per-unit is the sentinel -1.
 */
module MonthConverter {
  import opened Wrappers
  import opened DateUnitConverter
  import opened UnitsOfTime
  import opened Calendar

  const Default: TimeUnit := TimeUnit(Month, SingularName)  // "month"
  const Plural: TimeUnit := TimeUnit(Month, PluralName)  // "months"
  const Abbreviation: TimeUnit := TimeUnit(Month, Symbol)  // "M"
  const MillisecondsPerUnit: int := -1
  const Aliases: seq<TimeUnit> := [TimeUnit(Month, PluralName), TimeUnit(Month, SingularName), TimeUnit(Month, ShortPlural), TimeUnit(Month, ShortName), TimeUnit(Month, Symbol)]  // "months", "month", "mos", "mo", "M"

  /** Whole calendar months from s to e: a month is complete once the end date reaches the start date. */
  function MonthsBetween(s: int, e: int): int {
    var startYear, startMonth, startDay := YearFromTime(s), MonthFromTime(s), DateFromTime(s);
    var endYear, endMonth, endDay := YearFromTime(e), MonthFromTime(e), DateFromTime(e);
    var months := (endYear - startYear) * 12 + (endMonth - startMonth);
    if endDay < startDay then months - 1 else months
  }

  /** `between`: the argument checks, then the whole-month count. */
  function Between(s: DateArg, e: DateArg): (r: Result<int>)
    ensures r.Failure? <==> s.NonDate? || e.NonDate? || s.time > e.time
    ensures s.NonDate? || e.NonDate? ==> r == Failure("Invalid date inputs.")
    ensures s.DateAt? && e.DateAt? && s.time > e.time ==> r == Failure(RangeError)
    ensures r.Success? ==> r.value == MonthsBetween(s.time, e.time)
  {
    if s.NonDate? || e.NonDate? then Failure("Invalid date inputs.")
    else if s.time > e.time then Failure(RangeError)
    else Success(MonthsBetween(s.time, e.time))
  }

  /** The count is the difference of the running month numbers, less one for an unfinished month. */
  lemma MonthsBetweenIndex(s: int, e: int)
    ensures MonthsBetween(s, e) == MonthIndex(e) - MonthIndex(s) - (if DateFromTime(e) < DateFromTime(s) then 1 else 0)
  {
  }

  /** The count is never negative. */
  lemma MonthsBetweenNonNegative(s: int, e: int)
    requires s <= e
    ensures MonthsBetween(s, e) >= 0
  {
    MonthIndexMonotone(s, e);
  }

  /** The instant n calendar months after t: t's date in the month n on, at t's time of day. */
  function MonthsLater(t: int, n: int): int {
    MakeDate(MakeDay(YearFromTime(t), MonthFromTime(t) + n, DateFromTime(t)), TimeWithinDay(t))
  }

  /** What `add` returns. */
  function Added(n: int, d: DateArg): (r: Result<int>)
    ensures r.Failure? <==> d.NonDate? || n < 0
    ensures d.NonDate? ==> r == Failure("Invalid date input.")
    ensures d.DateAt? && n < 0 ==> r == Failure("Invalid month input.")
    ensures r.Success? ==> r.value == MonthsLater(d.time, n)
  {
    if d.NonDate? then Failure("Invalid date input.")
    else if n < 0 then Failure("Invalid month input.")
    else Success(MonthsLater(d.time, n))
  }

  /** `add`: clear the UTC time of a copy, move its month with `setUTCMonth`, then restore the UTC time. */
  method Add(n: int, d: DateArg) returns (r: Result<int>)
    ensures r == Added(n, d)
  {
    if d.NonDate? {
      return Failure("Invalid date input.");
    }
    if n < 0 {
      return Failure("Invalid month input.");
    }
    var start := d.time;
    var hours, minutes, seconds, milliseconds := HourFromTime(start), MinFromTime(start), SecFromTime(start), MsFromTime(start);
    var newDate := SetUTCTime(start, 0, 0, 0, 0);
    MidnightFields(start, newDate);
    ghost var midnight := newDate;
    newDate := SetUTCMonth(newDate, MonthFromTime(newDate) + n);
    MovedDay(midnight, n, newDate);
    ghost var moved := newDate;
    newDate := SetUTCTime(newDate, hours, minutes, seconds, milliseconds);
    RestoredTime(start, moved, newDate);
    MovedDayOfStart(start, n, midnight, moved);
    AddSteps(start, n, Calendar.Day(moved), newDate);
    return Success(newDate);
  }

  /** Clearing the time of day keeps the calendar date. */
  lemma MidnightFields(t: int, midnight: int)
    requires midnight == SetUTCTime(t, 0, 0, 0, 0)
    ensures TimeWithinDay(midnight) == 0
    ensures YearFromTime(midnight) == YearFromTime(t)
    ensures MonthFromTime(midnight) == MonthFromTime(t)
    ensures DateFromTime(midnight) == DateFromTime(t)
  {
    MakeDateParts(Calendar.Day(t), 0);
  }

  /** Moving the month of a midnight lands on the midnight of MakeDay's day. */
  lemma MovedDay(midnight: int, n: int, moved: int)
    requires TimeWithinDay(midnight) == 0
    requires moved == SetUTCMonth(midnight, MonthFromTime(midnight) + n)
    ensures Calendar.Day(moved) == MakeDay(YearFromTime(midnight), MonthFromTime(midnight) + n, DateFromTime(midnight))
  {
    var day := MakeDay(YearFromTime(midnight), MonthFromTime(midnight) + n, DateFromTime(midnight));
    MakeDateParts(day, 0);
  }

  /** Setting back t's UTC hours, minutes, seconds and milliseconds gives t's time of day on the moved day. */
  lemma RestoredTime(t: int, moved: int, r: int)
    requires r == SetUTCTime(moved, HourFromTime(t), MinFromTime(t), SecFromTime(t), MsFromTime(t))
    ensures r == MakeDate(Calendar.Day(moved), TimeWithinDay(t))
  {
    TimeDecomposition(t);
  }

  /** The moved day is MakeDay's day for t's own fields, which match the midnight's. */
  lemma MovedDayOfStart(t: int, n: int, midnight: int, moved: int)
    requires YearFromTime(midnight) == YearFromTime(t)
    requires MonthFromTime(midnight) == MonthFromTime(t)
    requires DateFromTime(midnight) == DateFromTime(t)
    requires Calendar.Day(moved) == MakeDay(YearFromTime(midnight), MonthFromTime(midnight) + n, DateFromTime(midnight))
    ensures Calendar.Day(moved) == MakeDay(YearFromTime(t), MonthFromTime(t) + n, DateFromTime(t))
  {
    var month := MonthFromTime(t) + n;
    assert MonthFromTime(midnight) + n == month;
  }

  /** The moved day at t's time of day is MonthsLater. */
  lemma AddSteps(t: int, n: int, day: int, r: int)
    requires day == MakeDay(YearFromTime(t), MonthFromTime(t) + n, DateFromTime(t))
    requires r == MakeDate(day, TimeWithinDay(t))
    ensures r == MonthsLater(t, n)
  {
  }

  /** The year and month n months after those of t, normalised to a month 0..11. */
  function TargetYear(t: int, n: int): int {
    YearFromTime(t) + (MonthFromTime(t) + n) / 12
  }

  function TargetMonth(t: int, n: int): (m: int)
    ensures 0 <= m < 12
  {
    (MonthFromTime(t) + n) % 12
  }

  /** MonthsLater is t's date in the normalised target month, n months on in the running month count. */
  lemma MonthsLaterTarget(t: int, n: int)
    ensures MonthsLater(t, n) == MakeDate(MakeDay(TargetYear(t, n), TargetMonth(t, n), DateFromTime(t)), TimeWithinDay(t))
    ensures TargetYear(t, n) * 12 + TargetMonth(t, n) == MonthIndex(t) + n
  {
    MakeDayInRange(TargetYear(t, n), TargetMonth(t, n), DateFromTime(t));
  }

  /** When the target month has t's date, the result reads back as that date, at t's time of day. */
  lemma MonthsLaterFields(t: int, n: int)
    requires DateFromTime(t) <= DaysInMonth(TargetYear(t, n), TargetMonth(t, n))
    ensures YearFromTime(MonthsLater(t, n)) == TargetYear(t, n)
    ensures MonthFromTime(MonthsLater(t, n)) == TargetMonth(t, n)
    ensures DateFromTime(MonthsLater(t, n)) == DateFromTime(t)
    ensures TimeWithinDay(MonthsLater(t, n)) == TimeWithinDay(t)
    ensures MonthIndex(MonthsLater(t, n)) == MonthIndex(t) + n
  {
    MonthsLaterTarget(t, n);
    DateFromDayBounds(Calendar.Day(t));
    FieldsOfUTC(TargetYear(t, n), TargetMonth(t, n), DateFromTime(t), TimeWithinDay(t));
  }

  /**
   * No clamping: when the target month is too short, the surplus days spill
   * into the following month (31 January plus one month is 3 March, or 2 March
   * in a leap year).
   */
  lemma MonthsLaterSpills(t: int, n: int)
    requires DateFromTime(t) > DaysInMonth(TargetYear(t, n), TargetMonth(t, n))
    ensures MonthIndex(MonthsLater(t, n)) == MonthIndex(t) + n + 1
    ensures DateFromTime(MonthsLater(t, n)) == DateFromTime(t) - DaysInMonth(TargetYear(t, n), TargetMonth(t, n))
    ensures TimeWithinDay(MonthsLater(t, n)) == TimeWithinDay(t)
  {
    var ty, tm, date, time := TargetYear(t, n), TargetMonth(t, n), DateFromTime(t), TimeWithinDay(t);
    MonthsLaterTarget(t, n);
    DateFromDayBounds(Calendar.Day(t));
    assert tm < 11;
    FieldsAfterSpill(ty, tm, date, time);
  }

  lemma MonthsLaterZero(t: int)
    ensures MonthsLater(t, 0) == t
  {
    TimeDecomposition(t);
    MakeDayOfFields(Calendar.Day(t));
  }

  /** add never moves backwards. */
  lemma MonthsLaterNotEarlier(t: int, n: int)
    requires n >= 0
    ensures MonthsLater(t, n) >= t
  {
    var r := MonthsLater(t, n);
    if n == 0 {
      MonthsLaterZero(t);
    } else if r < t {
      if DateFromTime(t) <= DaysInMonth(TargetYear(t, n), TargetMonth(t, n)) {
        MonthsLaterFields(t, n);
      } else {
        MonthsLaterSpills(t, n);
      }
      MonthIndexMonotone(r, t);
    }
  }

  /** Counting back over n added months gives n whenever the target month has the start's date. */
  lemma BetweenAfterAdd(n: int, t: int)
    requires n >= 0
    requires DateFromTime(t) <= DaysInMonth(TargetYear(t, n), TargetMonth(t, n))
    ensures MonthsBetween(t, MonthsLater(t, n)) == n
  {
    MonthsLaterFields(t, n);
  }
}

=== FILE: patterns.dfy ===
/**
 * The two global regular expressions the parsers drive with `exec`:
 * `(\d{0,10})([^\s\d]+)` of the current parser and `(\d+)\s*([a-zA-Z]+)` of the
 * older Timespan. A match tried at one position is computed from character runs;
 * `Find` is the leftmost search `exec` makes from `lastIndex`, and `Tokens` the
 * matches a loop of `exec` calls collects.
 */
module Patterns {
  import opened Wrappers
  import opened Strings
  import Constants

  datatype Pattern =
    | InputPattern   // (\d{0,10})([^\s\d]+)
    | LegacyPattern  // (\d+)\s*([a-zA-Z]+)

  /** The character classes the two patterns are made of. */
  datatype CharClass = Digit | UnitChar | Space | Letter

  predicate InClass(c: char, k: CharClass) {
    match k
    case Digit => IsDigit(c)
    case UnitChar => !IsDigit(c) && !Constants.IsWhitespace(c)
    case Space => Constants.IsWhitespace(c)
    case Letter => Constants.IsAsciiLetter(c)
  }

  /** The longest run of class-k characters starting at i: what a greedy `+` or `*` takes. */
  function Run(s: string, i: nat, k: CharClass): (n: nat)
    requires i <= |s|
    ensures i + n <= |s|
    decreases |s| - i
  {
    if i == |s| || !InClass(s[i], k) then 0 else 1 + Run(s, i + 1, k)
  }

  /** The run is all of class k, and the character after it, if any, is not. */
  lemma {:induction false} RunSpan(s: string, i: nat, k: CharClass)
    requires i <= |s|
    ensures Span(s, i, i + Run(s, i, k), k)
    ensures i + Run(s, i, k) == |s| || !InClass(s[i + Run(s, i, k)], k)
    decreases |s| - i
  {
    if i < |s| && InClass(s[i], k) {
      RunSpan(s, i + 1, k);
    }
  }

  /**
   * One match, by position: group 1 (the amount) is s[start..amountEnd] and
   * group 2 (the unit) is s[unitStart..end].
   */
  datatype Token = Token(start: nat, amountEnd: nat, unitStart: nat, end: nat)

  predicate Within(s: string, t: Token) {
    t.start <= t.amountEnd <= t.unitStart < t.end <= |s|
  }

  function Amount(s: string, t: Token): string
    requires Within(s, t)
  {
    s[t.start..t.amountEnd]
  }

  function UnitText(s: string, t: Token): string
    requires Within(s, t)
  {
    s[t.unitStart..t.end]
  }

  /** Every character of s[lo..hi] is of class k. */
  predicate Span(s: string, lo: nat, hi: nat, k: CharClass)
    requires lo <= hi <= |s|
  {
    forall j :: lo <= j < hi ==> InClass(s[j], k)
  }

  /** A match of the current pattern: at most ten digits, then a non-empty run of unit characters. */
  predicate InputShape(s: string, t: Token) {
    Within(s, t) && t.amountEnd == t.unitStart && t.amountEnd - t.start <= 10
    && Span(s, t.start, t.amountEnd, Digit) && Span(s, t.unitStart, t.end, UnitChar)
  }

  /** A match of the older pattern: one or more digits, whitespace, then a non-empty run of ASCII letters. */
  predicate LegacyShape(s: string, t: Token) {
    Within(s, t) && t.start < t.amountEnd
    && Span(s, t.start, t.amountEnd, Digit) && Span(s, t.amountEnd, t.unitStart, Space) && Span(s, t.unitStart, t.end, Letter)
  }

  predicate WellFormed(p: Pattern, s: string, t: Token) {
    match p
    case InputPattern => InputShape(s, t)
    case LegacyPattern => LegacyShape(s, t)
  }

  /** The current pattern tried at i: greedy digits (at most ten, no backtracking can help), then the longest unit run. */
  function InputMatchAt(s: string, i: nat): (r: Option<Token>)
    requires i <= |s|
    ensures r.Some? ==> r.value.start == i && InputShape(s, r.value)
    ensures r.Some? ==> r.value.end == |s| || !InClass(s[r.value.end], UnitChar)
  {
    var k := Run(s, i, Digit);
    if k <= 10 && i + k < |s| && InClass(s[i + k], UnitChar) then
      RunSpan(s, i, Digit);
      RunSpan(s, i + k, UnitChar);
      Some(Token(i, i + k, i + k, i + k + Run(s, i + k, UnitChar)))
    else None
  }

  /** The older pattern tried at i: greedy digits, greedy whitespace, then the longest run of letters. */
  function LegacyMatchAt(s: string, i: nat): (r: Option<Token>)
    requires i <= |s|
    ensures r.Some? ==> r.value.start == i && LegacyShape(s, r.value)
    ensures r.Some? ==> r.value.end == |s| || !InClass(s[r.value.end], Letter)
  {
    var k := Run(s, i, Digit);
    var w := if i + k <= |s| then Run(s, i + k, Space) else 0;
    if k >= 1 && i + k + w < |s| && InClass(s[i + k + w], Letter) then
      RunSpan(s, i, Digit);
      RunSpan(s, i + k, Space);
      RunSpan(s, i + k + w, Letter);
      Some(Token(i, i + k, i + k + w, i + k + w + Run(s, i + k + w, Letter)))
    else None
  }

  /** The match the pattern makes when tried at position i, if any. */
  function MatchAt(p: Pattern, s: string, i: nat): (r: Option<Token>)
    requires i <= |s|
    ensures r.Some? ==> r.value.start == i < r.value.end <= |s| && WellFormed(p, s, r.value)
  {
    match p
    case InputPattern => InputMatchAt(s, i)
    case LegacyPattern => LegacyMatchAt(s, i)
  }

  /**
   * The current pattern matches at i whenever i starts at most ten digits
   * followed by a unit character: backtracking finds nothing MatchAt misses,
   * and the digits it takes are exactly those.
   */
  lemma {:induction false} InputMatchComplete(s: string, i: nat, digits: nat)
    requires i + digits < |s| && digits <= 10
    requires forall j :: i <= j < i + digits ==> IsDigit(s[j])
    requires InClass(s[i + digits], UnitChar)
    ensures MatchAt(InputPattern, s, i).Some?
    ensures MatchAt(InputPattern, s, i).value.amountEnd == i + digits
  {
    RunSpan(s, i, Digit);
  }

  /** No match starts anywhere in [lo, hi). */
  predicate NoMatchIn(p: Pattern, s: string, lo: nat, hi: nat)
    requires hi <= |s| + 1
    decreases hi - lo
  {
    lo >= hi || (MatchAt(p, s, lo).None? && NoMatchIn(p, s, lo + 1, hi))
  }

  lemma {:induction false} NoMatchAt(p: Pattern, s: string, lo: nat, hi: nat, j: nat)
    requires hi <= |s| + 1 && NoMatchIn(p, s, lo, hi) && lo <= j < hi
    ensures MatchAt(p, s, j).None?
    decreases hi - lo
  {
    if lo < j {
      NoMatchAt(p, s, lo + 1, hi, j);
    }
  }

  /** The leftmost match at or after `from`. */
  function Find(p: Pattern, s: string, from: nat): (r: Option<Token>)
    requires from <= |s|
    ensures r.Some? ==> from <= r.value.start <= |s| && MatchAt(p, s, r.value.start) == r
    ensures NoMatchIn(p, s, from, if r.Some? then r.value.start else |s| + 1)
    decreases |s| - from
  {
    if MatchAt(p, s, from).Some? then MatchAt(p, s, from)
    else if from == |s| then None
    else Find(p, s, from + 1)
  }

  /** The matches successive `exec` calls return from `from` on, until one returns null. */
  function Tokens(p: Pattern, s: string, from: nat): (ts: seq<Token>)
    requires from <= |s|
    ensures forall n :: 0 <= n < |ts| ==> from <= ts[n].start < ts[n].end <= |s|
    ensures forall n :: 0 < n < |ts| ==> ts[n - 1].end <= ts[n].start
    decreases |s| - from
  {
    match Find(p, s, from)
    case None => []
    case Some(t) => [t] + Tokens(p, s, t.end)
  }

  /** Where the search for the token at position k starts: from, or the end of the token before it. */
  function Resume(ts: seq<Token>, from: nat, k: nat): nat
    requires k <= |ts|
  {
    if k == 0 then from else ts[k - 1].end
  }

  /** Searching again from where the last collected token ended finds the next one, and nothing after the last. */
  lemma {:induction false} TokenAt(p: Pattern, s: string, from: nat, k: nat)
    requires from <= |s| && k <= |Tokens(p, s, from)|
    ensures Resume(Tokens(p, s, from), from, k) <= |s|
    ensures Find(p, s, Resume(Tokens(p, s, from), from, k)) == if k < |Tokens(p, s, from)| then Some(Tokens(p, s, from)[k]) else None
    decreases k
  {
    if k > 0 {
      var t := Find(p, s, from).value;
      var rest := Tokens(p, s, t.end);
      assert Tokens(p, s, from) == [t] + rest;
      TokenAt(p, s, t.end, k - 1);
      assert Resume(Tokens(p, s, from), from, k) == Resume(rest, t.end, k - 1);
    }
  }

  /** Each collected token is the match its start position gives, and nothing matches between two of them. */
  lemma {:induction false} TokenMatches(p: Pattern, s: string, from: nat, n: nat)
    requires from <= |s| && n < |Tokens(p, s, from)|
    ensures MatchAt(p, s, Tokens(p, s, from)[n].start) == Some(Tokens(p, s, from)[n])
    ensures WellFormed(p, s, Tokens(p, s, from)[n])
    ensures NoMatchIn(p, s, if n == 0 then from else Tokens(p, s, from)[n - 1].end, Tokens(p, s, from)[n].start)
    decreases |s| - from
  {
    var t := Find(p, s, from).value;
    if n > 0 {
      TokenMatches(p, s, t.end, n - 1);
    }
  }

  /** The matches never overlap and come left to right. */
  lemma {:induction false} TokensOrdered(p: Pattern, s: string, from: nat, m: nat, n: nat)
    requires from <= |s| && m < n < |Tokens(p, s, from)|
    ensures Tokens(p, s, from)[m].end <= Tokens(p, s, from)[n].start
    decreases n - m
  {
    if m + 1 < n {
      TokensOrdered(p, s, from, m + 1, n);
    }
  }

  /** Tokens whose amounts are digit strings, as every match of either pattern is. */
  predicate Readable(s: string, ts: seq<Token>) {
    forall n :: 0 <= n < |ts| ==> Within(s, ts[n]) && AllDigits(Amount(s, ts[n]))
  }

  /** Every collected token has its pattern's shape, so its amount is all digits. */
  lemma TokensWellFormed(p: Pattern, s: string, from: nat)
    requires from <= |s|
    ensures forall n :: 0 <= n < |Tokens(p, s, from)| ==> WellFormed(p, s, Tokens(p, s, from)[n])
    ensures Readable(s, Tokens(p, s, from))
  {
    forall n | 0 <= n < |Tokens(p, s, from)|
      ensures WellFormed(p, s, Tokens(p, s, from)[n]) && Within(s, Tokens(p, s, from)[n]) && AllDigits(Amount(s, Tokens(p, s, from)[n]))
    {
      TokenMatches(p, s, from, n);
      AmountDigits(p, s, Tokens(p, s, from)[n]);
    }
  }

  lemma AmountDigits(p: Pattern, s: string, t: Token)
    requires WellFormed(p, s, t)
    ensures AllDigits(Amount(s, t))
  {
    forall i | 0 <= i < |Amount(s, t)|
      ensures IsDigit(Amount(s, t)[i])
    {
      assert Amount(s, t)[i] == s[t.start + i];
      assert InClass(s[t.start + i], Digit);
    }
  }

  /** A global regular expression object: its pattern and the `lastIndex` that `exec` reads and updates. */
  class GlobalRegex {
    const pattern: Pattern
    var lastIndex: nat

    constructor(p: Pattern)
      ensures pattern == p && lastIndex == 0
    {
      pattern := p;
      lastIndex := 0;
    }

    /** `exec`: search from lastIndex; on a match move lastIndex past it, otherwise reset it to 0 and return null. */
    method Exec(s: string) returns (r: Option<Token>)
      modifies this
      ensures r == (if old(lastIndex) <= |s| then Find(pattern, s, old(lastIndex)) else None)
      ensures lastIndex == (if r.Some? then r.value.end else 0)
    {
      if lastIndex > |s| {
        r := None;
      } else {
        r := Find(pattern, s, lastIndex);
      }
      lastIndex := if r.Some? then r.value.end else 0;
    }
  }

  /** "1y2M": the unit stops at the next digit, so the two tokens run together. */
  lemma RunTogether()
    ensures Tokens(InputPattern, "1y2M", 0) == [Token(0, 1, 1, 2), Token(2, 3, 3, 4)]
  {
    var s := "1y2M";
    assert Run(s, 0, Digit) == 1 && Run(s, 1, UnitChar) == 1;
    assert Find(InputPattern, s, 0) == Some(Token(0, 1, 1, 2));
    assert Run(s, 2, Digit) == 1 && Run(s, 3, UnitChar) == 1;
    assert Find(InputPattern, s, 2) == Some(Token(2, 3, 3, 4));
    assert Find(InputPattern, s, 4) == None;
  }

  /** A unit without digits in front still matches, with an empty amount. */
  lemma BareUnit()
    ensures Tokens(InputPattern, "y", 0) == [Token(0, 0, 0, 1)]
    ensures Amount("y", Token(0, 0, 0, 1)) == ""
  {
    var s := "y";
    assert Run(s, 0, Digit) == 0 && Run(s, 0, UnitChar) == 1;
    assert Find(InputPattern, s, 0) == Some(Token(0, 0, 0, 1));
    assert Find(InputPattern, s, 1) == None;
  }

  /** The older pattern needs digits, allows spaces before the unit and takes ASCII letters only. */
  lemma LegacySpacing()
    ensures Tokens(LegacyPattern, "2 h", 0) == [Token(0, 1, 2, 3)]
  {
    var s := "2 h";
    assert Run(s, 0, Digit) == 1 && Run(s, 1, Space) == 1 && Run(s, 2, Letter) == 1;
    assert Find(LegacyPattern, s, 0) == Some(Token(0, 1, 2, 3));
    assert Run(s, 3, Digit) == 0;
    assert Find(LegacyPattern, s, 3) == None;
  }
}

=== FILE: second_converter.dfy ===
/** The second converter: a fixed 1000 milliseconds per second. */
module SecondConverter {
  import opened Wrappers
  import opened DateUnitConverter
  import opened UnitsOfTime

  const Default: TimeUnit := TimeUnit(Second, SingularName)  // "second"
  const Plural: TimeUnit := TimeUnit(Second, PluralName)  // "seconds"
  const Abbreviation: TimeUnit := TimeUnit(Second, Symbol)  // "s"
  const MillisecondsPerUnit: int := 1000
  const Aliases: seq<TimeUnit> := [TimeUnit(Second, PluralName), TimeUnit(Second, SingularName), TimeUnit(Second, ShortPlural), TimeUnit(Second, ShortName), TimeUnit(Second, Symbol)]  // "seconds", "second", "secs", "sec", "s"

  /** Whole seconds from s to e, rounded down. */
  function Between(s: DateArg, e: DateArg): (r: Result<int>)
    ensures r.Failure? <==> s.NonDate? || e.NonDate? || s.time > e.time
    ensures s.NonDate? || e.NonDate? ==> r == Failure("Invalid date inputs.")
    ensures s.DateAt? && e.DateAt? && s.time > e.time ==> r == Failure(RangeError)
    ensures r.Success? ==> r.value * MillisecondsPerUnit <= e.time - s.time < (r.value + 1) * MillisecondsPerUnit
  {
    FixedBetween(MillisecondsPerUnit, "Invalid date inputs.", s, e)
  }

  /** The instant n seconds after d. */
  function Add(n: int, d: DateArg): (r: Result<int>)
    ensures r.Failure? <==> d.NonDate? || n < 0
    ensures d.NonDate? ==> r == Failure("Invalid date input.")
    ensures d.DateAt? && n < 0 ==> r == Failure("Invalid second input.")
    ensures r.Success? ==> r.value == d.time + n * MillisecondsPerUnit
  {
    FixedAdd(MillisecondsPerUnit, "Invalid second input.", n, d)
  }

  lemma BetweenAfterAdd(n: int, t: int)
    requires n >= 0
    ensures Add(n, DateAt(t)).Success?
    ensures Between(DateAt(t), DateAt(Add(n, DateAt(t)).value)) == Success(n)
  {
    FixedBetweenAfterAdd(MillisecondsPerUnit, "Invalid date inputs.", "Invalid second input.", n, t);
  }
}

=== FILE: strings.dfy ===
/**
 * The few JavaScript string conversions the library relies on: `Number(s)` on a
 * run of decimal digits, the decimal form of an integer produced by template
 * literals, and `Array.prototype.join`.
 */
module Strings {

  predicate IsDigit(c: char) {
    '0' <= c <= '9'
  }

  predicate AllDigits(s: string) {
    forall i :: 0 <= i < |s| ==> IsDigit(s[i])
  }

  function DigitValue(c: char): nat
    requires IsDigit(c)
  {
    (c as int) - ('0' as int)
  }

  function DigitChar(d: nat): (c: char)
    requires d < 10
    ensures IsDigit(c) && DigitValue(c) == d
  {
    (('0' as int) + d) as char
  }

  /** `Number(s)` for a string of decimal digits; `Number("")` is 0. */
  function DigitsValue(s: string): (n: nat)
    requires AllDigits(s)
  {
    if |s| == 0 then 0 else DigitsValue(s[..|s| - 1]) * 10 + DigitValue(s[|s| - 1])
  }

  /** Decimal digits of n without leading zeros ("0" for zero). */
  function NatToString(n: nat): (s: string)
    ensures |s| >= 1 && AllDigits(s)
    ensures |s| > 1 ==> s[0] != '0'
  {
    if n < 10 then [DigitChar(n)] else NatToString(n / 10) + [DigitChar(n % 10)]
  }

  /** The text `${n}` produces for an integer n. */
  function IntToString(n: int): (s: string)
    ensures |s| >= 1
    ensures n < 0 <==> s[0] == '-'
  {
    if n < 0 then "-" + NatToString(-n) else NatToString(n)
  }

  lemma {:induction false} DigitsValueOfNatToString(n: nat)
    ensures DigitsValue(NatToString(n)) == n
  {
    if n >= 10 {
      var s := NatToString(n);
      assert s[..|s| - 1] == NatToString(n / 10);
      DigitsValueOfNatToString(n / 10);
    }
  }

  lemma NatToStringInjective(a: nat, b: nat)
    requires NatToString(a) == NatToString(b)
    ensures a == b
  {
    DigitsValueOfNatToString(a);
    DigitsValueOfNatToString(b);
  }

  /** Decimal forms of distinct integers differ. */
  lemma IntToStringInjective(a: int, b: int)
    requires IntToString(a) == IntToString(b)
    ensures a == b
  {
    var s := IntToString(a);
    if a < 0 {
      assert b < 0;
      assert NatToString(-a) == s[1..] == NatToString(-b);
      NatToStringInjective(-a, -b);
    } else {
      assert b >= 0;
      NatToStringInjective(a, b);
    }
  }

  lemma IntToStringHasNoSpace(n: int)
    ensures ' ' !in IntToString(n)
  {
    if n < 0 {
      assert IntToString(n) == "-" + NatToString(-n);
    }
  }

  /** `parts.join(sep)`. */
  function Join(parts: seq<string>, sep: string): (s: string)
    ensures |parts| == 0 ==> s == ""
    ensures |parts| == 1 ==> s == parts[0]
  {
    if |parts| == 0 then ""
    else if |parts| == 1 then parts[0]
    else parts[0] + sep + Join(parts[1..], sep)
  }

  /** Splitting on a separator character, the inverse of Join for parts without it. */
  function Split(s: string, sep: char): (parts: seq<string>)
    ensures |parts| >= 1
    decreases |s|
  {
    if sep !in s then [s]
    else
      var i := IndexOf(s, sep);
      [s[..i]] + Split(s[i + 1..], sep)
  }

  function IndexOf(s: string, c: char): (i: nat)
    requires c in s
    ensures i < |s| && s[i] == c && c !in s[..i]
  {
    if s[0] == c then 0 else
      assert c in s[1..] by { var k :| 0 <= k < |s| && s[k] == c; assert s[1..][k - 1] == c; }
      var j := IndexOf(s[1..], c);
      assert s[..j + 1] == [s[0]] + s[1..][..j];
      1 + j
  }

  lemma {:induction false} IndexOfFirst(a: string, b: string, c: char)
    requires c !in a && |b| >= 1 && b[0] == c
    ensures c in a + b && IndexOf(a + b, c) == |a|
  {
    assert (a + b)[|a|] == c;
    if |a| > 0 {
      assert (a + b)[1..] == a[1..] + b;
      IndexOfFirst(a[1..], b, c);
    }
  }

  /** Join with a one-character separator is undone by Split when no part holds that character. */
  lemma {:induction false} SplitJoin(parts: seq<string>, sep: char)
    requires |parts| >= 1
    requires forall i :: 0 <= i < |parts| ==> sep !in parts[i]
    ensures Split(Join(parts, [sep]), sep) == parts
  {
    if |parts| > 1 {
      var head, rest := parts[0], Join(parts[1..], [sep]);
      var s := head + [sep] + rest;
      assert Join(parts, [sep]) == s;
      assert head + ([sep] + rest) == s;
      IndexOfFirst(head, [sep] + rest, sep);
      assert s[..|head|] == head && s[|head| + 1..] == rest;
      assert Split(s, sep) == [head] + Split(rest, sep);
      assert forall i :: 0 <= i < |parts[1..]| ==> sep !in parts[1..][i] by {
        forall i | 0 <= i < |parts[1..]| ensures sep !in parts[1..][i] {
          assert parts[1..][i] == parts[i + 1];
        }
      }
      SplitJoin(parts[1..], sep);
      assert parts == [head] + parts[1..];
    }
  }
}

=== FILE: time_conversion.dfy ===
/**
 * The conversion records of the older duration engine: per unit its names,
 * three aliases and a fixed length in milliseconds, and a table from 38
 * spellings to the records.
 */
module TimeConversion {
  import opened Wrappers
  import opened DateUnitConverter
  import opened UnitsOfTime
  import Converters
  import TimeUnitEnum

  /** One unit's record. */
  datatype Conversion = Conversion(defaultName: TimeUnit, plural: TimeUnit, abbreviation: TimeUnit, aliases: seq<TimeUnit>, factor: int)

  const YearConversion := Conversion(TimeUnit(Year, SingularName), TimeUnit(Year, PluralName), TimeUnit(Year, Symbol),
    [TimeUnit(Year, ShortPlural), TimeUnit(Year, ShortName), TimeUnit(Year, Symbol)], 1000 * 60 * 60 * 24 * 365)
  /** 1000 * 60 * 60 * 24 * 30.437 evaluates, in double precision, to exactly 2629756800. */
  const MonthConversion := Conversion(TimeUnit(Month, SingularName), TimeUnit(Month, PluralName), TimeUnit(Month, Symbol),
    [TimeUnit(Month, ShortPlural), TimeUnit(Month, ShortName), TimeUnit(Month, Symbol)], 2629756800)
  const WeekConversion := Conversion(TimeUnit(Week, SingularName), TimeUnit(Week, PluralName), TimeUnit(Week, Symbol),
    [TimeUnit(Week, ShortPlural), TimeUnit(Week, ShortName), TimeUnit(Week, Symbol)], 1000 * 60 * 60 * 24 * 7)
  const DayConversion := Conversion(TimeUnit(Day, SingularName), TimeUnit(Day, PluralName), TimeUnit(Day, Symbol),
    [TimeUnit(Day, ShortPlural), TimeUnit(Day, ShortName), TimeUnit(Day, Symbol)], 1000 * 60 * 60 * 24)
  const HourConversion := Conversion(TimeUnit(Hour, SingularName), TimeUnit(Hour, PluralName), TimeUnit(Hour, Symbol),
    [TimeUnit(Hour, ShortPlural), TimeUnit(Hour, ShortName), TimeUnit(Hour, Symbol)], 1000 * 60 * 60)
  const MinuteConversion := Conversion(TimeUnit(Minute, SingularName), TimeUnit(Minute, PluralName), TimeUnit(Minute, Symbol),
    [TimeUnit(Minute, ShortPlural), TimeUnit(Minute, ShortName), TimeUnit(Minute, Symbol)], 1000 * 60)
  const SecondConversion := Conversion(TimeUnit(Second, SingularName), TimeUnit(Second, PluralName), TimeUnit(Second, Symbol),
    [TimeUnit(Second, ShortPlural), TimeUnit(Second, ShortName), TimeUnit(Second, Symbol)], 1000)
  const MillisecondConversion := Conversion(TimeUnit(Millisecond, SingularName), TimeUnit(Millisecond, PluralName), TimeUnit(Millisecond, Symbol),
    [TimeUnit(Millisecond, ShortName), TimeUnit(Millisecond, ShortPlural), TimeUnit(Millisecond, Symbol)], 1)

  function Record(u: Unit): Conversion {
    match u
    case Year => YearConversion
    case Month => MonthConversion
    case Week => WeekConversion
    case Day => DayConversion
    case Hour => HourConversion
    case Minute => MinuteConversion
    case Second => SecondConversion
    case Millisecond => MillisecondConversion
  }

  /** The record for a key of the conversion table, None for a spelling that is not a key. */
  function Table(tu: TimeUnit): Option<Conversion> {
    match tu
    case TimeUnit(Year, PluralName) => Some(YearConversion)  // years
    case TimeUnit(Year, SingularName) => Some(YearConversion)  // year
    case TimeUnit(Year, ShortPlural) => Some(YearConversion)  // yrs
    case TimeUnit(Year, ShortName) => Some(YearConversion)  // yr
    case TimeUnit(Year, Symbol) => Some(YearConversion)  // y
    case TimeUnit(Month, PluralName) => Some(MonthConversion)  // months
    case TimeUnit(Month, SingularName) => Some(MonthConversion)  // month
    case TimeUnit(Month, ShortPlural) => Some(MonthConversion)  // mos
    case TimeUnit(Month, ShortName) => Some(MonthConversion)  // mo
    case TimeUnit(Month, Symbol) => Some(MonthConversion)  // M
    case TimeUnit(Week, PluralName) => Some(WeekConversion)  // weeks
    case TimeUnit(Week, SingularName) => Some(WeekConversion)  // week
    case TimeUnit(Week, ShortPlural) => Some(WeekConversion)  // wks
    case TimeUnit(Week, ShortName) => Some(WeekConversion)  // wk
    case TimeUnit(Week, Symbol) => Some(WeekConversion)  // w
    case TimeUnit(Day, PluralName) => Some(DayConversion)  // days
    case TimeUnit(Day, SingularName) => Some(DayConversion)  // day
    case TimeUnit(Day, ShortPlural) => Some(DayConversion)  // dys
    case TimeUnit(Day, Symbol) => Some(DayConversion)  // d
    case TimeUnit(Hour, PluralName) => Some(HourConversion)  // hours
    case TimeUnit(Hour, SingularName) => Some(HourConversion)  // hour
    case TimeUnit(Hour, ShortPlural) => Some(HourConversion)  // hrs
    case TimeUnit(Hour, ShortName) => Some(HourConversion)  // hr
    case TimeUnit(Hour, Symbol) => Some(HourConversion)  // h
    case TimeUnit(Minute, PluralName) => Some(MinuteConversion)  // minutes
    case TimeUnit(Minute, SingularName) => Some(MinuteConversion)  // minute
    case TimeUnit(Minute, ShortPlural) => Some(MinuteConversion)  // mins
    case TimeUnit(Minute, ShortName) => Some(MinuteConversion)  // min
    case TimeUnit(Minute, Symbol) => Some(MinuteConversion)  // m
    case TimeUnit(Second, PluralName) => Some(SecondConversion)  // seconds
    case TimeUnit(Second, SingularName) => Some(SecondConversion)  // second
    case TimeUnit(Second, ShortPlural) => Some(SecondConversion)  // secs
    case TimeUnit(Second, ShortName) => Some(SecondConversion)  // sec
    case TimeUnit(Second, Symbol) => Some(SecondConversion)  // s
    case TimeUnit(Millisecond, PluralName) => Some(MillisecondConversion)  // milliseconds
    case TimeUnit(Millisecond, ShortName) => Some(MillisecondConversion)  // msec
    case TimeUnit(Millisecond, ShortPlural) => Some(MillisecondConversion)  // mss
    case TimeUnit(Millisecond, Symbol) => Some(MillisecondConversion)  // ms
    case _ => None
  }

  /** Every record names its own unit, in the forms the converters use; its aliases are spellings of that unit. */
  lemma RecordOfUnit(u: Unit)
    ensures Record(u).defaultName == Converters.Default(u)
    ensures Record(u).plural == Converters.Plural(u)
    ensures Record(u).abbreviation == Converters.Abbreviation(u)
    ensures |Record(u).aliases| == 3 && Record(u).aliases[2] == TimeUnit(u, Symbol)
    ensures forall i :: 0 <= i < 3 ==> Record(u).aliases[i].unit == u && Record(u).aliases[i].form != PluralName && Record(u).aliases[i].form != SingularName
    ensures u != Month ==> Record(u).factor == Converters.MillisecondsPerUnit(u)
  {
    Converters.MetadataOfUnit(u);
  }

  /** Every key maps to its unit's record, and the keys are those of the TimeUnit enum: no "dy", no "millisecond". */
  lemma TableOfUnit(tu: TimeUnit)
    ensures Table(tu).Some? <==> TimeUnitEnum.Member(tu).Some?
    ensures Table(tu).Some? ==> Table(tu).value == Record(tu.unit)
  {
    TimeUnitEnum.MemberIsPlural(tu);
  }

  /** The units from years down to milliseconds, the order of the old engine's breakdown. */
  const EntryOrder: seq<Unit> := [Year, Month, Week, Day, Hour, Minute, Second, Millisecond]

  /** The ordered (plural, factor) pairs the old engine walks. */
  function Entries(): (e: seq<(TimeUnit, int)>)
    ensures |e| == 8
  {
    [(YearConversion.plural, YearConversion.factor), (MonthConversion.plural, MonthConversion.factor),
     (WeekConversion.plural, WeekConversion.factor), (DayConversion.plural, DayConversion.factor),
     (HourConversion.plural, HourConversion.factor), (MinuteConversion.plural, MinuteConversion.factor),
     (SecondConversion.plural, SecondConversion.factor), (MillisecondConversion.plural, MillisecondConversion.factor)]
  }

  /** The factors are positive and strictly decrease from years to milliseconds, ending at 1. */
  lemma EntriesDecrease()
    ensures forall i :: 0 <= i < 8 ==> Entries()[i].1 > 0
    ensures forall i, j :: 0 <= i < j < 8 ==> Entries()[i].1 > Entries()[j].1
    ensures Entries()[7].1 == 1
    ensures forall i :: 0 <= i < 8 ==> Entries()[i].0 == TimeUnit(EntryOrder[i], PluralName)
  {
  }

  /**
   * What a property read on the exported `conversionTable` finds. The export is
   * a plain object literal: its own properties are the records under the 38
   * keys, and it inherits the methods of Object.prototype (section 20.1.3 of
   * ECMA-262, with the legacy accessor helpers of section B.2.2.2-5) and the
   * `__proto__` accessor of section B.2.2.1, whose getter yields the prototype
   * object itself.
   */
  datatype Property = OwnRecord(record: Conversion) | InheritedMethod | InheritedPrototype | Absent

  const InheritedMethods: set<string> := {"constructor", "hasOwnProperty", "isPrototypeOf", "propertyIsEnumerable",
    "toLocaleString", "toString", "valueOf", "__defineGetter__", "__defineSetter__", "__lookupGetter__", "__lookupSetter__"}

  /**
   * `conversionTable[name]`: an own record exactly under a key of the enum, else
   * an inherited method, else Object.prototype under "__proto__", else nothing.
   */
  function PropertyOf(name: string): (p: Property)
    ensures p.OwnRecord? <==> TimeUnitEnum.IsKey(name)
    ensures p.OwnRecord? ==> p.record == Record(Parse(name).value.unit)
    ensures p.InheritedMethod? ==> name in InheritedMethods
    ensures p.InheritedPrototype? <==> name == "__proto__"
  {
    match Parse(name)
    case Some(tu) => TableOfUnit(tu); if Table(tu).Some? then OwnRecord(Table(tu).value) else Absent
    case None =>
      if name in InheritedMethods then InheritedMethod
      else if name == "__proto__" then InheritedPrototype
      else Absent
  }

  /**
   * Calling `conversionTable.name(...)`: only a function can be called, so a
   * record, the prototype object or a missing property raises a TypeError.
   */
  function CallMethod(name: string): (r: Outcome)
    ensures r.Pass? <==> PropertyOf(name).InheritedMethod?
    ensures r.Fail? ==> r.error == "TypeError"
  {
    if PropertyOf(name).InheritedMethod? then Pass else Fail("TypeError")
  }

  /**
   * The two `Map` methods the older engine calls are not there: "get" and
   * "entries" are neither keys nor inherited, so both calls raise a TypeError,
   * while a key's property is a record, which cannot be called either.
   */
  lemma MapMethodsMissing()
    ensures PropertyOf("get") == Absent && PropertyOf("entries") == Absent
    ensures CallMethod("get") == Fail("TypeError") && CallMethod("entries") == Fail("TypeError")
    ensures CallMethod("years") == Fail("TypeError") && CallMethod("toString") == Pass
    ensures PropertyOf("__proto__") == InheritedPrototype && CallMethod("__proto__") == Fail("TypeError")
  {
  }
}

=== FILE: time_unit.dfy ===
/**
 * The TimeUnit string enum: 38 of the 40 spellings, each keyed to the plural
 * name of its unit. "dy" and "millisecond" are not keys of the enum.
 */
module TimeUnitEnum {
  import opened Wrappers
  import opened DateUnitConverter
  import opened UnitsOfTime

  /** The enum's value for a key, None for a spelling that is not a key. */
  function Member(tu: TimeUnit): Option<TimeUnit> {
    match tu
    case TimeUnit(Millisecond, Symbol) => Some(TimeUnit(Millisecond, PluralName))  // ms: milliseconds
    case TimeUnit(Millisecond, ShortPlural) => Some(TimeUnit(Millisecond, PluralName))  // mss: milliseconds
    case TimeUnit(Millisecond, ShortName) => Some(TimeUnit(Millisecond, PluralName))  // msec: milliseconds
    case TimeUnit(Millisecond, PluralName) => Some(TimeUnit(Millisecond, PluralName))  // milliseconds: milliseconds
    case TimeUnit(Second, Symbol) => Some(TimeUnit(Second, PluralName))  // s: seconds
    case TimeUnit(Second, ShortName) => Some(TimeUnit(Second, PluralName))  // sec: seconds
    case TimeUnit(Second, ShortPlural) => Some(TimeUnit(Second, PluralName))  // secs: seconds
    case TimeUnit(Second, SingularName) => Some(TimeUnit(Second, PluralName))  // second: seconds
    case TimeUnit(Second, PluralName) => Some(TimeUnit(Second, PluralName))  // seconds: seconds
    case TimeUnit(Minute, Symbol) => Some(TimeUnit(Minute, PluralName))  // m: minutes
    case TimeUnit(Minute, ShortName) => Some(TimeUnit(Minute, PluralName))  // min: minutes
    case TimeUnit(Minute, ShortPlural) => Some(TimeUnit(Minute, PluralName))  // mins: minutes
    case TimeUnit(Minute, SingularName) => Some(TimeUnit(Minute, PluralName))  // minute: minutes
    case TimeUnit(Minute, PluralName) => Some(TimeUnit(Minute, PluralName))  // minutes: minutes
    case TimeUnit(Hour, Symbol) => Some(TimeUnit(Hour, PluralName))  // h: hours
    case TimeUnit(Hour, ShortName) => Some(TimeUnit(Hour, PluralName))  // hr: hours
    case TimeUnit(Hour, ShortPlural) => Some(TimeUnit(Hour, PluralName))  // hrs: hours
    case TimeUnit(Hour, SingularName) => Some(TimeUnit(Hour, PluralName))  // hour: hours
    case TimeUnit(Hour, PluralName) => Some(TimeUnit(Hour, PluralName))  // hours: hours
    case TimeUnit(Day, Symbol) => Some(TimeUnit(Day, PluralName))  // d: days
    case TimeUnit(Day, ShortPlural) => Some(TimeUnit(Day, PluralName))  // dys: days
    case TimeUnit(Day, SingularName) => Some(TimeUnit(Day, PluralName))  // day: days
    case TimeUnit(Day, PluralName) => Some(TimeUnit(Day, PluralName))  // days: days
    case TimeUnit(Week, Symbol) => Some(TimeUnit(Week, PluralName))  // w: weeks
    case TimeUnit(Week, ShortName) => Some(TimeUnit(Week, PluralName))  // wk: weeks
    case TimeUnit(Week, ShortPlural) => Some(TimeUnit(Week, PluralName))  // wks: weeks
    case TimeUnit(Week, SingularName) => Some(TimeUnit(Week, PluralName))  // week: weeks
    case TimeUnit(Week, PluralName) => Some(TimeUnit(Week, PluralName))  // weeks: weeks
    case TimeUnit(Month, Symbol) => Some(TimeUnit(Month, PluralName))  // M: months
    case TimeUnit(Month, ShortName) => Some(TimeUnit(Month, PluralName))  // mo: months
    case TimeUnit(Month, ShortPlural) => Some(TimeUnit(Month, PluralName))  // mos: months
    case TimeUnit(Month, SingularName) => Some(TimeUnit(Month, PluralName))  // month: months
    case TimeUnit(Month, PluralName) => Some(TimeUnit(Month, PluralName))  // months: months
    case TimeUnit(Year, Symbol) => Some(TimeUnit(Year, PluralName))  // y: years
    case TimeUnit(Year, ShortName) => Some(TimeUnit(Year, PluralName))  // yr: years
    case TimeUnit(Year, ShortPlural) => Some(TimeUnit(Year, PluralName))  // yrs: years
    case TimeUnit(Year, SingularName) => Some(TimeUnit(Year, PluralName))  // year: years
    case TimeUnit(Year, PluralName) => Some(TimeUnit(Year, PluralName))  // years: years
    case _ => None
  }

  /** The key test the old Timespan makes on a string: an own property of the enum. */
  predicate IsKey(s: string) {
    Parse(s).Some? && Member(Parse(s).value).Some?
  }

  /** Every key maps to its unit's plural name; the keys are all spellings but "dy" and "millisecond". */
  lemma MemberIsPlural(tu: TimeUnit)
    ensures Member(tu).Some? <==> tu != TimeUnit(Day, ShortName) && tu != TimeUnit(Millisecond, SingularName)
    ensures Member(tu).Some? ==> Member(tu).value == TimeUnit(tu.unit, PluralName)
  {
  }

  /** Each plural name is a key mapping to itself; "M" is months and "m" is minutes. */
  lemma MemberExamples(u: Unit)
    ensures Member(TimeUnit(u, PluralName)) == Some(TimeUnit(u, PluralName))
    ensures Member(TimeUnit(Month, Symbol)) == Some(TimeUnit(Month, PluralName))
    ensures Member(TimeUnit(Minute, Symbol)) == Some(TimeUnit(Minute, PluralName))
    ensures !IsKey("dy") && !IsKey("millisecond") && IsKey("years")
  {
    MemberIsPlural(TimeUnit(u, PluralName));
    ParseOfText(TimeUnit(Day, ShortName));
    ParseOfText(TimeUnit(Millisecond, SingularName));
    ParseOfText(TimeUnit(Year, PluralName));
  }
}

=== FILE: timeframe.dfy ===
/**
 * The eight-field duration record and `createTimeframe`. Its keys are the plural
 * unit names, in the order years, months, weeks, days, hours, minutes, seconds,
 * milliseconds.
 */
module TimeFrames {
  import opened DateUnitConverter
  import opened Wrappers
  import opened UnitsOfTime

  datatype TimeFrame = TimeFrame(years: int, months: int, weeks: int, days: int, hours: int, minutes: int, seconds: int, milliseconds: int)

  /** The units of the record's keys, in key order. */
  const KeyOrder: seq<Unit> := [Year, Month, Week, Day, Hour, Minute, Second, Millisecond]

  /** The key of a field: the plural name of its unit. */
  function Key(u: Unit): TimeUnit {
    TimeUnit(u, PluralName)
  }

  /** `timeFrame[key]`. */
  function Get(tf: TimeFrame, u: Unit): int {
    match u
    case Year => tf.years
    case Month => tf.months
    case Week => tf.weeks
    case Day => tf.days
    case Hour => tf.hours
    case Minute => tf.minutes
    case Second => tf.seconds
    case Millisecond => tf.milliseconds
  }

  /** `timeFrame[key] = v`: that field changes and no other. */
  function Set(tf: TimeFrame, u: Unit, v: int): (r: TimeFrame)
    ensures forall w :: Get(r, w) == if w == u then v else Get(tf, w)
  {
    match u
    case Year => tf.(years := v)
    case Month => tf.(months := v)
    case Week => tf.(weeks := v)
    case Day => tf.(days := v)
    case Hour => tf.(hours := v)
    case Minute => tf.(minutes := v)
    case Second => tf.(seconds := v)
    case Millisecond => tf.(milliseconds := v)
  }

  /** `createTimeframe`: every field 0. */
  function CreateTimeframe(): (tf: TimeFrame)
    ensures forall u :: Get(tf, u) == 0
  {
    TimeFrame(0, 0, 0, 0, 0, 0, 0, 0)
  }

  /** The key order lists every unit once, and each key is a plural name the vocabulary parses back to its unit. */
  lemma KeyOrderComplete(u: Unit)
    ensures u in KeyOrder
    ensures forall i, j :: 0 <= i < j < |KeyOrder| ==> KeyOrder[i] != KeyOrder[j]
    ensures Parse(Text(Key(u))) == Some(TimeUnit(u, PluralName))
  {
    ParseOfText(Key(u));
  }

  /** Two records with the same value under every key are the same record. */
  lemma FrameExtensionality(a: TimeFrame, b: TimeFrame)
    requires forall u :: Get(a, u) == Get(b, u)
    ensures a == b
  {
    assert Get(a, Year) == Get(b, Year) && Get(a, Month) == Get(b, Month);
    assert Get(a, Week) == Get(b, Week) && Get(a, Day) == Get(b, Day);
    assert Get(a, Hour) == Get(b, Hour) && Get(a, Minute) == Get(b, Minute);
    assert Get(a, Second) == Get(b, Second) && Get(a, Millisecond) == Get(b, Millisecond);
  }
}

=== FILE: timeframe_to_string.dfy ===
/**
 * `timeFrameToString`: the record's non-zero fields whose keys pass
 * `isValidTimeUnit`, each as its value followed by the abbreviation of the
 * converter `getConverter` returns for the key, joined by single spaces.
 */
module TimeframeToString {
  import opened Wrappers
  import opened DateUnitConverter
  import opened UnitsOfTime
  import opened Strings
  import opened TimeFrames
  import opened FrameText
  import Converters
  import UnitConversionMap
  import TypeUtils

  /** The keys `isValidTimeUnit` accepts: every key with the completed alias arrays, all but years and hours as written. */
  function KeptUnits(src: Converters.AliasSource): set<Unit> {
    if src == Converters.Corrected then AllUnits else AllUnits - {Year, Hour}
  }

  /** The key test and the converter lookup the loop makes for one key of the record. */
  lemma KeyLookup(src: Converters.AliasSource, u: Unit)
    ensures TypeUtils.IsValidTimeUnit(src, TypeUtils.Str(Text(Key(u)))) <==> u in KeptUnits(src)
    ensures u in KeptUnits(src) ==> UnitConversionMap.GetConverter(src, Text(Key(u))) == Success(u)
    ensures Converters.Abbreviation(u) == TimeUnit(u, Symbol)
  {
    ParseOfText(Key(u));
    UnitConversionMap.ListedUnits(Key(u));
    UnitConversionMap.GetConverterOfText(Key(u));
    Converters.MetadataOfUnit(u);
    EveryUnit(u);
  }

  /** `timeFrameToString(timeFrame)`. */
  method TimeFrameToString(src: Converters.AliasSource, timeFrame: TimeFrame) returns (s: string)
    ensures s == Render(timeFrame, KeptUnits(src))
  {
    var timespanParts: seq<string> := [];
    for i := 0 to |KeyOrder|
      invariant timespanParts == Parts(timeFrame, KeptUnits(src), KeyOrder[..i])
    {
      var unit := KeyOrder[i];
      var numericValue := Get(timeFrame, unit);
      KeyLookup(src, unit);
      assert KeyOrder[..i + 1][..i] == KeyOrder[..i];
      if numericValue != 0 && TypeUtils.IsValidTimeUnit(src, TypeUtils.Str(Text(Key(unit)))) {
        var abbreviation := Text(Converters.Abbreviation(UnitConversionMap.GetConverter(src, Text(Key(unit))).value));
        timespanParts := timespanParts + [IntToString(numericValue) + abbreviation];
      }
    }
    assert KeyOrder[..|KeyOrder|] == KeyOrder;
    s := Join(timespanParts, " ");
  }

  /**
   * With the alias arrays as written the years and hours keys fail the
   * validity test, so their fields are dropped whatever their value.
   */
  lemma AsWrittenDropsYearsAndHours(tf: TimeFrame)
    ensures Render(tf, KeptUnits(Converters.AsWritten)) == Render(tf.(years := 0, hours := 0), KeptUnits(Converters.Corrected))
  {
    var kept := KeptUnits(Converters.AsWritten);
    SkippedKeysAreZeroed(tf, kept, KeyOrder);
    assert Hide(tf, kept) == tf.(years := 0, hours := 0);
  }
}

=== FILE: timespan.dfy ===
/**
 * The older Timespan class. It keeps a start and an end instant, their
 * difference, a breakdown of that difference and its text, all fixed on
 * construction. The breakdown divides greedily by the fixed unit lengths of
 * the conversion table (365-day years, 30.437-day months), from years down to
 * milliseconds; the conversion table is walked as its eight (plural, factor)
 * pairs in that order.
 */
module Timespans {
  import opened Wrappers
  import opened DateUnitConverter
  import opened UnitsOfTime
  import opened Strings
  import opened TimeFrames
  import opened FrameText
  import opened Patterns
  import TimeConversion
  import TimeUnitEnum
  import AbbreviatedTimeUnit

  /** The unit of the conversion table's entry at position j. */
  function EntryUnit(j: nat): Unit
    requires j < 8
  {
    TimeConversion.Entries()[j].0.unit
  }

  /** The fixed length in milliseconds of the unit at position j. */
  function Factor(j: nat): (f: int)
    requires j < 8
    ensures f > 0
  {
    TimeConversion.EntriesDecrease();
    TimeConversion.Entries()[j].1
  }

  /** The table lists the record's keys in key order, and the lengths are those of the conversion records. */
  lemma EntryUnits()
    ensures forall j :: 0 <= j < 8 ==> EntryUnit(j) == KeyOrder[j]
    ensures Factor(0) == 31536000000 && Factor(1) == 2629756800 && Factor(2) == 604800000 && Factor(3) == 86400000
    ensures Factor(4) == 3600000 && Factor(5) == 60000 && Factor(6) == 1000 && Factor(7) == 1
  {
    TimeConversion.EntriesDecrease();
    assert TimeConversion.EntryOrder == KeyOrder;
  }

  /**
   * The loop of `calculateTimeFrame` from entry i on, given the record and the
   * time left so far: the field gets floor(left / factor), the field's share is
   * taken off, and the walk stops once nothing is left.
   */
  function GreedyFrom(tf: TimeFrame, remaining: int, i: nat): TimeFrame
    requires i <= 8
    decreases 8 - i
  {
    if i == 8 then tf
    else
      var value := remaining / Factor(i);
      var next := Set(tf, EntryUnit(i), value);
      var left := remaining - value * Factor(i);
      if left == 0 then next else GreedyFrom(next, left, i + 1)
  }

  /** The breakdown the constructor caches for a difference of diff milliseconds. */
  function Greedy(diff: int): TimeFrame {
    GreedyFrom(CreateTimeframe(), diff, 0)
  }

  /**
   * `calculateTimeFrame` as written: before the loop it calls
   * `conversionTable.entries()`, a method the plain object does not have.
   */
  function TimeFrameAsWritten(diff: int): Result<TimeFrame> {
    match TimeConversion.CallMethod("entries")
    case Fail(err) => Failure(err)
    case Pass => Success(Greedy(diff))
  }

  /**
   * So the constructor, and with it every `fromString`, raises a TypeError
   * whatever the two instants; the class below models the evidently intended
   * walk over the table's entries.
   */
  lemma ConstructionThrows(diff: int)
    ensures TimeFrameAsWritten(diff) == Failure("TypeError")
  {
    TimeConversion.MapMethodsMissing();
  }

  /** What is left of diff once the units before position j have taken their whole multiples. */
  function Remaining(diff: int, j: nat): int
    requires j <= 8
  {
    if j == 0 then diff else Remaining(diff, j - 1) % Factor(j - 1)
  }

  /** The number of whole units of position j in what the larger units leave. */
  function Field(diff: int, j: nat): int
    requires j < 8
  {
    Remaining(diff, j) / Factor(j)
  }

  /** A reference breakdown without the early stop: every field is computed from what the larger units leave. */
  function Reference(diff: int): TimeFrame {
    TimeFrame(Field(diff, 0), Field(diff, 1), Field(diff, 2), Field(diff, 3), Field(diff, 4), Field(diff, 5), Field(diff, 6), Field(diff, 7))
  }

  lemma ReferenceGet(diff: int)
    ensures forall j :: 0 <= j < 8 ==> Get(Reference(diff), KeyOrder[j]) == Field(diff, j)
  {
  }

  /** Two records that agree at every position of the key order are equal. */
  lemma FrameByPosition(a: TimeFrame, b: TimeFrame)
    requires forall j :: 0 <= j < 8 ==> Get(a, KeyOrder[j]) == Get(b, KeyOrder[j])
    ensures a == b
  {
    forall u
      ensures Get(a, u) == Get(b, u)
    {
      assert KeyOrder[Rank(u)] == u;
    }
    FrameExtensionality(a, b);
  }

  /** Once nothing is left, nothing is left at any later position and every later field is 0. */
  lemma {:induction false} NothingLeft(diff: int, i: nat, j: nat)
    requires i <= j < 8 && Remaining(diff, i) == 0
    ensures Remaining(diff, j) == 0 && Field(diff, j) == 0
    decreases j - i
  {
    if i < j {
      NothingLeft(diff, i, j - 1);
    }
  }

  /** Taking the field's share off what is left is the remainder modulo the unit length. */
  lemma ShareTaken(diff: int, i: nat)
    requires i < 8
    ensures Remaining(diff, i) - Field(diff, i) * Factor(i) == Remaining(diff, i + 1)
  {
    var r, f := Remaining(diff, i), Factor(i);
    assert r == (r / f) * f + r % f;
  }

  /** Setting the field at position i to its reference value extends the reference prefix by one position. */
  lemma PrefixGrows(diff: int, tf: TimeFrame, i: nat)
    requires i < 8
    requires forall j :: 0 <= j < i ==> Get(tf, KeyOrder[j]) == Field(diff, j)
    requires forall j :: i <= j < 8 ==> Get(tf, KeyOrder[j]) == 0
    ensures forall j :: 0 <= j < i + 1 ==> Get(Set(tf, KeyOrder[i], Field(diff, i)), KeyOrder[j]) == Field(diff, j)
    ensures forall j :: i + 1 <= j < 8 ==> Get(Set(tf, KeyOrder[i], Field(diff, i)), KeyOrder[j]) == 0
  {
    forall j | 0 <= j < 8
      ensures KeyOrder[j] == KeyOrder[i] <==> j == i
    {
      assert Rank(KeyOrder[j]) == j && Rank(KeyOrder[i]) == i;
    }
  }

  /** A record holding the reference fields up to a position where nothing is left is the reference breakdown. */
  lemma StopAtReference(diff: int, tf: TimeFrame, i: nat)
    requires 0 < i <= 8
    requires forall j :: 0 <= j < i ==> Get(tf, KeyOrder[j]) == Field(diff, j)
    requires forall j :: i <= j < 8 ==> Get(tf, KeyOrder[j]) == 0
    requires i < 8 ==> Remaining(diff, i) == 0
    ensures tf == Reference(diff)
  {
    forall j | i <= j < 8
      ensures Field(diff, j) == 0
    {
      NothingLeft(diff, i, j);
    }
    ReferenceGet(diff);
    FrameByPosition(tf, Reference(diff));
  }

  /**
   * From a record that holds the reference fields before i and zeros from i
   * on, the loop ends at the reference breakdown: stopping early leaves only
   * fields the reference has at 0.
   */
  lemma {:induction false} GreedyFromReference(diff: int, tf: TimeFrame, i: nat)
    requires i <= 8
    requires forall j :: 0 <= j < i ==> Get(tf, KeyOrder[j]) == Field(diff, j)
    requires forall j :: i <= j < 8 ==> Get(tf, KeyOrder[j]) == 0
    ensures GreedyFrom(tf, Remaining(diff, i), i) == Reference(diff)
    decreases 8 - i
  {
    if i == 8 {
      StopAtReference(diff, tf, i);
    } else {
      EntryUnits();
      var next := Set(tf, KeyOrder[i], Field(diff, i));
      ShareTaken(diff, i);
      PrefixGrows(diff, tf, i);
      GreedyStep(tf, Remaining(diff, i), i, Field(diff, i), Remaining(diff, i + 1), next);
      if Remaining(diff, i + 1) == 0 {
        StopAtReference(diff, next, i + 1);
      } else {
        GreedyFromReference(diff, next, i + 1);
      }
    }
  }

  /** The greedy walk with its early stop gives exactly the reference breakdown. */
  lemma GreedyIsReference(diff: int)
    ensures Greedy(diff) == Reference(diff)
  {
    GreedyFromReference(diff, CreateTimeframe(), 0);
  }

  /** Σ field·factor over the first n positions of the key order. */
  function Weighted(tf: TimeFrame, n: nat): int
    requires n <= 8
  {
    if n == 0 then 0 else Weighted(tf, n - 1) + Get(tf, KeyOrder[n - 1]) * Factor(n - 1)
  }

  /** After n positions, the fields' weighted sum plus what is left is the whole difference. */
  lemma {:induction false} ReferencePrefix(diff: int, n: nat)
    requires n <= 8
    ensures Weighted(Reference(diff), n) + Remaining(diff, n) == diff
  {
    if n > 0 {
      ReferencePrefix(diff, n - 1);
      ReferenceGet(diff);
      ShareTaken(diff, n - 1);
    }
  }

  /** The cached breakdown accounts for the whole difference: nothing is left after the milliseconds. */
  lemma GreedySum(diff: int)
    ensures Weighted(Greedy(diff), 8) == diff
  {
    GreedyIsReference(diff);
    ReferencePrefix(diff, 8);
    EntryUnits();
  }

  /**
   * Every field after the years is at least 0, and what is left after each
   * position is below that position's unit length; the years take the sign of
   * the difference.
   */
  lemma GreedyBounds(diff: int, j: nat)
    requires 1 <= j < 8
    ensures Get(Greedy(diff), KeyOrder[j]) >= 0
    ensures 0 <= Remaining(diff, j + 1) < Factor(j)
    ensures Get(Greedy(diff), Year) == diff / 31536000000
    ensures diff >= 0 <==> Get(Greedy(diff), Year) >= 0
  {
    GreedyIsReference(diff);
    ReferenceGet(diff);
    EntryUnits();
  }

  /** One step of the walk: the entry's field is set and its share taken off. */
  lemma GreedyStep(tf: TimeFrame, remaining: int, i: nat, value: int, left: int, next: TimeFrame)
    requires i < 8 && value == remaining / Factor(i) && left == remaining - value * Factor(i) && next == Set(tf, EntryUnit(i), value)
    ensures GreedyFrom(tf, remaining, i) == if left == 0 then next else GreedyFrom(next, left, i + 1)
  {
  }

  lemma EntryAt(i: nat)
    requires i < 8
    ensures TimeConversion.Entries()[i] == (Key(EntryUnit(i)), Factor(i))
  {
    TimeConversion.EntriesDecrease();
  }

  /** `calculateTimeFrame`: walk the table, flooring, subtracting and stopping when nothing is left. */
  method CalculateTimeFrame(milliseconds: int) returns (timeFrame: TimeFrame)
    ensures timeFrame == Greedy(milliseconds)
  {
    timeFrame := CreateTimeframe();
    var remainingTime := milliseconds;
    var entries := TimeConversion.Entries();
    var i := 0;
    while i < |entries|
      invariant 0 <= i <= 8 && entries == TimeConversion.Entries()
      invariant GreedyFrom(timeFrame, remainingTime, i) == Greedy(milliseconds)
    {
      var (unit, conversionFactor) := entries[i];
      EntryAt(i);
      ghost var frameBefore, remainingBefore := timeFrame, remainingTime;
      var value := remainingTime / conversionFactor;
      timeFrame := Set(timeFrame, unit.unit, value);
      remainingTime := remainingTime - value * conversionFactor;
      GreedyStep(frameBefore, remainingBefore, i, value, remainingTime, timeFrame);
      if remainingTime == 0 {
        break;
      }
      i := i + 1;
    }
  }

  /** The old engine's key test and lookups for a plural key: it is an enum key, and its abbreviation is the unit's symbol. */
  lemma PluralKey(u: Unit)
    ensures TimeUnitEnum.IsKey(Text(Key(u))) && Parse(Text(Key(u))) == Some(Key(u))
    ensures TimeUnitEnum.Member(Key(u)) == Some(Key(u))
    ensures AbbreviatedTimeUnit.Member(Key(u)) == Some(TimeUnit(u, Symbol))
  {
    ParseOfText(Key(u));
    TimeUnitEnum.MemberIsPlural(Key(u));
    AbbreviatedTimeUnit.MemberIsAbbreviation(Key(u));
  }

  /** `calculateString`: each non-zero field whose key is an enum key, as value and abbreviation, joined by spaces. */
  method CalculateString(timeFrame: TimeFrame) returns (s: string)
    ensures s == Render(timeFrame, AllUnits)
  {
    var timespanParts: seq<string> := [];
    for i := 0 to |KeyOrder|
      invariant timespanParts == Parts(timeFrame, AllUnits, KeyOrder[..i])
    {
      var unit := KeyOrder[i];
      var value := Get(timeFrame, unit);
      PluralKey(unit);
      EveryUnit(unit);
      assert KeyOrder[..i + 1][..i] == KeyOrder[..i];
      if TimeUnitEnum.IsKey(Text(Key(unit))) {
        var keyUnit := Parse(Text(Key(unit))).value;
        if value != 0 && TimeUnitEnum.Member(keyUnit).Some? {
          timespanParts := timespanParts + [IntToString(value) + Text(AbbreviatedTimeUnit.Member(keyUnit).value)];
        }
      }
    }
    assert KeyOrder[..|KeyOrder|] == KeyOrder;
    s := Join(timespanParts, " ");
  }

  class Timespan {
    const startDate: int
    const endDate: int
    const timeDiff: int
    const timeFrame: TimeFrame
    const stringValue: string

    /** The cached values agree with the two instants. */
    ghost predicate Valid() {
      timeDiff == endDate - startDate
      && timeFrame == Greedy(endDate - startDate)
      && stringValue == Render(timeFrame, AllUnits)
    }

    /** `new Timespan(start, end)`: nothing requires end to be after start. */
    constructor(start: int, end: int)
      ensures startDate == start && endDate == end
      ensures Valid()
    {
      startDate := start;
      endDate := end;
      timeDiff := end - start;
      var tf := CalculateTimeFrame(end - start);
      timeFrame := tf;
      var text := CalculateString(tf);
      stringValue := text;
    }

    /** `toMilliseconds`: the signed difference of the two instants. */
    function ToMilliseconds(): (r: int)
      requires Valid()
      ensures r == endDate - startDate
      ensures r < 0 <==> endDate < startDate
    {
      timeDiff
    }

    /** `toTimeframe`: the cached breakdown, whose weighted sum is the difference. */
    function ToTimeframe(): (r: TimeFrame)
      requires Valid()
      ensures r == Greedy(endDate - startDate)
    {
      timeFrame
    }

    /** `toString`: the cached text of the breakdown. */
    function ToString(): (r: string)
      requires Valid()
      ensures r == Render(Greedy(endDate - startDate), AllUnits)
    {
      stringValue
    }
  }

  /** One match as `fromString` reads it: the number, the unit text, and the enum's plural for the unit when it is a key. */
  datatype Reading = Reading(value: nat, unit: string, plural: Option<TimeUnit>)

  function Read(s: string, t: Token): (r: Reading)
    requires Within(s, t) && AllDigits(Amount(s, t))
  {
    var unit := UnitText(s, t);
    Reading(DigitsValue(Amount(s, t)), unit, if TimeUnitEnum.IsKey(unit) then TimeUnitEnum.Member(Parse(unit).value) else None)
  }

  function Readings(s: string, ts: seq<Token>): (rs: seq<Reading>)
    requires Readable(s, ts)
    ensures |rs| == |ts|
  {
    seq(|ts|, n requires 0 <= n < |ts| => Read(s, ts[n]))
  }

  /** The factor `conversionTable.get` gives for the enum's plural: that of the unit's conversion record. */
  function TableFactor(plural: TimeUnit): (f: int)
    requires TimeConversion.Table(plural).Some?
    ensures f == TimeConversion.Record(plural.unit).factor
  {
    TimeConversion.TableOfUnit(plural);
    TimeConversion.Table(plural).value.factor
  }

  /** A reading of a key always has a table entry. */
  lemma ReadKey(s: string, t: Token)
    requires Within(s, t) && AllDigits(Amount(s, t))
    ensures Read(s, t).plural.Some? <==> TimeUnitEnum.IsKey(UnitText(s, t))
    ensures Read(s, t).plural.Some? ==> TimeConversion.Table(Read(s, t).plural.value).Some?
    ensures Read(s, t).plural.Some? ==> Read(s, t).plural.value == TimeUnit(Parse(UnitText(s, t)).value.unit, PluralName)
  {
    if TimeUnitEnum.IsKey(UnitText(s, t)) {
      var tu := Parse(UnitText(s, t)).value;
      TimeUnitEnum.MemberIsPlural(tu);
      TimeConversion.TableOfUnit(TimeUnitEnum.Member(tu).value);
      TimeUnitEnum.MemberIsPlural(TimeUnitEnum.Member(tu).value);
    }
  }

  /** The milliseconds a reading of a key stands for. */
  function Share(r: Reading): int
    requires r.plural.Some?
  {
    r.value * TimeConversion.Record(r.plural.value.unit).factor
  }

  /** The error `fromString` raises for a reading whose unit is not a key. */
  function InvalidUnit(r: Reading): string {
    "Invalid unit: " + IntToString(r.value) + r.unit
  }

  /** The milliseconds the readings from position k on add up to, or the error for the first whose unit is not a key. */
  function TotalFrom(rs: seq<Reading>, k: nat): Result<int>
    requires k <= |rs|
    decreases |rs| - k
  {
    if k == |rs| then Success(0)
    else if rs[k].plural.None? then Failure(InvalidUnit(rs[k]))
    else AddTo(Share(rs[k]), TotalFrom(rs, k + 1))
  }

  function Total(rs: seq<Reading>): Result<int> {
    TotalFrom(rs, 0)
  }

  /** The matches the shared pattern finds when its scan starts at `from` (none when `from` is past the end). */
  function LegacyMatches(input: string, from: nat): (ts: seq<Token>)
    ensures Readable(input, ts)
  {
    if from <= |input| then
      TokensWellFormed(LegacyPattern, input, from);
      Tokens(LegacyPattern, input, from)
    else []
  }

  /**
   * What `fromString` makes of its input when the shared pattern's scan starts
   * at `from`: no match at all, or the total of the matches.
   */
  function FromStringTotal(input: string, from: nat): Result<int> {
    var ts := LegacyMatches(input, from);
    if ts == [] then Failure("Invalid unit") else Total(Readings(input, ts))
  }

  /** The position of the first reading from k on whose unit is not a key, or |rs| when there is none. */
  function FirstInvalid(rs: seq<Reading>, k: nat): (n: nat)
    requires k <= |rs|
    ensures k <= n <= |rs|
    decreases |rs| - k
  {
    if k == |rs| then |rs| else if rs[k].plural.None? then k else FirstInvalid(rs, k + 1)
  }

  /** Past the readings before k, all of them keys, the k-th decides whether the first non-key is at k or later. */
  lemma FirstInvalidStep(rs: seq<Reading>, k: nat)
    requires k < |rs| && k <= FirstInvalid(rs, 0)
    ensures rs[k].plural.Some? ==> k + 1 <= FirstInvalid(rs, 0)
    ensures rs[k].plural.None? ==> FirstInvalid(rs, 0) == k
  {
    FirstInvalidFrom(rs, 0, k);
  }

  /** The first non-key at or after j, when there is none before k, is the first at or after k. */
  lemma {:induction false} FirstInvalidFrom(rs: seq<Reading>, j: nat, k: nat)
    requires j <= k <= |rs| && k <= FirstInvalid(rs, j)
    ensures FirstInvalid(rs, j) == FirstInvalid(rs, k)
    decreases k - j
  {
    if j < k {
      FirstInvalidFrom(rs, j + 1, k);
    }
  }

  /** Where the shared pattern's `lastIndex` is left: at the end of the match whose unit is not a key, or back at 0. */
  function LastIndexAfter(input: string, from: nat): nat {
    var ts := LegacyMatches(input, from);
    var n := FirstInvalid(Readings(input, ts), 0);
    if n < |ts| then ts[n].end else 0
  }

  /** A success shifted by x; a failure passes through. */
  function AddTo(x: int, r: Result<int>): Result<int> {
    match r
    case Success(v) => Success(x + v)
    case Failure(e) => Failure(e)
  }

  /** Shifting a shifted result adds the shifts. */
  lemma AddToTwice(x: int, y: int, r: Result<int>)
    ensures AddTo(x, AddTo(y, r)) == AddTo(x + y, r)
  {
  }

  /** One more reading consumed: its share moves from the rest into the running total. */
  lemma TotalAdvance(rs: seq<Reading>, k: nat, total: int, next: int)
    requires k < |rs| && Total(rs) == AddTo(total, TotalFrom(rs, k)) && rs[k].plural.Some? && next == total + Share(rs[k])
    ensures Total(rs) == AddTo(next, TotalFrom(rs, k + 1))
  {
    AddToTwice(total, Share(rs[k]), TotalFrom(rs, k + 1));
  }

  /** The share of a reading of a key is its number times the factor the table gives for the enum's plural. */
  lemma ShareOfRead(s: string, t: Token)
    requires Within(s, t) && AllDigits(Amount(s, t)) && TimeUnitEnum.IsKey(UnitText(s, t))
    ensures Read(s, t).plural.Some?
    ensures TimeConversion.Table(TimeUnitEnum.Member(Parse(UnitText(s, t)).value).value).Some?
    ensures Share(Read(s, t)) == DigitsValue(Amount(s, t)) * TableFactor(TimeUnitEnum.Member(Parse(UnitText(s, t)).value).value)
  {
    ReadKey(s, t);
  }

  /**
   * Lines 28-44 of `Timespan.fromString`, for one match: its number times the
   * conversion factor of the enum's plural for its unit, or the error for a unit
   * that is not a key.
   */
  method MatchShare(input: string, t: Token) returns (r: Result<int>)
    requires Within(input, t) && AllDigits(Amount(input, t))
    ensures r.Success? <==> Read(input, t).plural.Some?
    ensures r.Success? ==> r.value == Share(Read(input, t))
    ensures r.Failure? ==> r.error == InvalidUnit(Read(input, t))
  {
    var value := DigitsValue(Amount(input, t));
    var unit := UnitText(input, t);
    ReadKey(input, t);
    if TimeUnitEnum.IsKey(unit) {
      ShareOfRead(input, t);
      var keyUnit := Parse(unit).value;
      var numericValue := value;
      var conversionFactor := TableFactor(TimeUnitEnum.Member(keyUnit).value);
      r := Success(numericValue * conversionFactor);
    } else {
      r := Failure("Invalid unit: " + IntToString(value) + unit);
    }
  }

  /**
   * Lines 27-47 of `Timespan.fromString`: the loop over the matches of the
   * scan that started at `from` and found `all`, entered with the first of
   * them, adding up each match's milliseconds until a unit is not a key.
   */
  method SumMatches(regex: GlobalRegex, input: string, first: Token, ghost from: nat, ghost all: seq<Token>) returns (r: Result<int>)
    requires regex.pattern == LegacyPattern && from <= |input| && all == Tokens(LegacyPattern, input, from)
    requires Readable(input, all) && 0 < |all| && first == all[0] && regex.lastIndex == first.end
    modifies regex
    ensures r.Failure? <==> Total(Readings(input, all)).Failure?
    ensures r.Failure? ==> r.error == Total(Readings(input, all)).error
    ensures r.Success? ==> r.value == Total(Readings(input, all)).value
    ensures regex.lastIndex == if FirstInvalid(Readings(input, all), 0) < |all| then all[FirstInvalid(Readings(input, all), 0)].end else 0
  {
    var totalMilliseconds := 0;
    var m := Some(first);
    ghost var rs := Readings(input, all);
    ghost var k := 0;
    while m.Some?
      invariant regex.pattern == LegacyPattern && 0 <= k <= |all|
      invariant m == if k < |all| then Some(all[k]) else None
      invariant regex.lastIndex == if m.Some? then all[k].end else 0
      invariant Total(rs) == AddTo(totalMilliseconds, TotalFrom(rs, k))
      invariant k <= FirstInvalid(rs, 0)
      decreases |all| - k
    {
      assert rs[k] == Read(input, m.value);
      var share := MatchShare(input, m.value);
      FirstInvalidStep(rs, k);
      if share.Failure? {
        TotalStops(rs, k, totalMilliseconds);
        return Failure(share.error);
      }
      ghost var before := totalMilliseconds;
      totalMilliseconds := totalMilliseconds + share.value;
      TotalAdvance(rs, k, before, totalMilliseconds);
      TokenAt(LegacyPattern, input, from, k + 1);
      m := regex.Exec(input);
      k := k + 1;
    }
    return Success(totalMilliseconds);
  }

  /**
   * Lines 21-47 of `Timespan.fromString`: the scan of the input with the
   * class's shared global pattern as `regex`, whose `lastIndex` it reads and
   * leaves behind, adding up each match's milliseconds.
   */
  method ScanTotal(regex: GlobalRegex, input: string) returns (r: Result<int>)
    requires regex.pattern == LegacyPattern
    modifies regex
    ensures r.Failure? <==> FromStringTotal(input, old(regex.lastIndex)).Failure?
    ensures r.Failure? ==> r.error == FromStringTotal(input, old(regex.lastIndex)).error
    ensures r.Success? ==> r.value == FromStringTotal(input, old(regex.lastIndex)).value
    ensures regex.lastIndex == LastIndexAfter(input, old(regex.lastIndex))
  {
    ghost var from := regex.lastIndex;
    var m := regex.Exec(input);
    if m.None? {
      return Failure("Invalid unit");
    }
    ghost var all := LegacyMatches(input, from);
    assert all == Tokens(LegacyPattern, input, from);
    TokenAt(LegacyPattern, input, from, 0);
    r := SumMatches(regex, input, m.value, from, all);
  }

  /**
   * `Timespan.fromString(input)`, with the clock's reading `now` as the end and
   * the class's shared global pattern as `regex`, whose `lastIndex` the call
   * reads and leaves behind.
   */
  method FromString(regex: GlobalRegex, input: string, now: int) returns (r: Result<Timespan>)
    requires regex.pattern == LegacyPattern
    modifies regex
    ensures r.Failure? <==> FromStringTotal(input, old(regex.lastIndex)).Failure?
    ensures r.Failure? ==> r.error == FromStringTotal(input, old(regex.lastIndex)).error
    ensures r.Success? ==> fresh(r.value) && r.value.Valid()
    ensures r.Success? ==> r.value.endDate == now && r.value.startDate == now - FromStringTotal(input, old(regex.lastIndex)).value
    ensures regex.lastIndex == LastIndexAfter(input, old(regex.lastIndex))
  {
    var totalMilliseconds := ScanTotal(regex, input);
    if totalMilliseconds.Failure? {
      return Failure(totalMilliseconds.error);
    }
    var endDate := now;
    var startDate := endDate - totalMilliseconds.value;
    var t := new Timespan(startDate, endDate);
    return Success(t);
  }

  /**
   * `Timespan.fromString` with the shared pattern's `lastIndex` put back to 0
   * first, so that every call scans its whole input whatever an earlier call
   * left behind.
   */
  method FromStringReset(regex: GlobalRegex, input: string, now: int) returns (r: Result<Timespan>)
    requires regex.pattern == LegacyPattern
    modifies regex
    ensures r.Failure? <==> FromStringTotal(input, 0).Failure?
    ensures r.Failure? ==> r.error == FromStringTotal(input, 0).error
    ensures r.Success? ==> fresh(r.value) && r.value.Valid()
    ensures r.Success? ==> r.value.endDate == now && r.value.startDate == now - FromStringTotal(input, 0).value
  {
    regex.lastIndex := 0;
    r := FromString(regex, input, now);
  }

  /** A reading whose unit is not a key ends the total with its error. */
  lemma TotalStops(rs: seq<Reading>, k: nat, total: int)
    requires k < |rs| && Total(rs) == AddTo(total, TotalFrom(rs, k)) && rs[k].plural.None?
    ensures Total(rs) == Failure(InvalidUnit(rs[k]))
  {
  }

  /** The readings from position k on add up when every unit is a key. */
  lemma {:induction false} TotalSucceeds(rs: seq<Reading>, k: nat)
    requires k <= |rs|
    requires forall n :: k <= n < |rs| ==> rs[n].plural.Some?
    ensures TotalFrom(rs, k).Success?
    decreases |rs| - k
  {
    if k < |rs| {
      TotalSucceeds(rs, k + 1);
    }
  }

  /** The first reading whose unit is not a key decides the error, whatever follows it. */
  lemma {:induction false} TotalFails(rs: seq<Reading>, k: nat, n: nat)
    requires k <= n < |rs| && rs[n].plural.None?
    requires forall i :: k <= i < n ==> rs[i].plural.Some?
    ensures TotalFrom(rs, k) == Failure(InvalidUnit(rs[n]))
    decreases n - k
  {
    if k < n {
      TotalFails(rs, k + 1, n);
    }
  }

  /** Readings after a prefix total as they do on their own. */
  lemma {:induction false} TotalShift(rs1: seq<Reading>, rs2: seq<Reading>, j: nat)
    requires j <= |rs2|
    ensures TotalFrom(rs1 + rs2, |rs1| + j) == TotalFrom(rs2, j)
    decreases |rs2| - j
  {
    if j < |rs2| {
      assert (rs1 + rs2)[|rs1| + j] == rs2[j];
      TotalShift(rs1, rs2, j + 1);
    }
  }

  /** The total of two runs of readings is the sum of their totals: repeated units accumulate. */
  lemma {:induction false} TotalAppend(rs1: seq<Reading>, rs2: seq<Reading>, k: nat)
    requires k <= |rs1|
    ensures TotalFrom(rs1 + rs2, k) == if TotalFrom(rs1, k).Failure? then TotalFrom(rs1, k) else AddTo(TotalFrom(rs1, k).value, Total(rs2))
    decreases |rs1| - k
  {
    if k == |rs1| {
      TotalShift(rs1, rs2, 0);
    } else {
      assert (rs1 + rs2)[k] == rs1[k];
      TotalAppend(rs1, rs2, k + 1);
      if rs1[k].plural.Some? && TotalFrom(rs1, k + 1).Success? {
        AddToTwice(Share(rs1[k]), TotalFrom(rs1, k + 1).value, Total(rs2));
      }
    }
  }

  /** "2 h" is two hours: 7200000 milliseconds. */
  lemma TwoHours()
    ensures FromStringTotal("2 h", 0) == Success(7200000)
  {
    LegacySpacing();
    TokensWellFormed(LegacyPattern, "2 h", 0);
    var rs := Readings("2 h", [Token(0, 1, 2, 3)]);
    ReadTwoHours();
    assert TotalFrom(rs, 1) == Success(0);
  }

  lemma ReadTwoHours()
    ensures Read("2 h", Token(0, 1, 2, 3)) == Reading(2, "h", Some(TimeUnit(Hour, PluralName)))
  {
    var s, t := "2 h", Token(0, 1, 2, 3);
    assert Amount(s, t) == "2" && DigitsValue("2") == 2;
    assert UnitText(s, t) == "h" == Text(TimeUnit(Hour, Symbol));
    ParseOfText(TimeUnit(Hour, Symbol));
  }

  /** A string without a single match is rejected with "Invalid unit". */
  lemma NothingMatches()
    ensures FromStringTotal("", 0) == Failure("Invalid unit")
  {
    assert Find(LegacyPattern, "", 0) == None;
  }

  /** "5x" is one match: the amount "5" and the unit "x". */
  lemma FiveXMatch()
    ensures LegacyMatches("5x", 0) == [Token(0, 1, 1, 2)]
  {
    var s := "5x";
    var t := Token(0, 1, 1, 2);
    assert Run(s, 0, Digit) == 1 && Run(s, 1, Space) == 0 && Run(s, 1, Letter) == 1;
    assert Find(LegacyPattern, s, 0) == Some(t);
    assert Run(s, 2, Digit) == 0;
    assert Find(LegacyPattern, s, 2) == None;
    assert Tokens(LegacyPattern, s, 0) == [t];
  }

  /** The first match whose unit is not an enum key decides the error: "5x" gives "Invalid unit: 5x", and `lastIndex` stays at its end. */
  lemma UnknownUnit()
    ensures FromStringTotal("5x", 0) == Failure("Invalid unit: 5x")
    ensures LastIndexAfter("5x", 0) == 2
  {
    FiveXMatch();
    FiveXReading();
    var rs := Readings("5x", [Token(0, 1, 1, 2)]);
    assert FirstInvalid(rs, 0) == 0;
    assert IntToString(5) == "5";
  }

  /** The match in "5x" reads as five of "x", which is not a key. */
  lemma FiveXReading()
    ensures Readings("5x", [Token(0, 1, 1, 2)]) == [Reading(5, "x", None)]
  {
    var s := "5x";
    var t := Token(0, 1, 1, 2);
    assert Within(s, t) && AllDigits(Amount(s, t));
    assert Amount(s, t) == "5" && DigitsValue("5") == 5;
    assert UnitText(s, t) == "x";
    assert Parse("x") == None;
  }

  /**
   * The breakdown of 35958480000 ms, the span from 2022-01-01T06:24Z to
   * 2023-02-21T10:52Z: one 365-day year, one 30.437-day month, then 2 weeks,
   * 6 days, 17 hours, 58 minutes, 43 seconds and 200 milliseconds.
   */
  lemma YearAndAMonth()
    ensures Greedy(35958480000) == TimeFrame(1, 1, 2, 6, 17, 58, 43, 200)
  {
    var d := 35958480000;
    EntryUnits();
    assert Remaining(d, 1) == 4422480000;
    assert Remaining(d, 2) == 1792723200;
    assert Remaining(d, 3) == 583123200;
    assert Remaining(d, 4) == 64723200;
    assert Remaining(d, 5) == 3523200;
    assert Remaining(d, 6) == 43200;
    assert Remaining(d, 7) == 200;
    GreedyIsReference(d);
  }

  /** "2 h" scanned from position 2 finds no match: the digits it needs are behind the scan. */
  lemma LateScanMissesMatch()
    ensures FromStringTotal("2 h", 2) == Failure("Invalid unit")
  {
    var s := "2 h";
    assert Run(s, 2, Digit) == 0 && Run(s, 3, Digit) == 0;
    assert Find(LegacyPattern, s, 2) == None;
  }

  /**
   * A call on "5x" fails on its unit and leaves the shared pattern's
   * `lastIndex` at 2; the next call, on the valid "2 h", then starts its scan at
   * 2 and fails with "Invalid unit", where a scan from the start gives two hours.
   */
  lemma StaleLastIndex()
    ensures LastIndexAfter("5x", 0) == 2
    ensures FromStringTotal("2 h", LastIndexAfter("5x", 0)) == Failure("Invalid unit")
    ensures FromStringTotal("2 h", 0) == Success(7200000)
  {
    UnknownUnit();
    LateScanMissesMatch();
    TwoHours();
  }
}

=== FILE: timespan_utils.dfy ===
/**
 * The timespan utilities: the string parser, which stores each matched amount
 * in its unit's field and moves a start on by the fields with the UTC setters;
 * the unit count and unit shift of a span; the text of a record; and the
 * calendar breakdown of a span, this copy finding its converters through the
 * date-unit calculator. The spans they return are the older Timespan class.
 */
module TimespanUtils {
  import opened Wrappers
  import opened DateUnitConverter
  import opened UnitsOfTime
  import opened Strings
  import opened TimeFrames
  import opened FrameText
  import opened Patterns
  import Calendar
  import Constants
  import Converters
  import DateUnitCalculator
  import DateUnitConversionMap
  import TimeFrameCalculation
  import YearConverter
  import MonthConverter
  import Timespans

  /** The start the utilities use: the date given, or else the clock's reading `now`. */
  function StartOf(startDate: Option<int>, now: int): int {
    if startDate.Some? then startDate.value else now
  }

  // ---------------------------------------------------------------------------
  // calculateUnitsFromTimespan, calculateTimespanFromUnits

  /** `calculateUnitsFromTimespan(unit, startDate, endDate)`: the count the unit's converter makes. */
  function CalculateUnitsFromTimespan(unit: string, s: DateArg, e: DateArg): (r: Result<int>)
    ensures r.Failure? <==> Parse(unit).None? || s.NonDate? || e.NonDate? || s.time > e.time
    ensures Parse(unit).None? ==> r == Failure("Invalid date unit: " + unit)
    ensures Parse(unit).Some? ==> r == Converters.Between(Parse(unit).value.unit, s, e)
  {
    DateUnitCalculator.BetweenAgrees(unit, s, e);
    DateUnitCalculator.Between(unit, s, e)
  }

  /** `calculateTimespanFromUnits(amount, unit, startDate)`: the span from the start to the start moved on by the amount. */
  method CalculateTimespanFromUnits(amount: int, unit: string, startDate: Option<int>, now: int) returns (r: Result<Timespans.Timespan>)
    ensures r.Failure? <==> Parse(unit).None? || amount < 0
    ensures r.Failure? ==> r.error == DateUnitCalculator.AddUnits(unit, amount, DateAt(StartOf(startDate, now))).error
    ensures r.Success? ==> fresh(r.value) && r.value.Valid() && r.value.startDate == StartOf(startDate, now)
    ensures r.Success? ==> r.value.endDate == Converters.Add(Parse(unit).value.unit, amount, DateAt(StartOf(startDate, now))).value
    ensures r.Success? ==> r.value.endDate >= r.value.startDate
  {
    var start := if startDate.Some? then startDate.value else now;
    var end := DateUnitCalculator.AddUnits(unit, amount, DateAt(start));
    if Parse(unit).Some? {
      Converters.AddContract(Parse(unit).value.unit, amount, DateAt(start));
    }
    if end.Failure? {
      return Failure(end.error);
    }
    var t := new Timespans.Timespan(start, end.value);
    return Success(t);
  }

  // ---------------------------------------------------------------------------
  // calculateString

  /** `abbreviatedUnit` of a record key is the unit's symbol. */
  lemma AbbreviationOfKey(u: Unit)
    ensures DateUnitCalculator.AbbreviatedUnit(Text(Key(u))) == Success(Text(TimeUnit(u, Symbol)))
  {
    ParseOfText(Key(u));
    ParseText(DateUnitCalculator.AbbreviatedUnit(Text(Key(u))).value, TimeUnit(u, Symbol));
  }

  /** `calculateString(timeFrame)`: each non-zero field as its value and abbreviation, in key order, joined by spaces. */
  method CalculateString(timeFrame: TimeFrame) returns (s: string)
    ensures s == Render(timeFrame, AllUnits)
  {
    var timespanParts: seq<string> := [];
    for i := 0 to |KeyOrder|
      invariant timespanParts == Parts(timeFrame, AllUnits, KeyOrder[..i])
    {
      var unit := KeyOrder[i];
      var numericValue := Get(timeFrame, unit);
      EveryUnit(unit);
      assert KeyOrder[..i + 1][..i] == KeyOrder[..i];
      if numericValue != 0 {
        AbbreviationOfKey(unit);
        var abbreviation := DateUnitCalculator.AbbreviatedUnit(Text(Key(unit))).value;
        timespanParts := timespanParts + [IntToString(numericValue) + abbreviation];
      }
    }
    assert KeyOrder[..|KeyOrder|] == KeyOrder;
    s := Join(timespanParts, " ");
  }

  // ---------------------------------------------------------------------------
  // calculateTimeFrame

  /** A plural name from the vocabulary parses back to its unit. */
  lemma ParseOfSpelling(u: Unit, spelling: string)
    requires spelling == Text(TimeUnit(u, PluralName))
    ensures Parse(spelling) == Some(TimeUnit(u, PluralName))
  {
    ParseOfText(TimeUnit(u, PluralName));
  }

  /** The two counts `calculateTimeFrame` asks `between` for: 'years' and 'months' reach their converters. */
  method YearsAndMonths(s: DateArg, e: DateArg) returns (years: Result<int>, totalMonths: Result<int>)
    ensures years == Converters.Between(Year, s, e)
    ensures totalMonths == Converters.Between(Month, s, e)
  {
    ParseOfSpelling(Year, "years");
    ParseOfSpelling(Month, "months");
    DateUnitCalculator.BetweenAgrees("years", s, e);
    DateUnitCalculator.BetweenAgrees("months", s, e);
    years := DateUnitCalculator.Between("years", s, e);
    totalMonths := DateUnitCalculator.Between("months", s, e);
  }

  /** The five unit lengths `calculateTimeFrame` reads with `millisecondsPerUnit`. */
  method UnitLengths() returns (perWeek: int, perDay: int, perHour: int, perMinute: int, perSecond: int)
    ensures perWeek == 604800000 && perDay == 86400000 && perHour == 3600000 && perMinute == 60000 && perSecond == 1000
  {
    ParseOfSpelling(Week, "weeks");
    ParseOfSpelling(Day, "days");
    ParseOfSpelling(Hour, "hours");
    ParseOfSpelling(Minute, "minutes");
    ParseOfSpelling(Second, "seconds");
    perWeek := DateUnitCalculator.MillisecondsPerUnit("weeks").value;
    perDay := DateUnitCalculator.MillisecondsPerUnit("days").value;
    perHour := DateUnitCalculator.MillisecondsPerUnit("hours").value;
    perMinute := DateUnitCalculator.MillisecondsPerUnit("minutes").value;
    perSecond := DateUnitCalculator.MillisecondsPerUnit("seconds").value;
  }

  /** Lines 179-203 once years and months are in the frame: shift a copy of the start, take the residual, divide. */
  method FillResidual(frame: TimeFrame, s: DateArg, e: DateArg) returns (timeFrame: TimeFrame)
    requires s.DateAt? && e.DateAt?
    ensures timeFrame == TimeFrameCalculation.BreakdownAt(s.time, e.time, frame.years, frame.months)
  {
    var tempDate := TimeFrameCalculation.ShiftYearsAndMonths(s.time, frame.years, frame.months);
    var totalTimeDiff := e.time - s.time;
    var remainingTime := totalTimeDiff - (tempDate - s.time);
    var millisecondsPerWeek, millisecondsPerDay, millisecondsPerHour, millisecondsPerMinute, millisecondsPerSeconds := UnitLengths();
    timeFrame := TimeFrameCalculation.Divide(frame, remainingTime, millisecondsPerWeek, millisecondsPerDay,
      millisecondsPerHour, millisecondsPerMinute, millisecondsPerSeconds);
  }

  /**
   * `calculateTimeFrame(startDate, endDate)` of the utilities: the same
   * breakdown as src/utils/calculate-time-frame.ts, with `between` and
   * `millisecondsPerUnit` in place of `getConverter`.
   */
  method CalculateTimeFrame(s: DateArg, e: DateArg) returns (r: Result<TimeFrame>)
    ensures r == TimeFrameCalculation.TimeFrameOf(s, e)
  {
    var timeFrame := CreateTimeframe();
    var years, totalMonths := YearsAndMonths(s, e);
    if years.Failure? {
      return Failure(years.error);
    }
    timeFrame := timeFrame.(years := years.value);
    timeFrame := timeFrame.(months := TimeFrameCalculation.RestMonths(totalMonths.value, timeFrame.years));
    timeFrame := FillResidual(timeFrame, s, e);
    return Success(timeFrame);
  }

  // ---------------------------------------------------------------------------
  // calculateTimespanFromString

  /** One match of the input pattern: the number of its digit group (0 when the group is empty) and its unit text. */
  datatype Entry = Entry(value: nat, text: string)

  function EntryOf(s: string, t: Token): Entry
    requires Within(s, t) && AllDigits(Amount(s, t))
  {
    Entry(DigitsValue(Amount(s, t)), UnitText(s, t))
  }

  function EntriesOf(s: string, ts: seq<Token>): (es: seq<Entry>)
    requires Readable(s, ts)
    ensures |es| == |ts|
  {
    seq(|ts|, n requires 0 <= n < |ts| => EntryOf(s, ts[n]))
  }

  /**
   * The record after the entries from position k on are stored, each in the
   * field its unit names, a later entry overwriting an earlier one; the first
   * entry whose unit is not in the vocabulary is the error `pluralUnit` raises.
   */
  function Fill(tf: TimeFrame, es: seq<Entry>, k: nat): Result<TimeFrame>
    requires k <= |es|
    decreases |es| - k
  {
    if k == |es| then Success(tf)
    else match Parse(es[k].text)
      case None => Failure("Invalid date unit: " + es[k].text)
      case Some(tu) => Fill(Set(tf, tu.unit, es[k].value), es, k + 1)
  }

  /** The position of the first entry from k on whose unit is not in the vocabulary, or |es| when there is none. */
  function FirstUnknown(es: seq<Entry>, k: nat): (n: nat)
    requires k <= |es|
    ensures k <= n <= |es|
    decreases |es| - k
  {
    if k == |es| then |es| else if Parse(es[k].text).None? then k else FirstUnknown(es, k + 1)
  }

  /** The input cap and the whitelist, checked before any match is tried. */
  predicate Admissible(input: string) {
    |input| <= Constants.MaxInputStringLength && Constants.MatchesAllowedPattern(input)
  }

  /** The matches the shared input pattern finds when its scan starts at `from` (none when `from` is past the end). */
  function Matches(input: string, from: nat): (ts: seq<Token>)
    ensures Readable(input, ts)
  {
    if from <= |input| then
      TokensWellFormed(InputPattern, input, from);
      Tokens(InputPattern, input, from)
    else []
  }

  /**
   * What `calculateTimespanFromString` makes of its input when the shared
   * pattern's scan starts at `from`: the guards' error, no match at all, or the
   * record the matches fill.
   */
  function ParseFields(input: string, from: nat): Result<TimeFrame> {
    if !Admissible(input) then Failure("Invalid input string")
    else if Matches(input, from) == [] then Failure("Invalid unit")
    else Fill(CreateTimeframe(), EntriesOf(input, Matches(input, from)), 0)
  }

  /**
   * Where the shared pattern's `lastIndex` is left: untouched when a guard
   * fails, at the end of the match whose unit is unknown, and back at 0 when the
   * scan runs out of matches.
   */
  function LastIndexAfter(input: string, from: nat): nat {
    if !Admissible(input) then from
    else
      var ts := Matches(input, from);
      var n := FirstUnknown(EntriesOf(input, ts), 0);
      if n < |ts| then ts[n].end else 0
  }

  /** The end the parsed record gives: the start moved on by years and months with the setters, then by the rest. */
  function EndOf(start: int, tf: TimeFrame): int {
    TimeFrameCalculation.Shifted(start, tf.years, tf.months) + TimeFrameCalculation.ResidualSum(tf)
  }

  /** Lines 94-105: a copy of the start moved on field by field with the UTC setters. */
  method ShiftEnd(start: int, timeframe: TimeFrame) returns (endDate: int)
    ensures endDate == EndOf(start, timeframe)
  {
    endDate := start;
    endDate := TimeFrameCalculation.YearsLater(endDate, timeframe.years);
    endDate := TimeFrameCalculation.MonthsLater(endDate, timeframe.months);
    ghost var shifted := endDate;
    ghost var before := endDate;
    endDate := Calendar.SetUTCDate(endDate, Calendar.DateFromTime(endDate) + timeframe.weeks * Constants.DaysPerWeek);
    Calendar.SetUTCDateShift(before, timeframe.weeks * Constants.DaysPerWeek);
    before := endDate;
    endDate := Calendar.SetUTCDate(endDate, Calendar.DateFromTime(endDate) + timeframe.days);
    Calendar.SetUTCDateShift(before, timeframe.days);
    before := endDate;
    endDate := Calendar.SetUTCHours(endDate, Calendar.HourFromTime(endDate) + timeframe.hours);
    Calendar.SetUTCHoursShift(before, timeframe.hours);
    before := endDate;
    endDate := Calendar.SetUTCMinutes(endDate, Calendar.MinFromTime(endDate) + timeframe.minutes);
    Calendar.SetUTCMinutesShift(before, timeframe.minutes);
    before := endDate;
    endDate := Calendar.SetUTCSeconds(endDate, Calendar.SecFromTime(endDate) + timeframe.seconds);
    Calendar.SetUTCSecondsShift(before, timeframe.seconds);
    before := endDate;
    endDate := Calendar.SetUTCMilliseconds(endDate, Calendar.MsFromTime(endDate) + timeframe.milliseconds);
    Calendar.SetUTCMillisecondsShift(before, timeframe.milliseconds);
  }

  /** One more entry stored: what the remaining entries make of the new record is what they made of the old. */
  lemma FillAdvance(es: seq<Entry>, k: nat, before: TimeFrame, next: TimeFrame)
    requires k < |es| && Parse(es[k].text).Some? && next == Set(before, Parse(es[k].text).value.unit, es[k].value)
    ensures Fill(before, es, k) == Fill(next, es, k + 1)
    ensures FirstUnknown(es, k) == FirstUnknown(es, k + 1)
  {
  }

  /**
   * Lines 53-91 of `calculateTimespanFromString`: the guards, then the scan of
   * the input with the module's shared global pattern as `regex`, whose
   * `lastIndex` it reads and leaves behind, storing each match in its field.
   */
  method ScanFields(regex: GlobalRegex, input: string) returns (r: Result<TimeFrame>)
    requires regex.pattern == InputPattern
    modifies regex
    ensures r == ParseFields(input, old(regex.lastIndex))
    ensures regex.lastIndex == LastIndexAfter(input, old(regex.lastIndex))
  {
    if |input| > Constants.MaxInputStringLength {
      return Failure("Invalid input string");
    }
    if !Constants.MatchesAllowedPattern(input) {
      return Failure("Invalid input string");
    }
    var timeframe := CreateTimeframe();
    ghost var from := regex.lastIndex;
    var m := regex.Exec(input);
    if m.None? {
      return Failure("Invalid unit");
    }
    ghost var all := Matches(input, from);
    assert all == Tokens(InputPattern, input, from);
    TokenAt(InputPattern, input, from, 0);
    ghost var es := EntriesOf(input, all);
    ghost var k := 0;
    while m.Some?
      invariant regex.pattern == InputPattern && 0 <= k <= |all|
      invariant m == if k < |all| then Some(all[k]) else None
      invariant regex.lastIndex == if m.Some? then all[k].end else 0
      invariant Fill(CreateTimeframe(), es, 0) == Fill(timeframe, es, k)
      invariant FirstUnknown(es, 0) == FirstUnknown(es, k)
      decreases |all| - k
    {
      var value := DigitsValue(Amount(input, m.value));
      var unit := UnitText(input, m.value);
      assert es[k] == Entry(value, unit);
      var plural := DateUnitCalculator.PluralUnit(unit);
      if plural.Failure? {
        return Failure(plural.error);
      }
      ghost var before := timeframe;
      timeframe := Set(timeframe, Parse(plural.value).value.unit, value);
      FillAdvance(es, k, before, timeframe);
      TokenAt(InputPattern, input, from, k + 1);
      m := regex.Exec(input);
      k := k + 1;
    }
    return Success(timeframe);
  }

  /**
   * `calculateTimespanFromString(input, startDate)`, with the clock's reading
   * `now` for a missing start and the module's shared global pattern as
   * `regex`, whose `lastIndex` the call reads and leaves behind.
   */
  method CalculateTimespanFromString(regex: GlobalRegex, input: string, startDate: Option<int>, now: int)
    returns (r: Result<Timespans.Timespan>)
    requires regex.pattern == InputPattern
    modifies regex
    ensures r.Failure? <==> ParseFields(input, old(regex.lastIndex)).Failure?
    ensures r.Failure? ==> r.error == ParseFields(input, old(regex.lastIndex)).error
    ensures r.Success? ==> fresh(r.value) && r.value.Valid() && r.value.startDate == StartOf(startDate, now)
    ensures r.Success? ==> r.value.endDate == EndOf(StartOf(startDate, now), ParseFields(input, old(regex.lastIndex)).value)
    ensures regex.lastIndex == LastIndexAfter(input, old(regex.lastIndex))
  {
    var start := if startDate.Some? then startDate.value else now;
    var timeframe := ScanFields(regex, input);
    if timeframe.Failure? {
      return Failure(timeframe.error);
    }
    var endDate := ShiftEnd(start, timeframe.value);
    var t := new Timespans.Timespan(start, endDate);
    return Success(t);
  }

  /**
   * `calculateTimespanFromString` with the shared pattern's `lastIndex` put back
   * to 0 first, so that every call scans its whole input whatever an earlier
   * call left behind.
   */
  method CalculateTimespanFromStringReset(regex: GlobalRegex, input: string, startDate: Option<int>, now: int)
    returns (r: Result<Timespans.Timespan>)
    requires regex.pattern == InputPattern
    modifies regex
    ensures r.Failure? <==> ParseFields(input, 0).Failure?
    ensures r.Failure? ==> r.error == ParseFields(input, 0).error
    ensures r.Success? ==> fresh(r.value) && r.value.Valid() && r.value.startDate == StartOf(startDate, now)
    ensures r.Success? ==> r.value.endDate == EndOf(StartOf(startDate, now), ParseFields(input, 0).value)
  {
    regex.lastIndex := 0;
    r := CalculateTimespanFromString(regex, input, startDate, now);
  }

  // ---------------------------------------------------------------------------
  // Properties of the parser

  /** The entries from k on fill the record exactly when every unit among them is in the vocabulary. */
  lemma {:induction false} FillSucceeds(tf: TimeFrame, es: seq<Entry>, k: nat)
    requires k <= |es|
    ensures Fill(tf, es, k).Success? <==> FirstUnknown(es, k) == |es|
    ensures Fill(tf, es, k).Failure? ==> Fill(tf, es, k).error == "Invalid date unit: " + es[FirstUnknown(es, k)].text
    decreases |es| - k
  {
    if k < |es| && Parse(es[k].text).Some? {
      FillSucceeds(Set(tf, Parse(es[k].text).value.unit, es[k].value), es, k + 1);
    }
  }

  /** An entry that no later entry for the same unit follows decides that unit's field. */
  lemma {:induction false} LastEntryWins(tf: TimeFrame, es: seq<Entry>, k: nat, n: nat)
    requires k <= n < |es| && Fill(tf, es, k).Success? && Parse(es[n].text).Some?
    requires forall j :: n < j < |es| && Parse(es[j].text).Some? ==> Parse(es[j].text).value.unit != Parse(es[n].text).value.unit
    ensures Get(Fill(tf, es, k).value, Parse(es[n].text).value.unit) == es[n].value
    decreases |es| - k
  {
    var next := Set(tf, Parse(es[k].text).value.unit, es[k].value);
    if k < n {
      LastEntryWins(next, es, k + 1, n);
    } else {
      FieldsUntouched(next, es, k + 1, Parse(es[n].text).value.unit);
    }
  }

  /** A field no entry from k on names keeps the value it had. */
  lemma {:induction false} FieldsUntouched(tf: TimeFrame, es: seq<Entry>, k: nat, u: Unit)
    requires k <= |es| && Fill(tf, es, k).Success?
    requires forall j :: k <= j < |es| && Parse(es[j].text).Some? ==> Parse(es[j].text).value.unit != u
    ensures Get(Fill(tf, es, k).value, u) == Get(tf, u)
    decreases |es| - k
  {
    if k < |es| {
      FieldsUntouched(Set(tf, Parse(es[k].text).value.unit, es[k].value), es, k + 1, u);
    }
  }

  /**
   * The outcomes of the parse: the guards' error exactly for an input over 75
   * characters or outside the whitelist; "Invalid unit" exactly when an
   * admissible input has no match; otherwise the error of the first match whose
   * unit is unknown, or a record.
   */
  lemma ParseOutcomes(input: string, from: nat)
    ensures ParseFields(input, from) == Failure("Invalid input string") <==> !Admissible(input)
    ensures ParseFields(input, from) == Failure("Invalid unit") <==> Admissible(input) && Matches(input, from) == []
    ensures Admissible(input) && Matches(input, from) != [] ==>
      var es := EntriesOf(input, Matches(input, from));
      (ParseFields(input, from).Success? <==> FirstUnknown(es, 0) == |es|) &&
      (ParseFields(input, from).Failure? ==> ParseFields(input, from).error == "Invalid date unit: " + es[FirstUnknown(es, 0)].text)
  {
    if Admissible(input) && Matches(input, from) != [] {
      var es := EntriesOf(input, Matches(input, from));
      FillSucceeds(CreateTimeframe(), es, 0);
      if FirstUnknown(es, 0) < |es| {
        MessagesDiffer(es[FirstUnknown(es, 0)].text);
      }
    }
  }

  /** The unknown-unit error is neither of the other two messages. */
  lemma MessagesDiffer(text: string)
    ensures "Invalid date unit: " + text != "Invalid input string"
    ensures "Invalid date unit: " + text != "Invalid unit"
  {
    assert ("Invalid date unit: " + text)[8] == 'd';
  }

  /** A successful parse stores each unit's last entry and leaves the fields no entry names at 0. */
  lemma ParsedFields(input: string, from: nat, u: Unit)
    requires ParseFields(input, from).Success?
    ensures var es := EntriesOf(input, Matches(input, from));
      (forall j :: 0 <= j < |es| ==> Parse(es[j].text).Some?) &&
      ((forall j :: 0 <= j < |es| ==> Parse(es[j].text).value.unit != u) ==> Get(ParseFields(input, from).value, u) == 0)
  {
    var es := EntriesOf(input, Matches(input, from));
    FillSucceeds(CreateTimeframe(), es, 0);
    forall j | 0 <= j < |es|
      ensures Parse(es[j].text).Some?
    {
      NoUnknownBefore(es, 0, j);
    }
    if forall j :: 0 <= j < |es| ==> Parse(es[j].text).value.unit != u {
      FieldsUntouched(CreateTimeframe(), es, 0, u);
    }
  }

  /** With no unknown unit from k on, every entry from k on has a unit. */
  lemma {:induction false} NoUnknownBefore(es: seq<Entry>, k: nat, j: nat)
    requires k <= j < |es| && FirstUnknown(es, k) == |es|
    ensures Parse(es[j].text).Some?
    decreases j - k
  {
    if k < j {
      NoUnknownBefore(es, k + 1, j);
    }
  }

  // ---------------------------------------------------------------------------
  // Examples

  /** "5x" passes the guards and is one match: the amount "5" and the unit "x". */
  lemma FiveXMatch()
    ensures Admissible("5x") && Matches("5x", 0) == [Token(0, 1, 1, 2)]
  {
    var s := "5x";
    var t := Token(0, 1, 1, 2);
    assert Constants.IsAllowedChar(s[0]) && Constants.IsAllowedChar(s[1]);
    assert Run(s, 0, Digit) == 1 && Run(s, 1, UnitChar) == 1;
    assert Find(InputPattern, s, 0) == Some(t);
    assert Find(InputPattern, s, 2) == None;
  }

  /** "5h" passes the guards and is one match: the amount "5" and the unit "h". */
  lemma FiveHMatch()
    ensures Admissible("5h") && Matches("5h", 0) == [Token(0, 1, 1, 2)]
  {
    var s := "5h";
    var t := Token(0, 1, 1, 2);
    assert Constants.IsAllowedChar(s[0]) && Constants.IsAllowedChar(s[1]);
    assert Run(s, 0, Digit) == 1 && Run(s, 1, UnitChar) == 1;
    assert Find(InputPattern, s, 0) == Some(t);
    assert Find(InputPattern, s, 2) == None;
  }

  /** "5x" names no unit: the error quotes it, and `lastIndex` stays at the end of its match. */
  lemma UnknownUnitLeavesIndex()
    ensures ParseFields("5x", 0) == Failure("Invalid date unit: x")
    ensures LastIndexAfter("5x", 0) == 2
  {
    FiveXMatch();
    FiveXUnit();
    var es := EntriesOf("5x", [Token(0, 1, 1, 2)]);
    assert FirstUnknown(es, 0) == 0;
  }

  /** The unit of the match in "5x" is "x", which names no unit. */
  lemma FiveXUnit()
    ensures EntriesOf("5x", [Token(0, 1, 1, 2)])[0].text == "x" && Parse("x") == None
  {
    var s := "5x";
    var t := Token(0, 1, 1, 2);
    assert Within(s, t) && AllDigits(Amount(s, t));
    assert UnitText(s, t) == "x";
  }

  /** The match in "5h" reads as five of the unit "h", the symbol for hours. */
  lemma FiveHEntry()
    ensures EntriesOf("5h", [Token(0, 1, 1, 2)]) == [Entry(5, "h")]
    ensures Parse("h") == Some(TimeUnit(Hour, Symbol))
  {
    var s := "5h";
    var t := Token(0, 1, 1, 2);
    assert Within(s, t) && AllDigits(Amount(s, t));
    assert Amount(s, t) == "5" && DigitsValue("5") == 5;
    assert UnitText(s, t) == "h" == Text(TimeUnit(Hour, Symbol));
    ParseOfText(TimeUnit(Hour, Symbol));
  }

  /** "5h" scanned from the start is five hours. */
  lemma FiveHours()
    ensures ParseFields("5h", 0) == Success(CreateTimeframe().(hours := 5))
  {
    FiveHMatch();
    FiveHEntry();
    var es := EntriesOf("5h", [Token(0, 1, 1, 2)]);
    assert Fill(CreateTimeframe().(hours := 5), es, 1) == Success(CreateTimeframe().(hours := 5));
  }

  /** "5h" scanned from where "5x" left the shared pattern finds no match. */
  lemma StaleIndexMissesMatch()
    ensures ParseFields("5h", 2) == Failure("Invalid unit")
  {
    var s := "5h";
    assert Constants.IsAllowedChar(s[0]) && Constants.IsAllowedChar(s[1]);
    assert Find(InputPattern, s, 2) == None;
  }

  /**
   * A call on "5x" fails on its unknown unit and leaves the shared pattern's
   * `lastIndex` at 2; the next call, on the valid "5h", then starts its scan at
   * 2 and fails with "Invalid unit", where a scan from the start gives five hours.
   */
  lemma StaleLastIndex()
    ensures LastIndexAfter("5x", 0) == 2
    ensures ParseFields("5h", LastIndexAfter("5x", 0)) == Failure("Invalid unit")
    ensures ParseFields("5h", 0) == Success(CreateTimeframe().(hours := 5))
  {
    UnknownUnitLeavesIndex();
    StaleIndexMissesMatch();
    FiveHours();
  }
}

=== FILE: unit_conversion_map.dfy ===
/**
 * The alias table built at load time from the converters' own alias arrays,
 * the list of accepted units collected alongside it, and `getConverter`, which
 * validates a unit against that list before looking it up.
 *
 * Both are built from `Aliases(src, ·)`: with `AsWritten` the year and hour
 * converters contribute only three spellings each, so "years", "year", "hours"
 * and "hour" are not accepted; the rest of the model uses `Corrected`.
 */
module UnitConversionMap {
  import opened Wrappers
  import opened DateUnitConverter
  import opened UnitsOfTime
  import opened Converters

  /** The converter instances in the order the table is filled. */
  const ConverterOrder: seq<Unit> := [Year, Month, Week, Day, Hour, Minute, Second, Millisecond]

  /** t with every alias in `aliases` set to converter c, one after the other. */
  function AddAliases(t: map<TimeUnit, Unit>, aliases: seq<TimeUnit>, c: Unit): map<TimeUnit, Unit>
  {
    if |aliases| == 0 then t else AddAliases(t, aliases[..|aliases| - 1], c)[aliases[|aliases| - 1] := c]
  }

  /** The table after the converters in `convs` have entered their aliases. */
  function TableOf(src: AliasSource, convs: seq<Unit>): map<TimeUnit, Unit>
  {
    if |convs| == 0 then map[]
    else AddAliases(TableOf(src, convs[..|convs| - 1]), Aliases(src, convs[|convs| - 1]), convs[|convs| - 1])
  }

  /** `list` extended by the aliases not yet in it, in order, as a Set keeps its first insertion. */
  function AddNew(list: seq<TimeUnit>, aliases: seq<TimeUnit>): seq<TimeUnit>
  {
    if |aliases| == 0 then list
    else
      var before := AddNew(list, aliases[..|aliases| - 1]);
      var a := aliases[|aliases| - 1];
      if a in before then before else before + [a]
  }

  /** The units collected from the converters in `convs`. */
  function UnitsOf(src: AliasSource, convs: seq<Unit>): seq<TimeUnit>
  {
    if |convs| == 0 then []
    else AddNew(UnitsOf(src, convs[..|convs| - 1]), Aliases(src, convs[|convs| - 1]))
  }

  /** The table filled at load time: for each converter, for each of its aliases, table[alias] := converter. */
  method BuildTable(src: AliasSource) returns (table: map<TimeUnit, Unit>)
    ensures table == TableOf(src, ConverterOrder)
  {
    table := map[];
    for i := 0 to |ConverterOrder|
      invariant table == TableOf(src, ConverterOrder[..i])
    {
      var converter := ConverterOrder[i];
      var aliases := Aliases(src, converter);
      ghost var before := table;
      for j := 0 to |aliases|
        invariant table == AddAliases(before, aliases[..j], converter)
      {
        assert aliases[..j + 1][..j] == aliases[..j];
        table := table[aliases[j] := converter];
      }
      assert aliases[..|aliases|] == aliases;
      assert ConverterOrder[..i + 1][..i] == ConverterOrder[..i];
    }
    assert ConverterOrder[..|ConverterOrder|] == ConverterOrder;
  }

  /** The unit list filled at load time: every alias of every converter added to a Set, then spread into an array. */
  method CollectTimeUnits(src: AliasSource) returns (units: seq<TimeUnit>)
    ensures units == UnitsOf(src, ConverterOrder)
  {
    units := [];
    for i := 0 to |ConverterOrder|
      invariant units == UnitsOf(src, ConverterOrder[..i])
    {
      var aliases := Aliases(src, ConverterOrder[i]);
      ghost var before := units;
      for j := 0 to |aliases|
        invariant units == AddNew(before, aliases[..j])
      {
        assert aliases[..j + 1][..j] == aliases[..j];
        if aliases[j] !in units {
          units := units + [aliases[j]];
        }
      }
      assert aliases[..|aliases|] == aliases;
      assert ConverterOrder[..i + 1][..i] == ConverterOrder[..i];
    }
    assert ConverterOrder[..|ConverterOrder|] == ConverterOrder;
  }

  /** A key of AddAliases is an old key or one of the aliases; every alias maps to c. */
  lemma {:induction false} AddAliasesKeys(t: map<TimeUnit, Unit>, aliases: seq<TimeUnit>, c: Unit, k: TimeUnit)
    ensures k in AddAliases(t, aliases, c) <==> k in t || k in aliases
    ensures k in aliases ==> AddAliases(t, aliases, c)[k] == c
    ensures k !in aliases && k in t ==> AddAliases(t, aliases, c)[k] == t[k]
  {
    if |aliases| > 0 {
      var init := aliases[..|aliases| - 1];
      AddAliasesKeys(t, init, c, k);
      assert aliases == init + [aliases[|aliases| - 1]];
    }
  }

  /** A key of the table is an alias of one of the converters entered, and it maps to its own unit's converter. */
  lemma {:induction false} TableOfKeys(src: AliasSource, convs: seq<Unit>, k: TimeUnit)
    ensures k in TableOf(src, convs) <==> k.unit in convs && k in Aliases(src, k.unit)
    ensures k in TableOf(src, convs) ==> TableOf(src, convs)[k] == k.unit
  {
    if |convs| > 0 {
      var init, last := convs[..|convs| - 1], convs[|convs| - 1];
      TableOfKeys(src, init, k);
      AddAliasesKeys(TableOf(src, init), Aliases(src, last), last, k);
      AliasesOfUnit(src, last, k);
      AliasesOfUnit(src, k.unit, k);
      assert convs == init + [last];
    }
  }

  /** AddNew keeps what was there, adds exactly the aliases, and adds each once. */
  lemma {:induction false} AddNewElements(list: seq<TimeUnit>, aliases: seq<TimeUnit>)
    ensures forall k :: k in AddNew(list, aliases) <==> k in list || k in aliases
    ensures Distinct(list) ==> Distinct(AddNew(list, aliases))
  {
    if |aliases| > 0 {
      var init := aliases[..|aliases| - 1];
      AddNewElements(list, init);
      assert aliases == init + [aliases[|aliases| - 1]];
    }
  }

  predicate Distinct(s: seq<TimeUnit>) {
    forall i, j :: 0 <= i < j < |s| ==> s[i] != s[j]
  }

  /** The collected units are the aliases of the converters entered, each once. */
  lemma {:induction false} UnitsOfElements(src: AliasSource, convs: seq<Unit>, k: TimeUnit)
    ensures k in UnitsOf(src, convs) <==> k.unit in convs && k in Aliases(src, k.unit)
    ensures Distinct(UnitsOf(src, convs))
  {
    if |convs| > 0 {
      var init, last := convs[..|convs| - 1], convs[|convs| - 1];
      UnitsOfElements(src, init, k);
      AddNewElements(UnitsOf(src, init), Aliases(src, last));
      AliasesOfUnit(src, last, k);
      AliasesOfUnit(src, k.unit, k);
      assert convs == init + [last];
    }
  }

  /** `getTimeUnits`. */
  function GetTimeUnits(src: AliasSource): seq<TimeUnit> {
    UnitsOf(src, ConverterOrder)
  }

  /** The table's keys are exactly the listed units, and each key maps to its own unit's converter. */
  lemma TableMatchesUnits(src: AliasSource, k: TimeUnit)
    ensures k in TableOf(src, ConverterOrder) <==> k in GetTimeUnits(src)
    ensures k in TableOf(src, ConverterOrder) ==> TableOf(src, ConverterOrder)[k] == k.unit
    ensures k in GetTimeUnits(src) <==> k in Aliases(src, k.unit)
    ensures Distinct(GetTimeUnits(src))
  {
    TableOfKeys(src, ConverterOrder, k);
    UnitsOfElements(src, ConverterOrder, k);
  }

  /** Corrected, every one of the 40 spellings is listed; as written, the plural and singular year and hour spellings are missing. */
  lemma ListedUnits(k: TimeUnit)
    ensures k in GetTimeUnits(Corrected)
    ensures k in GetTimeUnits(AsWritten) <==> !(k.unit in {Year, Hour} && k.form in {PluralName, SingularName})
  {
    TableMatchesUnits(Corrected, k);
    TableMatchesUnits(AsWritten, k);
    AliasesOfUnit(Corrected, k.unit, k);
    AliasesOfUnit(AsWritten, k.unit, k);
  }

  /** `getConverter`: the unit must be one of getTimeUnits, otherwise the validity assertion throws. */
  function GetConverter(src: AliasSource, unit: string): (r: Result<Unit>)
    ensures r.Success? <==> Parse(unit).Some? && Parse(unit).value in GetTimeUnits(src)
    ensures r.Failure? ==> r.error == "Invalid date unit: " + unit + "."
    ensures r.Success? ==> Parse(unit).value in Aliases(src, r.value)
  {
    if Parse(unit).Some? && Parse(unit).value in GetTimeUnits(src) then
      var tu := Parse(unit).value;
      TableMatchesUnits(src, tu);
      Success(TableOf(src, ConverterOrder)[tu])
    else Failure("Invalid date unit: " + unit + ".")
  }

  /** As written, "years", "year", "hours" and "hour" are rejected and every other spelling reaches its converter; corrected, every spelling does. */
  lemma GetConverterOfText(tu: TimeUnit)
    ensures GetConverter(Corrected, Text(tu)) == Success(tu.unit)
    ensures tu.unit in {Year, Hour} && tu.form in {PluralName, SingularName} ==>
      GetConverter(AsWritten, Text(tu)) == Failure("Invalid date unit: " + Text(tu) + ".")
    ensures !(tu.unit in {Year, Hour} && tu.form in {PluralName, SingularName}) ==>
      GetConverter(AsWritten, Text(tu)) == Success(tu.unit)
  {
    ParseOfText(tu);
    ListedUnits(tu);
    TableMatchesUnits(Corrected, tu);
    TableMatchesUnits(AsWritten, tu);
  }

  /** The corrected lookup of a string literal that spells tu: the same fact, stated about the literal. */
  lemma GetConverterOfSpelling(tu: TimeUnit, unit: string)
    requires unit == Text(tu)
    ensures GetConverter(Corrected, unit) == Success(tu.unit)
  {
    GetConverterOfText(tu);
  }
}

=== FILE: unit_multipliers.dfy ===
/**
 * The multiplier record: milliseconds per unit for 38 spellings, with a 30-day
 * month and a 365-day year. "dy" and "millisecond" are not keys.
 */
module UnitMultipliers {
  import opened Wrappers
  import opened DateUnitConverter
  import opened UnitsOfTime
  import Converters
  import TimeUnitEnum

  /** The multiplier for a key, None for a spelling that is not a key. */
  function Multiplier(tu: TimeUnit): Option<int> {
    match tu
    case TimeUnit(Millisecond, Symbol) => Some(1)  // ms
    case TimeUnit(Millisecond, ShortPlural) => Some(1)  // mss
    case TimeUnit(Millisecond, ShortName) => Some(1)  // msec
    case TimeUnit(Millisecond, PluralName) => Some(1)  // milliseconds
    case TimeUnit(Second, Symbol) => Some(1000)  // s
    case TimeUnit(Second, ShortName) => Some(1000)  // sec
    case TimeUnit(Second, ShortPlural) => Some(1000)  // secs
    case TimeUnit(Second, SingularName) => Some(1000)  // second
    case TimeUnit(Second, PluralName) => Some(1000)  // seconds
    case TimeUnit(Minute, Symbol) => Some(60000)  // m
    case TimeUnit(Minute, ShortName) => Some(60000)  // min
    case TimeUnit(Minute, ShortPlural) => Some(60000)  // mins
    case TimeUnit(Minute, SingularName) => Some(60000)  // minute
    case TimeUnit(Minute, PluralName) => Some(60000)  // minutes
    case TimeUnit(Hour, Symbol) => Some(3600000)  // h
    case TimeUnit(Hour, ShortName) => Some(3600000)  // hr
    case TimeUnit(Hour, ShortPlural) => Some(3600000)  // hrs
    case TimeUnit(Hour, SingularName) => Some(3600000)  // hour
    case TimeUnit(Hour, PluralName) => Some(3600000)  // hours
    case TimeUnit(Day, Symbol) => Some(86400000)  // d
    case TimeUnit(Day, ShortPlural) => Some(86400000)  // dys
    case TimeUnit(Day, SingularName) => Some(86400000)  // day
    case TimeUnit(Day, PluralName) => Some(86400000)  // days
    case TimeUnit(Week, Symbol) => Some(604800000)  // w
    case TimeUnit(Week, ShortName) => Some(604800000)  // wk
    case TimeUnit(Week, ShortPlural) => Some(604800000)  // wks
    case TimeUnit(Week, SingularName) => Some(604800000)  // week
    case TimeUnit(Week, PluralName) => Some(604800000)  // weeks
    case TimeUnit(Month, Symbol) => Some(2592000000)  // M
    case TimeUnit(Month, ShortName) => Some(2592000000)  // mo
    case TimeUnit(Month, ShortPlural) => Some(2592000000)  // mos
    case TimeUnit(Month, SingularName) => Some(2592000000)  // month
    case TimeUnit(Month, PluralName) => Some(2592000000)  // months
    case TimeUnit(Year, Symbol) => Some(31536000000)  // y
    case TimeUnit(Year, ShortName) => Some(31536000000)  // yr
    case TimeUnit(Year, ShortPlural) => Some(31536000000)  // yrs
    case TimeUnit(Year, SingularName) => Some(31536000000)  // year
    case TimeUnit(Year, PluralName) => Some(31536000000)  // years
    case _ => None
  }

  /** A unit's multiplier: the converters' length for the fixed units, 30 days for a month. */
  function UnitMultiplier(u: Unit): (m: int)
    ensures m > 0
    ensures u != Month ==> m == Converters.MillisecondsPerUnit(u)
    ensures u == Month ==> m == 30 * Converters.MillisecondsPerUnit(Day)
  {
    match u
    case Month => 2592000000
    case _ =>
      Converters.FixedLengths(u);
      Converters.MillisecondsPerUnit(u)
  }

  /** All spellings of one unit share its multiplier, and the keys are those of the TimeUnit enum. */
  lemma MultiplierOfUnit(tu: TimeUnit)
    ensures Multiplier(tu).Some? <==> TimeUnitEnum.Member(tu).Some?
    ensures Multiplier(tu).Some? ==> Multiplier(tu).value == UnitMultiplier(tu.unit)
  {
    TimeUnitEnum.MemberIsPlural(tu);
  }

  /** "M" has the 30-day month multiplier and "m" the minute multiplier; the month converter itself has no fixed length. */
  lemma MultiplierExamples()
    ensures Multiplier(TimeUnit(Month, Symbol)) == Some(2592000000)
    ensures Multiplier(TimeUnit(Minute, Symbol)) == Some(60000)
    ensures Multiplier(TimeUnit(Year, PluralName)) == Some(365 * 86400000)
    ensures Converters.MillisecondsPerUnit(Month) == -1
  {
    MultiplierOfUnit(TimeUnit(Month, Symbol));
    MultiplierOfUnit(TimeUnit(Minute, Symbol));
    MultiplierOfUnit(TimeUnit(Year, PluralName));
    Converters.FixedLengths(Month);
  }
}

=== FILE: units_of_time.dfy ===
/**
 * The unit vocabulary. A time unit is one of 40 spellings: eight groups, one
 * per converter, of five spellings each. A spelling is modelled as its unit and
 * its form; `Text` gives the string it stands for and `Parse` reads a string
 * back, failing for anything outside the vocabulary.
 */
module UnitsOfTime {
  import opened Wrappers
  import opened DateUnitConverter

  /** The five forms every group has: "years", "year", "yrs", "yr", "y" and the like. */
  datatype Form = PluralName | SingularName | ShortPlural | ShortName | Symbol

  /** One of the 40 spellings of the union type TimeUnit. */
  datatype TimeUnit = TimeUnit(unit: Unit, form: Form)

  function Text(tu: TimeUnit): string {
    match tu
    case TimeUnit(Millisecond, PluralName) => "milliseconds"
    case TimeUnit(Millisecond, SingularName) => "millisecond"
    case TimeUnit(Millisecond, ShortPlural) => "mss"
    case TimeUnit(Millisecond, ShortName) => "msec"
    case TimeUnit(Millisecond, Symbol) => "ms"
    case TimeUnit(Second, PluralName) => "seconds"
    case TimeUnit(Second, SingularName) => "second"
    case TimeUnit(Second, ShortPlural) => "secs"
    case TimeUnit(Second, ShortName) => "sec"
    case TimeUnit(Second, Symbol) => "s"
    case TimeUnit(Minute, PluralName) => "minutes"
    case TimeUnit(Minute, SingularName) => "minute"
    case TimeUnit(Minute, ShortPlural) => "mins"
    case TimeUnit(Minute, ShortName) => "min"
    case TimeUnit(Minute, Symbol) => "m"
    case TimeUnit(Hour, PluralName) => "hours"
    case TimeUnit(Hour, SingularName) => "hour"
    case TimeUnit(Hour, ShortPlural) => "hrs"
    case TimeUnit(Hour, ShortName) => "hr"
    case TimeUnit(Hour, Symbol) => "h"
    case TimeUnit(Day, PluralName) => "days"
    case TimeUnit(Day, SingularName) => "day"
    case TimeUnit(Day, ShortPlural) => "dys"
    case TimeUnit(Day, ShortName) => "dy"
    case TimeUnit(Day, Symbol) => "d"
    case TimeUnit(Week, PluralName) => "weeks"
    case TimeUnit(Week, SingularName) => "week"
    case TimeUnit(Week, ShortPlural) => "wks"
    case TimeUnit(Week, ShortName) => "wk"
    case TimeUnit(Week, Symbol) => "w"
    case TimeUnit(Month, PluralName) => "months"
    case TimeUnit(Month, SingularName) => "month"
    case TimeUnit(Month, ShortPlural) => "mos"
    case TimeUnit(Month, ShortName) => "mo"
    case TimeUnit(Month, Symbol) => "M"
    case TimeUnit(Year, PluralName) => "years"
    case TimeUnit(Year, SingularName) => "year"
    case TimeUnit(Year, ShortPlural) => "yrs"
    case TimeUnit(Year, ShortName) => "yr"
    case TimeUnit(Year, Symbol) => "y"
  }

  /** The spelling a string is, if it is one of the 40; matching is exact and case-sensitive. */
  function Parse(s: string): Option<TimeUnit> {
    match s
    case "milliseconds" => Some(TimeUnit(Millisecond, PluralName))
    case "millisecond" => Some(TimeUnit(Millisecond, SingularName))
    case "mss" => Some(TimeUnit(Millisecond, ShortPlural))
    case "msec" => Some(TimeUnit(Millisecond, ShortName))
    case "ms" => Some(TimeUnit(Millisecond, Symbol))
    case "seconds" => Some(TimeUnit(Second, PluralName))
    case "second" => Some(TimeUnit(Second, SingularName))
    case "secs" => Some(TimeUnit(Second, ShortPlural))
    case "sec" => Some(TimeUnit(Second, ShortName))
    case "s" => Some(TimeUnit(Second, Symbol))
    case "minutes" => Some(TimeUnit(Minute, PluralName))
    case "minute" => Some(TimeUnit(Minute, SingularName))
    case "mins" => Some(TimeUnit(Minute, ShortPlural))
    case "min" => Some(TimeUnit(Minute, ShortName))
    case "m" => Some(TimeUnit(Minute, Symbol))
    case "hours" => Some(TimeUnit(Hour, PluralName))
    case "hour" => Some(TimeUnit(Hour, SingularName))
    case "hrs" => Some(TimeUnit(Hour, ShortPlural))
    case "hr" => Some(TimeUnit(Hour, ShortName))
    case "h" => Some(TimeUnit(Hour, Symbol))
    case "days" => Some(TimeUnit(Day, PluralName))
    case "day" => Some(TimeUnit(Day, SingularName))
    case "dys" => Some(TimeUnit(Day, ShortPlural))
    case "dy" => Some(TimeUnit(Day, ShortName))
    case "d" => Some(TimeUnit(Day, Symbol))
    case "weeks" => Some(TimeUnit(Week, PluralName))
    case "week" => Some(TimeUnit(Week, SingularName))
    case "wks" => Some(TimeUnit(Week, ShortPlural))
    case "wk" => Some(TimeUnit(Week, ShortName))
    case "w" => Some(TimeUnit(Week, Symbol))
    case "months" => Some(TimeUnit(Month, PluralName))
    case "month" => Some(TimeUnit(Month, SingularName))
    case "mos" => Some(TimeUnit(Month, ShortPlural))
    case "mo" => Some(TimeUnit(Month, ShortName))
    case "M" => Some(TimeUnit(Month, Symbol))
    case "years" => Some(TimeUnit(Year, PluralName))
    case "year" => Some(TimeUnit(Year, SingularName))
    case "yrs" => Some(TimeUnit(Year, ShortPlural))
    case "yr" => Some(TimeUnit(Year, ShortName))
    case "y" => Some(TimeUnit(Year, Symbol))
    case _ => None
  }

  /** The spellings of one unit: the union type of that unit (MillisecondUnit ... YearUnit). */
  function Group(u: Unit): (g: seq<TimeUnit>)
    ensures |g| == 5
    ensures forall i :: 0 <= i < 5 ==> g[i].unit == u
  {
    [TimeUnit(u, PluralName), TimeUnit(u, SingularName), TimeUnit(u, ShortPlural), TimeUnit(u, ShortName), TimeUnit(u, Symbol)]
  }

  /** The units in the order the union TimeUnit lists their groups. */
  const UnionOrder: seq<Unit> := [Millisecond, Second, Minute, Hour, Day, Week, Month, Year]

  /** All 40 spellings, group after group. */
  function AllTimeUnits(): (all: seq<TimeUnit>)
    ensures |all| == 40
  {
    Group(Millisecond) + Group(Second) + Group(Minute) + Group(Hour)
      + Group(Day) + Group(Week) + Group(Month) + Group(Year)
  }

  /** Every spelling is in its unit's group and in no other. */
  lemma GroupsPartition(tu: TimeUnit, u: Unit)
    ensures tu in Group(u) <==> tu.unit == u
  {
    if tu.unit == u {
      assert Group(u)[FormIndex(tu.form)] == tu;
    }
  }

  function FormIndex(f: Form): (i: nat)
    ensures i < 5
  {
    match f
    case PluralName => 0
    case SingularName => 1
    case ShortPlural => 2
    case ShortName => 3
    case Symbol => 4
  }

  /** The union holds every spelling exactly once. */
  lemma AllTimeUnitsComplete(tu: TimeUnit)
    ensures tu in AllTimeUnits()
  {
    GroupsPartition(tu, tu.unit);
  }

  lemma AllTimeUnitsDistinct()
    ensures forall i, j :: 0 <= i < j < |AllTimeUnits()| ==> AllTimeUnits()[i] != AllTimeUnits()[j]
  {
  }

  /** Parse reads back exactly the text of each spelling. */
  lemma ParseText(s: string, tu: TimeUnit)
    ensures Parse(s) == Some(tu) <==> s == Text(tu)
  {
    if s == Text(tu) {
      ParseOfText(tu);
    }
  }

  lemma ParseOfText(tu: TimeUnit)
    ensures Parse(Text(tu)) == Some(tu)
  {
    match tu.unit
    case Millisecond => ParseOfMillisecondText(tu.form);
    case Second => ParseOfSecondText(tu.form);
    case Minute => ParseOfMinuteText(tu.form);
    case Hour => ParseOfHourText(tu.form);
    case Day => ParseOfDayText(tu.form);
    case Week => ParseOfWeekText(tu.form);
    case Month => ParseOfMonthText(tu.form);
    case Year => ParseOfYearText(tu.form);
  }

  lemma ParseOfMillisecondText(f: Form)
    ensures Parse(Text(TimeUnit(Millisecond, f))) == Some(TimeUnit(Millisecond, f))
  {
  }

  lemma ParseOfSecondText(f: Form)
    ensures Parse(Text(TimeUnit(Second, f))) == Some(TimeUnit(Second, f))
  {
  }

  lemma ParseOfMinuteText(f: Form)
    ensures Parse(Text(TimeUnit(Minute, f))) == Some(TimeUnit(Minute, f))
  {
  }

  lemma ParseOfHourText(f: Form)
    ensures Parse(Text(TimeUnit(Hour, f))) == Some(TimeUnit(Hour, f))
  {
  }

  lemma ParseOfDayText(f: Form)
    ensures Parse(Text(TimeUnit(Day, f))) == Some(TimeUnit(Day, f))
  {
  }

  lemma ParseOfWeekText(f: Form)
    ensures Parse(Text(TimeUnit(Week, f))) == Some(TimeUnit(Week, f))
  {
  }

  lemma ParseOfMonthText(f: Form)
    ensures Parse(Text(TimeUnit(Month, f))) == Some(TimeUnit(Month, f))
  {
  }

  lemma ParseOfYearText(f: Form)
    ensures Parse(Text(TimeUnit(Year, f))) == Some(TimeUnit(Year, f))
  {
  }

  /** The 40 strings are pairwise different. */
  lemma TextInjective(a: TimeUnit, b: TimeUnit)
    requires Text(a) == Text(b)
    ensures a == b
  {
    ParseOfText(a);
    ParseOfText(b);
  }

  /** "M" is a month and only a month; "m" is a minute and only a minute; "dy" and "millisecond" are spellings. */
  lemma CaseMatters(tu: TimeUnit)
    ensures Text(tu) == "M" <==> tu == TimeUnit(Month, Symbol)
    ensures Text(tu) == "m" <==> tu == TimeUnit(Minute, Symbol)
    ensures Parse("dy") == Some(TimeUnit(Day, ShortName))
    ensures Parse("millisecond") == Some(TimeUnit(Millisecond, SingularName))
    ensures Parse("Years") == None
  {
    ParseText("M", tu);
    ParseText("m", tu);
  }
}

=== FILE: validators.dfy ===
/**
 * The type guards: total predicates on an arbitrary value that never throw.
 */
module TypeUtils {
  import opened Wrappers
  import opened UnitsOfTime
  import Converters
  import UnitConversionMap

  /** A JavaScript value as the guards see it: null, a string, a Date (whose time may be NaN) or anything else. */
  datatype Value = Null | Str(s: string) | DateValue(time: Option<int>) | Other

  /** `isValidDate`: a Date whose time is not NaN. */
  predicate IsValidDate(v: Value) {
    v.DateValue? && v.time.Some?
  }

  /** `isValidDateRange`: start's time is at most end's; a NaN on either side compares false. */
  predicate IsValidDateRange(start: Option<int>, end: Option<int>) {
    start.Some? && end.Some? && start.value <= end.value
  }

  /** `isValidTimeUnit`: the value is one of the strings getTimeUnits lists. */
  predicate IsValidTimeUnit(src: Converters.AliasSource, v: Value) {
    v.Str? && Parse(v.s).Some? && Parse(v.s).value in UnitConversionMap.GetTimeUnits(src)
  }

  /** A Date with a numeric time is valid, NaN and non-Dates are not; a range is valid exactly when start is not after end. */
  lemma DateGuards(t: int, u: int)
    ensures IsValidDate(DateValue(Some(t))) && !IsValidDate(DateValue(None))
    ensures !IsValidDate(Null) && !IsValidDate(Str("2024-01-01")) && !IsValidDate(Other)
    ensures IsValidDateRange(Some(t), Some(u)) <==> t <= u
    ensures IsValidDateRange(Some(t), Some(t)) && !IsValidDateRange(None, Some(u)) && !IsValidDateRange(Some(t), None)
  {
  }

  /** A value is a valid unit exactly when it is the text of a listed spelling. */
  lemma TimeUnitGuard(src: Converters.AliasSource, v: Value)
    ensures IsValidTimeUnit(src, v) <==> v.Str? && exists tu :: tu in UnitConversionMap.GetTimeUnits(src) && Text(tu) == v.s
  {
    if v.Str? && Parse(v.s).Some? {
      ParseText(v.s, Parse(v.s).value);
    }
    if v.Str? && exists tu :: tu in UnitConversionMap.GetTimeUnits(src) && Text(tu) == v.s {
      var tu :| tu in UnitConversionMap.GetTimeUnits(src) && Text(tu) == v.s;
      ParseOfText(tu);
    }
  }
}

=== FILE: week_converter.dfy ===
/** The week converter: a fixed 7 * 24 * 60 * 60 * 1000 milliseconds per week. */
module WeekConverter {
  import opened Wrappers
  import opened DateUnitConverter
  import opened UnitsOfTime

  const Default: TimeUnit := TimeUnit(Week, SingularName)  // "week"
  const Plural: TimeUnit := TimeUnit(Week, PluralName)  // "weeks"
  const Abbreviation: TimeUnit := TimeUnit(Week, Symbol)  // "w"
  const MillisecondsPerUnit: int := 7 * 24 * 60 * 60 * 1000
  const Aliases: seq<TimeUnit> := [TimeUnit(Week, Symbol), TimeUnit(Week, ShortName), TimeUnit(Week, ShortPlural), TimeUnit(Week, SingularName), TimeUnit(Week, PluralName)]  // "w", "wk", "wks", "week", "weeks"

  /** Whole weeks from s to e, rounded down. */
  function Between(s: DateArg, e: DateArg): (r: Result<int>)
    ensures r.Failure? <==> s.NonDate? || e.NonDate? || s.time > e.time
    ensures s.NonDate? || e.NonDate? ==> r == Failure("Invalid date inputs.")
    ensures s.DateAt? && e.DateAt? && s.time > e.time ==> r == Failure(RangeError)
    ensures r.Success? ==> r.value * MillisecondsPerUnit <= e.time - s.time < (r.value + 1) * MillisecondsPerUnit
  {
    FixedBetween(MillisecondsPerUnit, "Invalid date inputs.", s, e)
  }

  /** The instant n weeks after d. */
  function Add(n: int, d: DateArg): (r: Result<int>)
    ensures r.Failure? <==> d.NonDate? || n < 0
    ensures d.NonDate? ==> r == Failure("Invalid date input.")
    ensures d.DateAt? && n < 0 ==> r == Failure("Invalid week input.")
    ensures r.Success? ==> r.value == d.time + n * MillisecondsPerUnit
  {
    FixedAdd(MillisecondsPerUnit, "Invalid week input.", n, d)
  }

  lemma BetweenAfterAdd(n: int, t: int)
    requires n >= 0
    ensures Add(n, DateAt(t)).Success?
    ensures Between(DateAt(t), DateAt(Add(n, DateAt(t)).value)) == Success(n)
  {
    FixedBetweenAfterAdd(MillisecondsPerUnit, "Invalid date inputs.", "Invalid week input.", n, t);
  }
}

=== FILE: wrappers.dfy ===
/** Success/failure values standing for the source's returns and thrown errors. */
module Wrappers {

  /** A thrown Error is modelled by its message. */
  datatype Result<+T> = Success(value: T) | Failure(error: string) {

    predicate IsFailure() {
      Failure?
    }

    function PropagateFailure<U>(): Result<U>
      requires Failure?
    {
      Failure(error)
    }

    function Extract(): T
      requires Success?
    {
      value
    }
  }

  datatype Option<+T> = None | Some(value: T)

  /** A guard that returns nothing on success (the source's `asserts` functions). */
  datatype Outcome = Pass | Fail(error: string) {

    predicate IsFailure() {
      Fail?
    }

    function PropagateFailure<U>(): Result<U>
      requires Fail?
    {
      Failure(error)
    }
  }
}

=== FILE: year_converter.dfy ===
/**
 * The year converter. `between` is the difference of the calendar years alone;
 * `add` sets the year of a copy of the date and, when a 29 February would land
 * in a common year, pulls it back to 28 February.
 */
module YearConverter {
  import opened Wrappers
  import opened DateUnitConverter
  import opened UnitsOfTime
  import opened Calendar

  const Default: TimeUnit := TimeUnit(Year, SingularName)  // "year"
  const Plural: TimeUnit := TimeUnit(Year, PluralName)  // "years"
  const Abbreviation: TimeUnit := TimeUnit(Year, Symbol)  // "y"
  const MillisecondsPerUnit: int := 1000 * 60 * 60 * 24 * 365
  /** The aliases as the converter declares them: "year" and "years" are missing. */
  const AliasesAsWritten: seq<TimeUnit> := [TimeUnit(Year, ShortPlural), TimeUnit(Year, ShortName), TimeUnit(Year, Symbol)]  // "yrs", "yr", "y"

  /** The five spellings of the year unit, as every other table lists them. */
  const Aliases: seq<TimeUnit> := [TimeUnit(Year, PluralName), TimeUnit(Year, SingularName), TimeUnit(Year, ShortPlural), TimeUnit(Year, ShortName), TimeUnit(Year, Symbol)]  // "years", "year", "yrs", "yr", "y"

  /** Calendar years from s to e, whatever their months, dates and times. */
  function YearsBetween(s: int, e: int): int {
    YearFromTime(e) - YearFromTime(s)
  }

  /** `between`: the argument checks, then the year difference. */
  function Between(s: DateArg, e: DateArg): (r: Result<int>)
    ensures r.Failure? <==> s.NonDate? || e.NonDate? || s.time > e.time
    ensures s.NonDate? || e.NonDate? ==> r == Failure("Invalid date inputs.")
    ensures s.DateAt? && e.DateAt? && s.time > e.time ==> r == Failure(RangeError)
    ensures r.Success? ==> r.value == YearsBetween(s.time, e.time)
  {
    if s.NonDate? || e.NonDate? then Failure("Invalid date inputs.")
    else if s.time > e.time then Failure(RangeError)
    else Success(YearsBetween(s.time, e.time))
  }

  /** The count is never negative. */
  lemma YearsBetweenNonNegative(s: int, e: int)
    requires s <= e
    ensures YearsBetween(s, e) >= 0
  {
    YearFromTimeMonotone(s, e);
  }

  /** 29 February: month 1 (0-based), date 29. */
  predicate OnLeapDay(t: int) {
    MonthFromTime(t) == 1 && DateFromTime(t) == 29
  }

  /** Whether `add` pulls the date back to 28 February. */
  predicate Clamped(t: int, n: int) {
    OnLeapDay(t) && !IsLeapYear(YearFromTime(t) + n)
  }

  /** t moved into the given year: same month, date and time, or 28 February in place of a missing 29th. */
  function WithYear(t: int, year: int): int {
    if OnLeapDay(t) && !IsLeapYear(year) then MakeDate(MakeDay(year, 1, 28), TimeWithinDay(t))
    else MakeDate(MakeDay(year, MonthFromTime(t), DateFromTime(t)), TimeWithinDay(t))
  }

  /** The instant n calendar years after t. */
  function YearsLater(t: int, n: int): int {
    WithYear(t, YearFromTime(t) + n)
  }

  /** What `add` returns. */
  function Added(n: int, d: DateArg): (r: Result<int>)
    ensures r.Failure? <==> d.NonDate? || n < 0
    ensures d.NonDate? ==> r == Failure("Invalid date input.")
    ensures d.DateAt? && n < 0 ==> r == Failure("Invalid year input.")
    ensures r.Success? ==> r.value == YearsLater(d.time, n)
  {
    if d.NonDate? then Failure("Invalid date input.")
    else if n < 0 then Failure("Invalid year input.")
    else Success(YearsLater(d.time, n))
  }

  /** `add`: set the year of a copy; a 29 February moved into a common year is set to month 1, then date 28. */
  method Add(n: int, d: DateArg) returns (r: Result<int>)
    ensures r == Added(n, d)
  {
    if d.NonDate? {
      return Failure("Invalid date input.");
    }
    if n < 0 {
      return Failure("Invalid year input.");
    }
    var start := d.time;
    var startYear := YearFromTime(start);
    var targetYear := startYear + n;
    var isStartDateOnLeapYearDay := MonthFromTime(start) == 1 && DateFromTime(start) == 29;
    var dateWithYearsAdded := SetUTCFullYear(start, targetYear);
    if isStartDateOnLeapYearDay && !IsLeapYear(targetYear) {
      ghost var spilled := dateWithYearsAdded;
      dateWithYearsAdded := SetUTCMonth(dateWithYearsAdded, 1);
      ghost var february := dateWithYearsAdded;
      dateWithYearsAdded := SetUTCDate(dateWithYearsAdded, 28);
      ClampSteps(targetYear, TimeWithinDay(start), spilled, february, dateWithYearsAdded);
    } else {
      FullYearStep(start, targetYear, dateWithYearsAdded);
    }
    TargetYearReached(start, n, targetYear, dateWithYearsAdded);
    return Success(dateWithYearsAdded);
  }

  lemma TargetYearReached(t: int, n: int, year: int, x: int)
    requires year == YearFromTime(t) + n
    requires x == WithYear(t, year)
    ensures x == YearsLater(t, n)
  {
  }

  /** Setting the year keeps the month, date and time of day, through MakeDay. */
  lemma FullYearStep(t: int, year: int, x: int)
    requires x == SetUTCFullYear(t, year)
    ensures x == MakeDate(MakeDay(year, MonthFromTime(t), DateFromTime(t)), TimeWithinDay(t))
  {
  }

  /** In a common year, 29 February is 1 March. */
  lemma LeapDaySpills(year: int)
    requires !IsLeapYear(year)
    ensures MakeDay(year, 1, 29) == MakeDay(year, 2, 1)
  {
    IsLeapYearDaysInYear(year);
    MakeDayInRange(year, 1, 29);
    MakeDayInRange(year, 2, 1);
  }

  /** 29 February set into a common year is 1 March; setting month 1 gives 1 February, then date 28 gives 28 February. */
  lemma ClampSteps(year: int, time: int, spilled: int, february: int, x: int)
    requires !IsLeapYear(year) && 0 <= time < MsPerDay
    requires spilled == MakeDate(MakeDay(year, 1, 29), time)
    requires february == SetUTCMonth(spilled, 1)
    requires x == SetUTCDate(february, 28)
    ensures x == MakeDate(MakeDay(year, 1, 28), time)
  {
    LeapDaySpills(year);
    DaysInMonthBounds(year, 2);
    FieldsOfUTC(year, 2, 1, time);
    assert february == MakeDate(MakeDay(year, 1, 1), time);
    DaysInMonthBounds(year, 1);
    FieldsOfUTC(year, 1, 1, time);
  }

  /** A month has the same length in every year, except February, which has 29 days exactly in leap years. */
  lemma DaysInMonthOfYears(y1: int, y2: int, m: int)
    requires 0 <= m < 12
    ensures m != 1 ==> DaysInMonth(y1, m) == DaysInMonth(y2, m)
    ensures m == 1 ==> (DaysInMonth(y1, m) == 29 <==> IsLeapYear(y1))
    ensures m == 1 ==> (DaysInMonth(y1, m) != 29 ==> DaysInMonth(y1, m) == 28)
  {
    IsLeapYearDaysInYear(y1);
    IsLeapYearDaysInYear(y2);
  }

  /** A date on 29 February lies in a leap year. */
  lemma LeapDayInLeapYear(t: int)
    requires OnLeapDay(t)
    ensures IsLeapYear(YearFromTime(t))
  {
    DateFromDayBounds(Calendar.Day(t));
    DaysInMonthOfYears(YearFromTime(t), YearFromTime(t), 1);
  }

  /** The fields of the result: the target year, t's month and time, t's date or 28 when clamped. */
  lemma YearsLaterFields(t: int, n: int)
    ensures YearFromTime(YearsLater(t, n)) == YearFromTime(t) + n
    ensures MonthFromTime(YearsLater(t, n)) == MonthFromTime(t)
    ensures DateFromTime(YearsLater(t, n)) == (if Clamped(t, n) then 28 else DateFromTime(t))
    ensures TimeWithinDay(YearsLater(t, n)) == TimeWithinDay(t)
  {
    if Clamped(t, n) {
      ClampedFields(t, n);
    } else {
      UnclampedFields(t, n);
    }
  }

  lemma ClampedFields(t: int, n: int)
    requires Clamped(t, n)
    ensures YearFromTime(YearsLater(t, n)) == YearFromTime(t) + n
    ensures MonthFromTime(YearsLater(t, n)) == 1
    ensures DateFromTime(YearsLater(t, n)) == 28
    ensures TimeWithinDay(YearsLater(t, n)) == TimeWithinDay(t)
  {
    var year, time := YearFromTime(t) + n, TimeWithinDay(t);
    TimeDecomposition(t);
    assert YearsLater(t, n) == MakeDate(MakeDay(year, 1, 28), time);
    DaysInMonthBounds(year, 1);
    FieldsOfUTC(year, 1, 28, time);
  }

  lemma UnclampedFields(t: int, n: int)
    requires !Clamped(t, n)
    ensures YearFromTime(YearsLater(t, n)) == YearFromTime(t) + n
    ensures MonthFromTime(YearsLater(t, n)) == MonthFromTime(t)
    ensures DateFromTime(YearsLater(t, n)) == DateFromTime(t)
    ensures TimeWithinDay(YearsLater(t, n)) == TimeWithinDay(t)
  {
    var target, m, date, time := YearFromTime(t) + n, MonthFromTime(t), DateFromTime(t), TimeWithinDay(t);
    TimeDecomposition(t);
    assert YearsLater(t, n) == MakeDate(MakeDay(target, m, date), time);
    DateFitsTarget(t, n);
    FieldsOfUTC(target, m, date, time);
  }

  /** Unless clamped, t's date exists in the same month of the target year. */
  lemma DateFitsTarget(t: int, n: int)
    requires !Clamped(t, n)
    ensures 1 <= DateFromTime(t) <= DaysInMonth(YearFromTime(t) + n, MonthFromTime(t))
  {
    var y, m := YearFromTime(t), MonthFromTime(t);
    DateFromDayBounds(Calendar.Day(t));
    DaysInMonthOfYears(y, y + n, m);
    DaysInMonthOfYears(y + n, y, m);
  }

  lemma YearsLaterZero(t: int)
    ensures YearsLater(t, 0) == t
  {
    if OnLeapDay(t) {
      LeapDayInLeapYear(t);
    }
    TimeDecomposition(t);
    MakeDayOfFields(Calendar.Day(t));
  }

  /** add never moves backwards. */
  lemma YearsLaterNotEarlier(t: int, n: int)
    requires n >= 0
    ensures YearsLater(t, n) >= t
  {
    if n == 0 {
      YearsLaterZero(t);
    } else {
      var r := YearsLater(t, n);
      YearsLaterFields(t, n);
      if r < t {
        YearFromTimeMonotone(r, t);
      }
    }
  }

  /** Counting the years back over n added years gives n, the 28 February clamp included. */
  lemma BetweenAfterAdd(n: int, t: int)
    requires n >= 0
    ensures YearsLater(t, n) >= t
    ensures YearsBetween(t, YearsLater(t, n)) == n
  {
    YearsLaterFields(t, n);
    YearsLaterNotEarlier(t, n);
  }
}
